=== FILE: README.md ===
# A-mode / B-mode / Qualisys acquisition core in Dafny

This project models the data-handling core of an ultrasound acquisition tool.
The tool receives three streams:

- A-mode ultrasound frames from a TCP device;
- B-mode images;
- rigid-body poses from a Qualisys motion-capture system.

Each module below models one part of the C++ code as immutable data and
pure functions. A few loop-shaped algorithms are methods over sequences.

| module | file | models |
|---|---|---|
| `AmodeStream` | amode_stream.dfy | `AmodeConnection`: frame layout constants, separator search, cutting the receive buffer into frames, and the `memcpy` of a frame into the sample vector |
| `Bytes` | bytes.dfy | bytes, `uint16_t`/`int16_t`, little-endian encoding, `size_t` wrap-around |
| `SoftSync` | soft_sync.dfy | the latest-wins pairing of two streams, as two optional slots (`MHAWriter`) and as values plus ready flags (the two visualisers) |
| `TransformRegistry` | transform_registry.dfy | `QualisysTransformationManager` |
| `Pose` | pose.dfy | an `Eigen::Isometry3d` as 16 IEEE doubles (number, infinity or NaN) |
| `MetaImage` | metaimage.dfy | the 15 MetaIO header keys and the `key = value` line |
| `MhaWriter` | mha_writer.dfy | `MHAWriter`: pairing, the recorded vectors, and the text and bytes of the sequence file |
| `MhaReader` | mha_reader.dfy | `MHAReader`: header parsing and the split into text and volume |
| `MhaRoundTrip` | mha_roundtrip.dfy | reading back a file the writer produced |
| `AmodeConfig` | amode_config.dfy | `AmodeConfig`: the probe table, lookups, group names, windows and window export |
| `DataManipulator` | data_manipulator.dfy | `AmodeDataManipulator::getRow` and `downsampleVector` |
| `Volume3D` | volume3d.dfy | `Volume3DController`: thresholding, value lookup, `ind2sub`, initial threshold |
| `VolumeAmode` | volume_amode.dfy | `VolumeAmodeController`: display modes, display-matrix layout, and frame/pose synchronisation |
| `BmodeVisualizer` | bmode_visualizer.dfy | `Bmode3DVisualizer`: image/pose synchronisation and the `firstData` create-then-update switch |
| `Text`, `Seqs`, `CInt`, `OrderedMap`, `StringOrder`, `FilePath`, `Wrappers` | | the standard-library behaviour the core relies on |

The standard-library models are:

- `std::stoi`/`std::stod`, `istream_iterator` reads, `getline` splitting, whitespace trimming and `find`;
- C++ truncating `/` and `%`;
- `std::map` and `std::set` iteration order;
- `std::filesystem::path` parts;
- `Option`/`Result`.

Nothing from outside the process is modelled; each such input is a parameter instead:

- the bytes a socket delivers;
- the file contents a reader sees;
- the clock reading, as milliseconds elapsed;
- the date-time stamp;
- whether a file opened;
- the formatter `operator<<` uses for doubles.

An exception the C++ code throws becomes a `Failure` of a `Result`.

Where the code and its documentation differ, the model follows the code:

- **No length check on a frame.** `readData` copies `usdata_datasize_` bytes
  from each frame without checking the frame's length. A frame too short for
  that copy is excluded by a precondition (`Fits`). It is not skipped.
- **Leading bytes are kept.** When no second separator has arrived,
  `readData` leaves its buffer as it is, bytes before the first separator
  included. They are not discarded.
- **The first copied word is the frame index.** The copy starts two bytes
  before the data (`startIndex - sizeof(uint16_t)`). So the first copied word
  is the frame index and the last data sample is not copied
  (`AmodeStream.DeviceFrameDecodes`).
- **Fourteen header lines.** The writer's header section has 14 lines,
  from `ObjectType` to `UltrasoundImageType`. `ElementDataFile` follows after
  the per-frame lines.
- **An unknown display mode keeps the old count.** Such a mode leaves
  `n_signaldisplay` as it was and empties the rotation list. The display
  matrix is then `n` blocks wide with no block written
  (`VolumeAmode.UnknownModeLeavesNoRotation`, `VolumeAmode.Display`).

## Model

| member | source | states |
|---|---|---|
| AmodeStream.InitializeData | amodeconnection.cpp:85-102 | frame size is header + separator + index + data bytes; data bytes are twice the sample count, which is samples × probes |
| AmodeStream.SeparatorEncodesWords | amodeconnection.cpp:69-97 | the separator bytes are the little-endian encoding of the five separator words, ten bytes long |
| AmodeStream.DefaultLayout | amodeconnection.cpp:85-102 | example: with 3500 samples and 30 probes a frame is 210016 bytes with 210000 data bytes |
| AmodeStream.FindSep | amodeconnection.cpp:192-196 | `indexOf` returns a position at or after `from` where the separator occurs |
| AmodeStream.FindSepComplete | amodeconnection.cpp:192-196 | if the separator occurs at q ≥ from, the search finds one at or before q |
| AmodeStream.FindSepFirst | amodeconnection.cpp:192-196 | the search returns the first occurrence at or after `from` |
| AmodeStream.FindSepExtend | amodeconnection.cpp:180-196 | a separator found in a buffer is still found at the same place after more bytes are appended |
| AmodeStream.Scan | amodeconnection.cpp:192-232 | with no complete frame the buffer is left unchanged; otherwise what is left starts with a separator |
| AmodeStream.ScanStep | amodeconnection.cpp:192-232 | one loop iteration: the frame is the bytes from the first separator up to the next one, and the loop resumes on the buffer from that next separator |
| AmodeStream.ScanFramesClean | amodeconnection.cpp:192-232 | every frame cut starts with a separator and contains no other separator |
| AmodeStream.ScanCovers | amodeconnection.cpp:192-232 | the frames and the rest together are a suffix of the buffer; only bytes before the first separator are dropped |
| AmodeStream.ScanAppend | amodeconnection.cpp:180-232 | scanning a + b is scanning a, then scanning a's leftover followed by b |
| AmodeStream.ScanRestIdle | amodeconnection.cpp:192-232 | the leftover holds no complete frame |
| AmodeStream.ScanIdle | amodeconnection.cpp:192-200 | with no separator, or no second one, nothing is cut and the buffer is kept whole |
| AmodeStream.IncompleteKeepsBuffer | amodeconnection.cpp:196-200 | with a first separator but no second one the buffer is kept whole |
| AmodeStream.CopyStartValue | amodeconnection.cpp:213 | the `mid` start `(startIndex - 2) + 10 + 2` equals startIndex + 10 in size_t arithmetic |
| AmodeStream.FrameWords | amodeconnection.cpp:213-216 | the copied words number samples × probes |
| AmodeStream.CopyFrame | amodeconnection.cpp:213-216 | `mid` then `memcpy` of `usdata_datasize_` bytes gives the little-endian decoding of the frame's bytes 10 .. 10 + datasize |
| AmodeStream.CopiedBytes | amodeconnection.cpp:213-216 | the `mid` piece is long enough for the copy and its prefix is that slice of the frame |
| AmodeStream.Initial | amodeconnection.cpp:105 | the sample vector starts as datalength zeros and the buffer starts empty |
| AmodeStream.ReadData | amodeconnection.cpp:178-247 | after one `readData` the buffer is the scan's leftover; a signal is emitted iff a frame was cut, and it carries the last frame's words; otherwise the state is unchanged apart from the appended bytes |
| AmodeStream.ChunkingIrrelevant | amodeconnection.cpp:178-232 | delivering the bytes in chunks cuts the same frames and leaves the same rest as delivering them at once |
| AmodeStream.DeviceFrameDecodes | amodeconnection.cpp:213-216 | for a device frame (separator, index, data, next header) the words copied are the index followed by all but the last data sample |
| AmodeStream.EncodeAppend | amodeconnection.cpp:69-83 | the encoding of a + b is the encoding of a followed by that of b |
| Bytes.EncodeLE | amodeconnection.cpp:69-83 | two bytes per word, low byte first |
| Bytes.DecodeLE | amodeconnection.cpp:216 | one word per byte pair |
| Bytes.DecodeEncode | amodeconnection.cpp:69-83 | decoding the encoding gives the words back |
| Bytes.EncodeDecode | amodeconnection.cpp:216 | encoding the decoding of an even-length byte string gives the bytes back |
| Bytes.NposPlus | mhareader.cpp:132-134 | `npos + k` wraps to k - 1 |
| Bytes.ToInt16 | volumeamodecontroller.cpp:240 | the `uint16_t` to `int16_t` conversion keeps the value modulo 2^16 |
| Bytes.CharsBytesRoundTrip | mhareader.cpp:148 | bytes read into a `std::string` and copied back out are unchanged |
| SoftSync.OfferA | mhawriter.cpp:36-43 | an image pairs with a waiting pose and clears both slots; otherwise it replaces the waiting image |
| SoftSync.OfferB | mhawriter.cpp:45-52 | a pose pairs with a waiting image and clears both slots; otherwise it replaces the waiting pose |
| SoftSync.RunIsGreedy | mhawriter.cpp:36-69 | from empty slots, the pairs formed are exactly the greedy pairs of adjacent arrivals from different streams |
| SoftSync.GreedyBound | mhawriter.cpp:36-69 | at most half the arrivals are paired |
| SoftSync.AlternatingAllPaired | mhawriter.cpp:36-69 | strictly alternating arrivals are all paired, in order |
| SoftSync.Fire | volumeamodecontroller.cpp:265-270 | visualisation clears both ready flags and keeps both values |
| SoftSync.FlagOfferA | volumeamodecontroller.cpp:237-249 | the value is stored; a pair is shown iff the other flag was set |
| SoftSync.FlagOfferB | volumeamodecontroller.cpp:251-263 | the value is stored; a pair is shown iff the other flag was set |
| SoftSync.FlagsRefineSlots | bmode3dvisualizer.cpp:131-152 | a flag transition does what the slot transition does on the abstracted state and forms the same pair |
| SoftSync.FlagRunRefines | bmode3dvisualizer.cpp:131-152 | over any run, the flag machine pairs what the slot machine pairs |
| SoftSync.FlagRunIsGreedy | volumeamodecontroller.cpp:237-270 | from cleared flags the flag machine forms exactly the greedy adjacent pairs |
| TransformRegistry.EmptyRegistry | qualisystransformationmanager.cpp:36-38 | a new manager holds no pose |
| TransformRegistry.Add | qualisystransformationmanager.cpp:4-9 | adding a name that is present throws "ID already exists"; otherwise the name is added |
| TransformRegistry.Get | qualisystransformationmanager.cpp:11-18 | lookup succeeds iff the name is present; otherwise it throws "Transformation ID not found" |
| TransformRegistry.Clear | qualisystransformationmanager.cpp:36-38 | after clearing every lookup throws |
| TransformRegistry.AddThenGet | qualisystransformationmanager.cpp:4-18 | a name just added is found with its pose |
| TransformRegistry.AddKeepsOthers | qualisystransformationmanager.cpp:4-18 | adding one name leaves every other lookup unchanged |
| TransformRegistry.AddDuplicateKeeps | qualisystransformationmanager.cpp:4-9 | adding a duplicate fails and the stored pose stays |
| TransformRegistry.AddAllSucceeds | qualisystransformationmanager.cpp:4-18 | adding distinct fresh names succeeds, each is found with its pose, and old names are unchanged |
| TransformRegistry.GetAllIds | qualisystransformationmanager.cpp:28-34 | every stored name once, and nothing else |
| TransformRegistry.GetAllTransformations | qualisystransformationmanager.cpp:20-26 | one pose per stored name, each a stored pose, and every stored pose is listed |
| TransformRegistry.Listing | qualisystransformationmanager.cpp:20-34 | the two listings are aligned: the i-th pose belongs to the i-th name |
| Pose.IdentityHasNoNaN | volumeamodecontroller.cpp:60 | the identity pose a controller starts with has ones on the diagonal, zeros elsewhere and no NaN entry |
| MetaImage.KeyName | mhareader.cpp:34-116 | every key name is non-empty and none starts with 'S', so none is a per-frame `Seq_Frame` key |
| MetaImage.KeyNamePlain | mhawriter.cpp:122-176 | key names contain no '=' or newline and do not end in a space |
| MetaImage.HeaderKeysIndexed | mhawriter.cpp:122-145 | the writer's header order lists each key other than ElementDataFile exactly once |
| MetaImage.KeyNameInjective | mhareader.cpp:34-116 | distinct keys have distinct names, so the reader's if-chain selects one field |
| MetaImage.MarkerIsLine | mhareader.cpp:131 | the marker is the ElementDataFile line with value LOCAL, followed by a newline |
| MhaWriter.FileName | mhawriter.cpp:10 | the file name starts with path + prefix + "_" and ends with ".mha" |
| MhaWriter.Open | mhawriter.cpp:6-18 | construction succeeds iff the file opens; it starts not recording, with empty slots and vectors; otherwise it throws "Unable to open file: " + name |
| MhaWriter.ElapsedSeconds | mhawriter.cpp:63 | the timestamp is the elapsed milliseconds divided by 1000 |
| MhaWriter.StoreDataPair | mhawriter.cpp:54-64 | image, pose and timestamp are appended together, so the three vectors stay the same length |
| MhaWriter.OnImageReceived | mhawriter.cpp:36-43 | a pair is stored iff a pose was waiting; at most one slot is full afterwards |
| MhaWriter.OnPose | mhawriter.cpp:45-52 | a pair is stored iff an image was waiting; at most one slot is full afterwards |
| MhaWriter.OnRigidBodyReceived | mhawriter.cpp:45-52 | throws iff the sample has no "TB-M" body; otherwise acts as `OnPose` on that pose |
| MhaWriter.StartRecord | mhawriter.cpp:71-76 | recording is on; the file name, the open flag, the recorded images, transforms and timestamps and the waiting slots are all unchanged |
| MhaWriter.RecordStoresPairs | mhawriter.cpp:36-64 | over a run of arrivals the stored images and poses are the first and second components of the slot machine's pairs |
| MhaWriter.FreshRecordIsGreedy | mhawriter.cpp:36-69 | from a fresh writer the stored images and poses are those of the greedy adjacent pairs |
| MhaWriter.HeaderFor | mhawriter.cpp:93-107 | DimSize is image 1's cols and rows and the image count; fixed values for NDims, BinaryData, byte order, compression, element type and data file |
| MhaWriter.HeaderLines | mhawriter.cpp:122-145 | fourteen lines, one per header key, with no ElementDataFile line (which keys sit on which line is stated by MhaRoundTrip.HeaderLineAt) |
| MhaWriter.NaNFlagIff | mhawriter.cpp:155-161 | the `isNaN` flag is set iff some entry is NaN |
| MhaWriter.StatusText | mhawriter.cpp:167-168 | the status is "INVALID" iff the pose has a NaN entry, else "OK" |
| MhaWriter.StatusLineEnds | mhawriter.cpp:167-168 | the status line ends in INVALID iff the pose has a NaN entry |
| MhaWriter.RecordLines | mhawriter.cpp:157-172 | four lines per frame |
| MhaWriter.RecordLinesKeyed | mhawriter.cpp:157-172 | each of the four lines starts with `Seq_Frame` + the 4-digit zero-padded index + `_` |
| MhaWriter.RecordLinesStatus | mhawriter.cpp:167-172 | the second line ends in INVALID iff the pose has a NaN entry; the fourth line ends in OK |
| MhaWriter.TransformLines | mhawriter.cpp:154-173 | four lines per recorded pose |
| MhaWriter.TransformLinesAt | mhawriter.cpp:154-173 | line 4i + k is line k of frame i's block |
| MhaWriter.ImageBytes | mhawriter.cpp:203-206 | the written data is exactly as long as all images together, and image k's bytes lie at the total size of the images before it, so a reader recovers every image from its offset |
| MhaWriter.TextLines | mhawriter.cpp:119-176 | 14 header lines, 4 per frame, then the ElementDataFile line, which with its newline is the marker the reader searches for |
| MhaWriter.FileText | mhawriter.cpp:119-214 | the file is text ending in the `ElementDataFile = LOCAL` line, with the image bytes directly after it; that the reader gets the header and bytes back is MhaRoundTrip.WrittenFileReadsBack |
| MhaWriter.StopRecord | mhawriter.cpp:78-117 | throws iff the file is open and fewer than two images were recorded (`allImages.at(1)`); returns false and writes nothing if the file is closed; otherwise writes header, transforms and images; in both cases recording stops, the slots are cleared and the vectors are kept |
| MhaWriter.StopRecordCodes | mhawriter.cpp:78-117 | the return code is 0 or 1 and the file is closed afterwards |
| MhaReader.SplitLine | mhareader.cpp:24-32 | the key holds no '=' when the line has one, has no trailing space and the value no leading space; at the first '=' the key is the trimmed text before it and the value the trimmed text after it; without '=' both are the trimmed whole line |
| MhaReader.SplitKeyValue | mhareader.cpp:24-32 | the line `key = value` splits back into key and value |
| MhaReader.FindKey | mhareader.cpp:34-116 | a key is found only by its exact name |
| MhaReader.KeyOfNone | mhareader.cpp:34-116 | a line is ignored iff its key names none of the 15 keys |
| MhaReader.KeyOfName | mhareader.cpp:34-116 | every key name selects its key |
| MhaReader.GetSet | mhareader.cpp:34-116 | assigning one field leaves the others unchanged |
| MhaReader.ApplyField | mhareader.cpp:34-116 | assigning a field fails iff the key is NDims and `stoi` throws, both for text that does not start with a number (`invalid_argument`) and for a number outside `int` (`out_of_range`) |
| MhaReader.ApplyFieldGet | mhareader.cpp:34-116 | after a successful assignment the field holds the parsed value and the others are unchanged |
| MhaReader.ApplyLine | mhareader.cpp:21-116 | a line with an unknown key leaves the header unchanged |
| MhaReader.ApplyLineFails | mhareader.cpp:39-42 | a line fails iff it is an NDims line whose value `stoi` rejects, as not a number or as outside `int` |
| MhaReader.ApplyLinesFails | mhareader.cpp:21-117 | `readHeader` throws iff some line is such a bad NDims line |
| MhaReader.ReadHeader | mhareader.cpp:16-117 | `readHeader` throws iff some `getline` line of the text is a bad NDims line; the field values on success are MhaReader.ReadHeaderLastWins |
| MhaReader.UnknownLinesIgnored | mhareader.cpp:21-117 | lines with unknown keys change nothing |
| MhaReader.ReadHeaderLastWins | mhareader.cpp:21-117 | each field holds the parse of the last line naming it, or its old value when no line does |
| MhaReader.ReadFrom | mhareader.cpp:134-155 | the volume gains the bytes after the split point unless the header says compressed |
| MhaReader.MarkerEnd | mhareader.cpp:131-134 | the split point exists iff the marker occurs; it lies just past the first marker |
| MhaReader.SplitAsWritten | mhareader.cpp:131-136 | with the marker, the split is just past it; without it, the split is at 23 (`npos + 24` wraps) or `substr` throws when the file is shorter |
| MhaReader.ReadVolumeImageAsWritten | mhareader.cpp:122-166 | the header is `readHeader` of the text up to the split point (just past the first marker, or character 23 without one), and the read succeeds iff that header parses; without the marker a file shorter than 23 characters throws from `substr`; on success the volume gains the bytes after the split point, unless compressed |
| MhaReader.ReadVolumeImage | mhareader.cpp:122-166 | without the marker the file is rejected; with it the header is `readHeader` of the text up to the end of the first marker, and the read succeeds iff that header parses; on success the volume gains exactly the bytes after the marker, unless the data are compressed |
| MhaReader.AsWrittenWithMarker | mhareader.cpp:122-166 | on a file with the marker, the as-written and the corrected reader agree |
| MhaReader.ReadKeyLine | mhareader.cpp:24-32 | a written `key = value` line reads back as that key and value |
| MhaReader.ReadKeyLineOnly | mhareader.cpp:21-117 | a text whose only line is one key line assigns that one field |
| MhaReader.UnmarkedFileAccepted | mhareader.cpp:131-136 | a concrete file without the marker: the as-written reader accepts it and the corrected reader rejects it |
| MhaRoundTrip.ParseFieldText | mhawriter.cpp:122-145 | every header value the writer prints parses back to the value that field is read as |
| MhaRoundTrip.FindAfterCleanLines | mhareader.cpp:131-132 | the first marker in a written file is the one after the lines the writer prints |
| MhaRoundTrip.WrittenLine | mhawriter.cpp:122-176 | a written header line reads back as its key and value |
| MhaRoundTrip.HeaderLineAt | mhawriter.cpp:122-145 | header line j reads back as key j with that key's printed value |
| MhaRoundTrip.PerFrameLine | mhawriter.cpp:157-172 | per-frame lines name no header key, so the reader ignores them |
| MhaRoundTrip.RecordLineAt | mhawriter.cpp:157-172 | each of a frame's four lines is ignored by the reader and holds no marker |
| MhaRoundTrip.TransformLineAt | mhawriter.cpp:154-173 | every per-frame line is ignored by the reader |
| MhaRoundTrip.TextLineAt | mhawriter.cpp:119-176 | line by line, what the reader sees in the writer's text |
| MhaRoundTrip.LastValueAt | mhareader.cpp:21-117 | the value the reader keeps for a key is that of the last line naming it |
| MhaRoundTrip.WrittenLinesAccepted | mhareader.cpp:39-42 | `readHeader` does not throw on the writer's text |
| MhaRoundTrip.WrittenLastValue | mhawriter.cpp:119-176 | in the writer's text the last line naming each key carries the printed value |
| MhaRoundTrip.ReadsBackHeader | mhareader.cpp:16-120 | `readHeader` on the writer's text gives exactly the header the writer filled in, when the image extents and count fit an `int` |
| MhaRoundTrip.WrittenFileReadsBack | mhareader.cpp:122-166 | reading a written file gives the writer's header and the images' bytes; both readers agree on it |
| AmodeConfig.ParseCells | amodeconfig.cpp:58-62 | a row parses iff `stoi` accepts the first two cells (a number within `int`) and `stod` the next six; an integer failure is reported as such; on success the ids fit an `int`, the name is cell 2 and R and t have three entries |
| AmodeConfig.ParseCoords | amodeconfig.cpp:61-62 | the coordinates are present iff `stod` accepts each of cells 3 to 8; R is cells 3-5 and t is cells 6-8, converted |
| AmodeConfig.StoreRowsFails | amodeconfig.cpp:46-66 | `loadData` throws iff some row fails to convert, and the error is the first failing row's |
| AmodeConfig.StoreRows | amodeconfig.cpp:46-66 | storing rows into a map ordered by number with every row under its own number keeps it so (`dataMap[data.number] = data`) |
| AmodeConfig.LoadData | amodeconfig.cpp:41-67 | a loaded table is ordered by number and holds every row under its own number; when loading fails is AmodeConfig.LoadDataFails and what a lookup finds is AmodeConfig.LoadedLookup. The helpers AmodeConfig.Rows (every line after the skipped header line) and AmodeConfig.Conversions (each row through `stoi`/`stod`, in file order) feed it |
| AmodeConfig.LoadDataFails | amodeconfig.cpp:41-67 | loading fails iff some data row does not parse |
| AmodeConfig.StoreRow | amodeconfig.cpp:65 | `dataMap[number] = data` keeps the map sorted with each entry under its own number |
| AmodeConfig.StoreRowsFind | amodeconfig.cpp:46-66 | after storing rows, each number finds the last row with that number, else what it found before |
| AmodeConfig.LoadDataStores | amodeconfig.cpp:41-67 | when every row parses, the conversions are all successes |
| AmodeConfig.LastNumbered | amodeconfig.cpp:65 | the last row with a number, or none when no row has it |
| AmodeConfig.LoadedLookup | amodeconfig.cpp:41-117 | after loading, each number finds the last row carrying it, and only numbers in the file are found |
| AmodeConfig.GetDataByNumber | amodeconfig.cpp:110-117 | succeeds iff the number is present and returns its row; otherwise throws "Data not found" |
| AmodeConfig.GetDataByGroupName | amodeconfig.cpp:120-134 | exactly the rows of that group: all of them, and nothing else |
| AmodeConfig.GroupRowsIncrease | amodeconfig.cpp:120-134 | the group's rows come in increasing probe number (map order) |
| AmodeConfig.GetAllGroupNames | amodeconfig.cpp:137-144 | the non-empty group names, strictly increasing, each once |
| AmodeConfig.GroupNamesCanonical | amodeconfig.cpp:137-144 | the result is the only strictly increasing list of those names |
| AmodeConfig.WindowOf | amodeconfig.cpp:28-34 | a new window copies number, group and name, with all three bounds 0 |
| AmodeConfig.InitWindowsMirror | amodeconfig.cpp:26-38 | there is one window per probe, under the same number |
| AmodeConfig.InitWindows | amodeconfig.cpp:26-38 | the windows form a map ordered by number; their contents are AmodeConfig.InitWindowsMirror |
| AmodeConfig.SetWindowByNumber | amodeconfig.cpp:146-159 | throws iff the number has no window; otherwise sets each bound to the given value or 0, and leaves other windows unchanged |
| AmodeConfig.SetWindowKeepsConsistent | amodeconfig.cpp:146-159 | setting a window keeps the windows mirroring the probe table |
| AmodeConfig.SetWindowOfKnownProbe | amodeconfig.cpp:110-159 | every probe in the table has a window that can be set |
| AmodeConfig.WindowCells | amodeconfig.cpp:85-90 | six cells per window |
| AmodeConfig.ExportLines | amodeconfig.cpp:80-97 | a header line, then one line per window |
| AmodeConfig.ExportWindow | amodeconfig.cpp:69-108 | text is written iff the file opens |
| AmodeConfig.ExportReadsBack | amodeconfig.cpp:80-97 | splitting the exported text by lines and commas gives back each window's number, group, name and formatted bounds; `stoi` reads the `int` ids back |
| AmodeConfig.ExportLinesBack | amodeconfig.cpp:80-97 | the exported text splits back into exactly its lines |
| AmodeConfig.HeaderPlain | amodeconfig.cpp:80 | the header row names the six columns |
| AmodeConfig.WindowFileName | amodeconfig.cpp:11-20 | the window file name contains no '/' |
| AmodeConfig.WindowPathAsWrittenMovesUp | amodeconfig.cpp:12-20 | the written path lands in the parent of the table's directory |
| AmodeConfig.WindowPathAsWritten | amodeconfig.cpp:12-20 | with a stamp free of '/', the pasted path's directory is the parent of the table's directory |
| AmodeConfig.WindowPathAsWrittenExample | amodeconfig.cpp:12-20 | example: for table "d/p.c" the window file lands in "", not in "d" |
| AmodeConfig.WindowPathInTableDir | amodeconfig.cpp:12-20 | the corrected path lies in the table's directory, under the window file name |
| AmodeConfig.WindowPath | amodeconfig.cpp:12-20 | with a stamp free of '/', the joined path's directory is the table's directory and its file name is the window file name |
| AmodeConfig.JoinInTableDir | amodeconfig.cpp:12 | any plain name joined to `parent_path()` of the table lies in the table's directory under that name |
| AmodeConfig.NewConfig | amodeconfig.cpp:8-39 | the constructor succeeds iff the table loads, keeps the loaded table, and records the window path pasted onto the directory with no separator |
| AmodeConfig.NewConfigWindowMovesUp | amodeconfig.cpp:12-20 | the constructed window path lies in the parent of the table's directory |
| AmodeConfig.NewConfigIntended | amodeconfig.cpp:8-39 | corrected: the same configuration as the constructor, except that the window path is joined with a separator |
| AmodeConfig.NewConfigIntendedWindowInTableDir | amodeconfig.cpp:12-20 | corrected: the constructed window path lies in the table's own directory |
| AmodeConfig.NewConfigConsistent | amodeconfig.cpp:8-39 | after construction every probe has a window with the same number, group and name, and no other windows exist |
| AmodeConfig.ParseRowText | amodeconfig.cpp:46-62 | a row written with `int` ids, any ';'-free group name (the empty one included) and fixed-point numbers parses back to those values |
| DataManipulator.GetRow | amodedatamanipulator.cpp:3-6 | row r is the `mid` slice starting at r × cols, clipped to the input |
| DataManipulator.RowsFlatten | amodedatamanipulator.cpp:3-6 | the rows of a rows × cols block, concatenated, give the input back |
| DataManipulator.Marked | amodedatamanipulator.cpp:16-19 | position i keeps its sample iff (n + i) % step == 0 in C++ arithmetic, else 0 |
| DataManipulator.RemoveZeros | amodedatamanipulator.cpp:22 | the result holds no zero and only values of the input |
| DataManipulator.DownsampleAsWritten | amodedatamanipulator.cpp:8-25 | the output holds no zero |
| DataManipulator.Downsample | amodedatamanipulator.cpp:8-25 | the corrected output is empty for an empty input, and otherwise the samples at 0, m, 2m, … (m the step's magnitude), ⌈size / m⌉ of them |
| DataManipulator.PicksStride | amodedatamanipulator.cpp:13-19 | keeping sample n exactly when `n % step == 0` selects the samples at 0, m, 2m, … with m the step's magnitude, ⌈size / m⌉ of them |
| DataManipulator.AsWrittenIsIntendedWithoutZeros | amodedatamanipulator.cpp:8-25 | the as-written output is the stride selection with zero samples removed |
| DataManipulator.DownsampleIsStride | amodedatamanipulator.cpp:8-25 | the corrected output is every step-th sample from the first, so its length is the ceiling of size / step; the as-written output is never longer |
| DataManipulator.MoreThanTarget | amodedatamanipulator.cpp:13 | example: five samples with target 2 give step 2 and three samples, more than the target |
| DataManipulator.DownsampleAsWrittenSubsequence | amodedatamanipulator.cpp:8-25 | the as-written output is a subsequence of the input |
| DataManipulator.ZeroSampleDropped | amodedatamanipulator.cpp:18-22 | a sampled zero is dropped by the as-written code and kept by the corrected one |
| Volume3D.Select | volume3dcontroller.cpp:42-48 | the indices kept are exactly those whose voxel passes, in increasing order |
| Volume3D.SelectOnce | volume3dcontroller.cpp:40-49 | every passing index occurs exactly once |
| Volume3D.FindIndicesAbove | volume3dcontroller.cpp:40-49 | appends to `result` each index whose voxel exceeds the threshold, each exactly once |
| Volume3D.FindIndicesInRangeAsWritten | volume3dcontroller.cpp:51-62 | returns nothing new when more than two bounds are given; otherwise appends the indices whose voxel equals threshold[0] |
| Volume3D.FindIndicesInRange | volume3dcontroller.cpp:51-62 | corrected: appends the indices whose voxel lies between the first and last bound |
| Volume3D.RangeAgreesOnSingleValue | volume3dcontroller.cpp:51-62 | when both bounds are equal the two versions agree |
| Volume3D.RangeMissesInterior | volume3dcontroller.cpp:57 | voxel 15 within [10, 20] is missed as written and found when corrected |
| Volume3D.GetValuesWithIndices | volume3dcontroller.cpp:64-70 | appends `volume[index]` for each index: as a multiset for any thread order, position by position in sequential order |
| Volume3D.SubInverse | volume3dcontroller.cpp:80 | for non-negative indices, the coordinates recombine to the linear index |
| Volume3D.Ind2Sub | volume3dcontroller.cpp:72-82 | one coordinate per index, the splits of the indices as a multiset for any thread order; in sequential order x and y lie within the first two dimensions and recombine to the index |
| Volume3D.MinMax | volume3dcontroller.cpp:31-34 | the minimum and maximum intensity both occur in the volume and bound every voxel |
| Volume3D.InitThreshold | volume3dcontroller.cpp:105 | `min + (max - min) / 2` lies in [min, max] and is below max iff min < max |
| Volume3D.InitialViewNonEmpty | volume3dcontroller.cpp:105-109 | unless the volume is uniform, the initial threshold shows at least one voxel |
| Volume3D.Threshold | volume3dcontroller.cpp:165-182 | `updateVolume`: indices exactly once each above the threshold; values and coordinates are those of the selected voxels as multisets for any thread order; the extents are valid whenever something is selected; in sequential order the values lie above the threshold and the coordinates recombine to their indices |
| Volume3D.AboveIndices | volume3dcontroller.cpp:40-49 | every index found is inside the volume and its voxel exceeds the threshold |
| Volume3D.CompressedVolumeEmpty | mhareader.cpp:146-155 | a compressed file yields no volume bytes |
| VolumeAmode.SetSignalDisplayMode | volumeamodecontroller.cpp:112-164 | modes 0, 1, 2 give 1, 2, 4 copies with one rotation each; any other mode keeps the count and leaves no rotation; the flags are untouched |
| VolumeAmode.KnownModeEvenlySpaced | volumeamodecontroller.cpp:135-149 | in a known mode copy k is turned by k × 360 / n degrees |
| VolumeAmode.KnownModeDistinct | volumeamodecontroller.cpp:135-149 | the copies are distinct rotations within one turn |
| VolumeAmode.SetModeIdempotent | volumeamodecontroller.cpp:112-164 | choosing the same mode twice is choosing it once |
| VolumeAmode.SetModeLastWins | volumeamodecontroller.cpp:130-164 | a known mode overrides whatever was chosen before |
| VolumeAmode.UnknownModeLeavesNoRotation | volumeamodecontroller.cpp:130-149 | after an unknown mode at least one copy is counted but no rotation exists |
| VolumeAmode.Init | volumeamodecontroller.cpp:46-83 | a new controller shows one unrotated copy, with both flags clear and the identity holder pose |
| VolumeAmode.ToSigned | volumeamodecontroller.cpp:240-241 | the signed copy has the frame's length and each sample is congruent to its word modulo 2^16 |
| VolumeAmode.ToSignedKeepsBits | volumeamodecontroller.cpp:240-241 | adding 65536 to the negative samples gives the received words back |
| VolumeAmode.OnAmodeSignal | volumeamodecontroller.cpp:237-249 | the frame is stored and shown at once iff a pose was waiting; both flags are then clear, otherwise only the frame flag is set |
| VolumeAmode.OnRigidBody | volumeamodecontroller.cpp:251-263 | throws iff the sample lacks "TB-M"; otherwise the pose is stored and shown at once iff a frame was waiting |
| VolumeAmode.Visualize | volumeamodecontroller.cpp:265-270 | both flags are cleared first; nothing else changes |
| VolumeAmode.FeedFails | volumeamodecontroller.cpp:251-256 | a run throws iff some sample lacks the holder |
| VolumeAmode.FeedIsFlagRun | volumeamodecontroller.cpp:237-270 | the controller shows what the generic flag machine pairs, and arrivals never change the display mode |
| VolumeAmode.FeedFromInitIsGreedy | volumeamodecontroller.cpp:46-83 | from a new controller the frames and poses shown are the greedy adjacent pairs |
| VolumeAmode.Display | volumeamodecontroller.cpp:312-328 | the display is n × width columns; sample s of copy j sits at column j × width + s; the columns past the rotations are left unwritten |
| VolumeAmode.ColumnUnique | volumeamodecontroller.cpp:319-322 | blocks do not overlap |
| VolumeAmode.ColumnOf | volumeamodecontroller.cpp:319-322 | every column is sample col % width of copy col / width |
| BmodeVisualizer.Init | bmode3dvisualizer.h:77-81 | both flags clear and `firstData` set |
| BmodeVisualizer.VisualizeImage | bmode3dvisualizer.cpp:149-241 | flags cleared; the create branch runs iff `firstData`; `firstData` is false afterwards |
| BmodeVisualizer.OnImage | bmode3dvisualizer.cpp:131-137 | the image is stored and visualised at once iff a pose was waiting |
| BmodeVisualizer.OnRigidBody | bmode3dvisualizer.cpp:139-147 | throws iff the sample lacks "B_PROBE"; otherwise the pose is stored and visualised at once iff an image was waiting |
| BmodeVisualizer.OnImageIsFlagOffer | bmode3dvisualizer.cpp:131-137 | the image slot is the generic flag transition |
| BmodeVisualizer.OnRigidBodyIsFlagOffer | bmode3dvisualizer.cpp:139-147 | the pose slot is the generic flag transition |
| BmodeVisualizer.FeedFails | bmode3dvisualizer.cpp:139-142 | a run throws iff some sample lacks the probe |
| BmodeVisualizer.FeedBranches | bmode3dvisualizer.cpp:131-241 | one visualisation per pair the flag machine forms; only the first, and only while `firstData` holds, creates the scene |
| BmodeVisualizer.FeedFromInit | bmode3dvisualizer.cpp:131-241 | from a new visualiser: one visualisation per greedy adjacent pair; the first creates the scene and every later one updates it |
| Text.TrimRight | mhareader.cpp:28 | `erase(find_last_not_of(ws) + 1)` removes exactly the trailing whitespace |
| Text.TrimLeft | mhareader.cpp:32 | `erase(0, find_first_not_of(ws))` removes exactly the leading whitespace |
| Text.Find | mhareader.cpp:132 | `find` returns the first occurrence, or none |
| Text.SplitJoinTerminated | mhareader.cpp:18-21 | `getline` over newline-terminated lines gives the lines back |
| Text.SplitJoin | amodeconfig.cpp:53-55 | `getline` with a delimiter splits joined cells back into the cells |
| Text.StoiFmtInt | amodeconfig.cpp:58-59 | `stoi` of a printed `int` gives the `int` |
| Text.StodFixed | amodeconfig.cpp:61-62 | `stod` of a fixed-point decimal gives its value |
| Text.ReadIntsSpaceJoin | mhareader.cpp:60-62 | reading ints from space-separated `int` values gives them back |
| Text.Stoi | mhareader.cpp:41 | `stoi` gives a value iff the text, after leading whitespace, starts with a number that fits an `int`, and the value is that number |
| Text.ReadIntsInInt | mhareader.cpp:60-62 | `istream_iterator<int>` yields only `int` values: an extraction outside the range sets failbit and ends the list |
| Text.ReadDecimalsSpaceJoin | mhareader.cpp:74-76 | reading doubles from space-separated ints gives their values |
| FilePath.ParentOfJoin | amodeconfig.cpp:10-12 | `parent_path` and `filename` of dir/name give dir and name back |
| FilePath.ParentOfConcat | amodeconfig.cpp:12-20 | appending a name without '/' leaves the parent path of the directory string unchanged |
| FilePath.Stem | amodeconfig.cpp:11 | the stem is a prefix of the file name and has no '/' |
| StringOrder.InsertSorted | amodeconfig.cpp:138-140 | `std::set::insert` keeps the names strictly increasing and adds exactly the new name |
| OrderedMap.InsertFind | amodeconfig.cpp:65 | after `m[k] = v`, k finds v and every other key finds what it found before |
| OrderedMap.InsertSorted | amodeconfig.cpp:65 | assignment keeps the entries in key order |
| CInt.QuotRem | amodedatamanipulator.cpp:13-18 | C++ `/` and `%` satisfy (a / b) × b + a % b == a, with the quotient truncated toward zero |

## Left out

- Sockets, connection handling, signals and slots as a mechanism, directories and file I/O: the bytes received and the file contents are parameters.
- Qt3D, QtDataVisualization and GUI code: scene entities, meshes, textures, scatter series, axis ranges and colours.
- Eigen arithmetic: the sine/cosine rotation matrices are represented by their angles; transform products and `vectorVector2EigenMatrix` are left out.
- `updateTransformations`, `readCsvIntoEigenVectorXd` and the near-field zeroing and scaling of the displayed signal: geometry only, and reading a CSV from disk.
- zlib decompression: the compressed branch of `readVolumeImage` has its decompression commented out, so a compressed file yields no volume bytes, as modelled.
- OpenMP: the `parallel for` loops with a `critical` `push_back` are modelled in sequential order. The multiset and exactly-once clauses hold for any thread order. The position-by-position clauses of Volume3D.GetValuesWithIndices, Volume3D.Ind2Sub and Volume3D.Threshold hold only for the sequential order; under other orders the values and coordinates need not line up with the indices.
- Floating-point formatting: doubles are written through a formatter parameter; the reader's doubles are decimal numbers without exponents.
- `std::stoi` and `istream_iterator<int>` check the `int` range (Text.Stoi, Text.ReadInts). The round-trip lemmas (AmodeConfig.ParseRowText, AmodeConfig.ExportReadsBack, AmodeConfig.ExportCellsBack, AmodeConfig.CellsConvert, MhaRoundTrip.ParseFieldText, MhaRoundTrip.ReadsBackHeader, MhaRoundTrip.WrittenFileReadsBack) require the printed ids and extents to fit an `int`, because the C++ fields they come from are `int`s.
- AmodeConfig.ParseCoords: `std::stod` is modelled on exact decimals, so a value outside the range of `double`, for which it throws `std::out_of_range`, is accepted; rounding to `double` is not modelled either.
- AmodeConfig.ParseCells: the same for the six coordinate cells; the two id cells are range-checked.
- MhaReader.ApplyField: the `Offset` and `ElementSpacing` lists are read with `istream_iterator<double>` as exact decimals (Text.ReadDecimals), so a value outside `double`, which ends the C++ list, is read; the integer lists and NDims are range-checked.
- AmodeStream.ReadData: requires the buffer to stay below 2^31 bytes, so that the `int` indices into it do not overflow.
- Volume3D.Ind2Sub: integers are unbounded, so `dims[0] * dims[1]`, an `int` product in the C++, does not overflow in the model; and every index is split, while the C++ loop stops at `static_cast<int>(indices.size())`, which wraps for 2^31 or more indices.
- Volume3D.FindIndicesAbove: scans every voxel; the C++ loop bound `static_cast<int>(volume.size())` wraps for a volume of 2^31 bytes or more (negative in [2^31, 2^32), so nothing is scanned; the size modulo 2^32 above that), and the `int` indices it returns cannot address such a volume anyway.
- Volume3D.FindIndicesInRangeAsWritten: the same unwrapped `static_cast<int>(volume.size())` loop bound as Volume3D.FindIndicesAbove.
- Volume3D.FindIndicesInRange: the same unwrapped loop bound.
- Volume3D.Threshold: inherits the unwrapped loop bounds of Volume3D.FindIndicesAbove and Volume3D.Ind2Sub, so it describes volumes below 2^31 voxels.
- MhaWriter.HeaderFor: the image count is `static_cast<int>(allImages.size())` in the C++; a count above 2^31 - 1 does not wrap in the model.
- `getCurrentDateTime`, `QElapsedTimer` and `localtime`: the stamp and the elapsed milliseconds are parameters.
- The commented-out alternative `readData` and `MHAWriter` constructor, and the two-transform members that mhawriter.h declares but mhawriter.cpp does not define.
- Export write and close failures after a successful open: only the open is modelled.
- AmodeStream.ReadData: a frame shorter than the `memcpy` length is excluded by a precondition, because the C++ reads past the frame there.
- DataManipulator.DownsampleIsStride: requires a nonzero step; with a target larger than the input the step is 0 and the C++ `%` divides by zero.
- MhaReader.ReadFrom: states the volume on success only; when `readHeader` throws is stated by MhaReader.ApplyLinesFails.
- MhaWriter.RecordLines: states only the line count; the content of the lines is stated by MhaWriter.RecordLinesKeyed and MhaWriter.RecordLinesStatus.
- TransformRegistry.GetAllIds: states that each name is listed once; the registry is a `std::unordered_map`, so the listing order is unspecified and is not stated.
- Volume3D.Ind2Sub: states z ≥ 0 but not z < dims[2]; that bound, for an index inside the volume, is stated by Volume3D.SubInverse.
- AmodeConfig.LoadData: requires every data row to have at least nine cells (WellFormedRows); the C++ indexes `tmp_data[0]` to `tmp_data[8]` unchecked, so a shorter row reads past the vector. The same precondition carries through AmodeConfig.NewConfig, AmodeConfig.NewConfigIntended and AmodeConfig.LoadDataFails.
- Volume3D.FindIndicesInRangeAsWritten: requires a non-empty threshold list when the volume has voxels; the C++ reads `threshold[0]` out of bounds otherwise.
- Volume3D.FindIndicesInRange: the same precondition as the as-written overload, for the same out-of-bounds read.
- FilePath: paths use '/' as the only separator and have no root; a drive or root directory (`C:/`, `/`) is not modelled. AmodeConfig.WindowPathAsWritten, AmodeConfig.WindowPath and the amodeconfig.cpp:12-20 finding assume a table path whose directory is not a root. At a root, `parent_path` keeps the trailing separator and the pasted path is then correct.
- Volume3D.MinMax: requires a non-empty volume; `std::minmax_element` on an empty volume returns the end iterator, which the C++ then dereferences.

## Findings

| source | as written | input that shows it | evidently intended | confidence | as-written member | corrected member |
|---|---|---|---|---|---|---|
| mhareader.cpp:132-136 | without the marker, `find` gives npos and `binaryStart + separator.size()` wraps to 23, so the file is split 23 characters in | the 26-character file `ObjectType = US_Volume` + newline + `xyz`, with `CompressedData` false: it is accepted and "xyz" becomes the volume | reject a file that has no marker | not executed | MhaReader.ReadVolumeImageAsWritten, MhaReader.UnmarkedFileAccepted | MhaReader.ReadVolumeImage |
| amodeconfig.cpp:12-20 | `filedir_ + filename_ + ...` has no path separator, so the window file lands one directory up with the directory name prefixed | table path "d/p.c" (a directory that is not a root) | the window file in the table's directory | not executed | AmodeConfig.WindowPathAsWritten, AmodeConfig.NewConfig, AmodeConfig.NewConfigWindowMovesUp, AmodeConfig.WindowPathAsWrittenExample | AmodeConfig.WindowPath, AmodeConfig.NewConfigIntended, AmodeConfig.NewConfigIntendedWindowInTableDir, AmodeConfig.WindowPathInTableDir |
| amodedatamanipulator.cpp:18-22 | unsampled positions are marked 0 and then every 0 is erased, which also drops sampled samples whose value is 0 | input [0, 7], target 2 | keep every sampled value | not executed | DataManipulator.DownsampleAsWritten, DataManipulator.ZeroSampleDropped | DataManipulator.Downsample, DataManipulator.DownsampleIsStride |
| volume3dcontroller.cpp:57 | the range test compares with threshold[0] on both sides, so only voxels equal to the lower bound are found | volume [15], thresholds [10, 20] | voxels between the lower and the upper bound | not executed | Volume3D.FindIndicesInRangeAsWritten, Volume3D.RangeMissesInterior | Volume3D.FindIndicesInRange |

=== FILE: amode_config.dfy ===
/** `AmodeConfig`: the table of A-mode probes (one ';'-separated row per
    probe: number, group, group name, three rotation and three translation
    values), keyed by probe number, plus one measurement window per probe
    that the user edits and exports as a ','-separated file. */
module AmodeConfig {
  import opened Wrappers
  import opened Text
  import opened StringOrder
  import opened FilePath
  import OrderedMap

  type Entries<V> = OrderedMap.Entries<V>

  datatype Data = Data(number: int, group: int, groupname: string, localR: seq<real>, localT: seq<real>)

  datatype Window = Window(number: int, group: int, groupname: string,
                           lowerbound: real, middle: real, upperbound: real)

  /** What the configuration throws: from `std::stoi` (`InvalidInt`, for
      both its `std::invalid_argument` and its `std::out_of_range`) or
      `std::stod` (`InvalidDouble`) while loading, and the
      `std::runtime_error` "Data not found for the given number." of a lookup
      or window update (`NotFound`). */
  datatype ConfigError = InvalidInt | InvalidDouble | NotFound

  // ---------------------------------------------------------------------
  // Loading the table
  // ---------------------------------------------------------------------

  /** The cells of one row, as successive `getline(ss, cell, ';')` give them. */
  function Cells(line: string): seq<string> {
    Split(line, ';')
  }

  /** Rows with fewer than nine cells index past the end of the cell
      vector, which the program does not guard against. */
  predicate WellFormedRows(rows: seq<string>) {
    forall i :: 0 <= i < |rows| ==> |Cells(rows[i])| >= 9
  }

  /** The lines after the header line (`getline` once, then in a loop);
      an unreadable file gives no lines at all. */
  function Rows(file: string): (rows: seq<string>)
    ensures |Lines(file)| > 0 ==> rows == Lines(file)[1..]
  {
    if |Lines(file)| == 0 then [] else Lines(file)[1..]
  }

  /** `stod` accepts each of the six coordinate cells, 3 to 8. */
  predicate CoordsConvert(c: seq<string>)
    requires |c| >= 9
  {
    Stod(c[3]).Some? && Stod(c[4]).Some? && Stod(c[5]).Some?
    && Stod(c[6]).Some? && Stod(c[7]).Some? && Stod(c[8]).Some?
  }

  /** Cells 3 to 8 through `stod`, each on its own: the rotation from the
      first three and the translation from the last three, or nothing once
      a conversion throws. */
  function ParseCoords(c: seq<string>): (r: Option<(seq<real>, seq<real>)>)
    requires |c| >= 9
    ensures r.Some? <==> CoordsConvert(c)
    ensures r.Some? ==> r.value.0 == [Stod(c[3]).value, Stod(c[4]).value, Stod(c[5]).value]
    ensures r.Some? ==> r.value.1 == [Stod(c[6]).value, Stod(c[7]).value, Stod(c[8]).value]
  {
    if !CoordsConvert(c) then None
    else
      Some(([Stod(c[3]).value, Stod(c[4]).value, Stod(c[5]).value],
            [Stod(c[6]).value, Stod(c[7]).value, Stod(c[8]).value]))
  }

  /** One row's cells: number and group through `stoi`, the six
      coordinates through `stod`, in that order; the first conversion that
      fails throws. */
  function ParseCells(c: seq<string>): (r: Result<Data, ConfigError>)
    requires |c| >= 9
    ensures r.Success? <==> Stoi(c[0]).Some? && Stoi(c[1]).Some? && CoordsConvert(c)
    ensures r.Failure? ==> (r.error == InvalidInt <==> Stoi(c[0]).None? || Stoi(c[1]).None?)
    ensures r.Success? ==> r.value.groupname == c[2] && |r.value.localR| == 3 && |r.value.localT| == 3
    ensures r.Success? ==> InInt(r.value.number) && InInt(r.value.group)
  {
    if Stoi(c[0]).None? || Stoi(c[1]).None? then Failure(InvalidInt)
    else
      match ParseCoords(c)
      case None => Failure(InvalidDouble)
      case Some((rot, t)) => Success(Data(Stoi(c[0]).value, Stoi(c[1]).value, c[2], rot, t))
  }

  function ParseRow(line: string): Result<Data, ConfigError>
    requires |Cells(line)| >= 9
  {
    ParseCells(Cells(line))
  }

  /** Every row has its nine cells and converts. */
  predicate AllParse(rows: seq<string>) {
    WellFormedRows(rows) && forall i :: 0 <= i < |rows| ==> ParseRow(rows[i]).Success?
  }

  /** The conversion of every row, in file order. */
  function Conversions(rows: seq<string>): (rs: seq<Result<Data, ConfigError>>)
    requires WellFormedRows(rows)
    ensures |rs| == |rows| && forall i :: 0 <= i < |rows| ==> rs[i] == ParseRow(rows[i])
  {
    seq(|rows|, i requires 0 <= i < |rows| => ParseRow(rows[i]))
  }

  /** The loop of `loadData`: each converted row is stored under its
      number, replacing an earlier row with the same number; the first
      conversion that throws ends the load. (Converting a row has no side
      effect, so converting first and storing after is the same loop.) */
  function StoreRows(m: Entries<Data>, rs: seq<Result<Data, ConfigError>>): (r: Result<Entries<Data>, ConfigError>)
    ensures r.Success? && OrderedMap.Sorted(m) && KeysMatch(m) ==>
      OrderedMap.Sorted(r.value) && KeysMatch(r.value)
    decreases |rs|
  {
    if |rs| == 0 then Success(m)
    else
      var d :- rs[0];
      StoreRowKeeps(m, d);
      StoreRows(OrderedMap.Insert(m, d.number, d), rs[1..])
  }

  /** `loadData`: a `std::map` keyed by probe number, so a loaded table is
      in key order with every row under its own number. */
  function LoadData(file: string): (r: Result<Entries<Data>, ConfigError>)
    requires WellFormedRows(Rows(file))
    ensures r.Success? ==> OrderedMap.Sorted(r.value) && KeysMatch(r.value)
  {
    StoreRows([], Conversions(Rows(file)))
  }

  /** Every entry is stored under its own number. */
  predicate KeysMatch(m: Entries<Data>) {
    forall i :: 0 <= i < |m| ==> m[i].1.number == m[i].0
  }

  /** The converted rows, in file order. */
  function ParsedRows(rows: seq<string>): (ds: seq<Data>)
    requires AllParse(rows)
    ensures |ds| == |rows| && forall i :: 0 <= i < |rows| ==> ParseRow(rows[i]) == Success(ds[i])
  {
    seq(|rows|, i requires 0 <= i < |rows| => ParseRow(rows[i]).value)
  }

  /** Reference for the loaded table: the last of `ds` numbered `n`. */
  function LastNumbered(ds: seq<Data>, n: int): (r: Option<Data>)
    ensures r.Some? ==> r.value.number == n
    ensures r.Some? ==> exists i :: 0 <= i < |ds| && ds[i] == r.value
                                    && forall j :: i < j < |ds| ==> ds[j].number != n
    ensures r.None? ==> forall i :: 0 <= i < |ds| ==> ds[i].number != n
    decreases |ds|
  {
    if |ds| == 0 then None
    else
      var later := LastNumbered(ds[1..], n);
      if later.Some? then
        ghost var i :| 0 <= i < |ds[1..]| && ds[1..][i] == later.value
                       && forall j :: i < j < |ds[1..]| ==> ds[1..][j].number != n;
        assert ds[i + 1] == later.value;
        assert forall j :: i + 1 < j < |ds| ==> ds[j] == ds[1..][j - 1];
        later
      else
        assert forall j :: 0 < j < |ds| ==> ds[j] == ds[1..][j - 1];
        if ds[0].number == n then Some(ds[0]) else None
  }

  /** Storing fails exactly when some conversion failed, and then with the
      error of the first one that did. */
  lemma {:induction false} StoreRowsFails(m: Entries<Data>, rs: seq<Result<Data, ConfigError>>)
    ensures StoreRows(m, rs).Failure? <==> exists i :: 0 <= i < |rs| && rs[i].Failure?
    ensures StoreRows(m, rs).Failure? ==>
      exists i :: 0 <= i < |rs| && rs[i] == Failure(StoreRows(m, rs).error)
                  && forall j :: 0 <= j < i ==> rs[j].Success?
    decreases |rs|
  {
    if |rs| > 0 && rs[0].Success? {
      var d := rs[0].value;
      var rest := rs[1..];
      assert forall i :: 0 <= i < |rest| ==> rest[i] == rs[i + 1];
      StoreRowsFails(OrderedMap.Insert(m, d.number, d), rest);
      if StoreRows(m, rs).Failure? {
        var i :| 0 <= i < |rest| && rest[i] == Failure(StoreRows(m, rs).error)
                 && forall j :: 0 <= j < i ==> rest[j].Success?;
        assert rs[i + 1] == Failure(StoreRows(m, rs).error);
      }
    }
  }

  /** Loading throws exactly when some row does not convert, and then with
      the error of the first row that does not. */
  lemma LoadDataFails(file: string)
    requires WellFormedRows(Rows(file))
    ensures var rows := Rows(file);
      LoadData(file).Failure? <==> exists i :: 0 <= i < |rows| && ParseRow(rows[i]).Failure?
    ensures var rows := Rows(file);
      LoadData(file).Failure? ==>
        exists i :: 0 <= i < |rows| && ParseRow(rows[i]) == Failure(LoadData(file).error)
                    && forall j :: 0 <= j < i ==> ParseRow(rows[j]).Success?
  {
    StoreRowsFails([], Conversions(Rows(file)));
  }

  lemma StoreRowKeeps(m: Entries<Data>, d: Data)
    ensures OrderedMap.Sorted(m) && KeysMatch(m) ==>
      OrderedMap.Sorted(OrderedMap.Insert(m, d.number, d)) && KeysMatch(OrderedMap.Insert(m, d.number, d))
  {
    if OrderedMap.Sorted(m) && KeysMatch(m) {
      StoreRow(m, d);
    }
  }

  /** Storing a row under its number keeps the map sorted and every entry
      under its own number. */
  lemma StoreRow(m: Entries<Data>, d: Data)
    requires OrderedMap.Sorted(m) && KeysMatch(m)
    ensures OrderedMap.Sorted(OrderedMap.Insert(m, d.number, d))
    ensures KeysMatch(OrderedMap.Insert(m, d.number, d))
  {
    OrderedMap.InsertSorted(m, d.number, d, 0);
    OrderedMap.InsertEntries(m, d.number, d);
  }

  function Successes(ds: seq<Data>): (rs: seq<Result<Data, ConfigError>>)
    ensures |rs| == |ds| && forall i :: 0 <= i < |ds| ==> rs[i] == Success(ds[i])
  {
    seq(|ds|, i requires 0 <= i < |ds| => Success(ds[i]))
  }

  /** After storing, number `n` finds the last row numbered `n`, or what
      the map held before when no row has that number; the map stays
      sorted with every entry under its own number. */
  lemma {:induction false} StoreRowsFind(m: Entries<Data>, ds: seq<Data>, n: int)
    requires OrderedMap.Sorted(m) && KeysMatch(m)
    ensures StoreRows(m, Successes(ds)).Success?
    ensures OrderedMap.Sorted(StoreRows(m, Successes(ds)).value) && KeysMatch(StoreRows(m, Successes(ds)).value)
    ensures OrderedMap.Find(StoreRows(m, Successes(ds)).value, n)
         == if LastNumbered(ds, n).Some? then LastNumbered(ds, n) else OrderedMap.Find(m, n)
    decreases |ds|
  {
    if |ds| > 0 {
      var d := ds[0];
      var m' := OrderedMap.Insert(m, d.number, d);
      assert Successes(ds)[1..] == Successes(ds[1..]);
      StoreRow(m, d);
      OrderedMap.InsertFind(m, d.number, d, n);
      StoreRowsFind(m', ds[1..], n);
    }
  }

  /** A table whose rows all convert is the rows' values, stored in order. */
  lemma LoadDataStores(file: string)
    requires AllParse(Rows(file))
    ensures Conversions(Rows(file)) == Successes(ParsedRows(Rows(file)))
  {
  }

  // ---------------------------------------------------------------------
  // Lookups
  // ---------------------------------------------------------------------

  /** `getDataByNumber`. */
  function GetDataByNumber(m: Entries<Data>, n: int): (r: Result<Data, ConfigError>)
    ensures r.Success? <==> OrderedMap.HasKey(m, n)
    ensures r.Failure? ==> r.error == NotFound
    ensures r.Success? && KeysMatch(m) ==> r.value.number == n
  {
    match OrderedMap.Find(m, n)
    case None => Failure(NotFound)
    case Some(d) => Success(d)
  }

  /** A table loaded from rows that all convert answers a lookup with the
      last row carrying that number, and fails for numbers no row has. */
  lemma LoadedLookup(file: string, n: int)
    requires AllParse(Rows(file))
    ensures LoadData(file).Success?
    ensures var last := LastNumbered(ParsedRows(Rows(file)), n);
      GetDataByNumber(LoadData(file).value, n) == if last.Some? then Success(last.value) else Failure(NotFound)
  {
    LoadDataStores(file);
    StoreRowsFind([], ParsedRows(Rows(file)), n);
  }

  /** `getDataByGroupName`: the rows of that group, in ascending number order. */
  function GetDataByGroupName(m: Entries<Data>, name: string): (r: seq<Data>)
    ensures forall i :: 0 <= i < |r| ==> r[i].groupname == name
    ensures forall i :: 0 <= i < |r| ==> exists j :: 0 <= j < |m| && m[j].1 == r[i]
    ensures forall j :: 0 <= j < |m| && m[j].1.groupname == name ==> m[j].1 in r
    decreases |m|
  {
    if |m| == 0 then []
    else
      var rest := GetDataByGroupName(m[1..], name);
      assert forall j :: 0 <= j < |m[1..]| ==> m[1..][j] == m[j + 1];
      assert forall j :: 0 < j < |m| ==> m[j] == m[1..][j - 1];
      if m[0].1.groupname == name then [m[0].1] + rest else rest
  }

  /** In a loaded table the rows of a group come out with strictly
      increasing numbers. */
  lemma {:induction false} GroupRowsIncrease(m: Entries<Data>, name: string)
    requires OrderedMap.Sorted(m) && KeysMatch(m)
    ensures NumbersIncrease(GetDataByGroupName(m, name))
    decreases |m|
  {
    if |m| > 0 {
      var tail := m[1..];
      assert forall j :: 0 <= j < |tail| ==> tail[j] == m[j + 1];
      assert OrderedMap.Sorted(tail) && KeysMatch(tail) && OrderedMap.Above(tail, m[0].0);
      GroupRowsIncrease(tail, name);
      GroupRowsAbove(tail, name, m[0].0);
      if m[0].1.groupname == name {
        ConsIncrease(m[0].1, GetDataByGroupName(tail, name));
      }
    }
  }

  /** A group's rows carry numbers above any bound on the table's keys. */
  lemma GroupRowsAbove(m: Entries<Data>, name: string, b: int)
    requires KeysMatch(m) && OrderedMap.Above(m, b)
    ensures forall i :: 0 <= i < |GetDataByGroupName(m, name)| ==> b < GetDataByGroupName(m, name)[i].number
  {
  }

  lemma ConsIncrease(d: Data, ds: seq<Data>)
    requires NumbersIncrease(ds) && forall i :: 0 <= i < |ds| ==> d.number < ds[i].number
    ensures NumbersIncrease([d] + ds)
  {
  }

  predicate NumbersIncrease(ds: seq<Data>) {
    forall i, j :: 0 <= i < j < |ds| ==> ds[i].number < ds[j].number
  }

  /** Group names of `m[lo..]` added to `acc` (the `std::set` insertions). */
  function GroupNamesFrom(acc: seq<string>, m: Entries<Data>): (r: seq<string>)
    requires Increasing(acc)
    ensures Increasing(r)
    ensures forall y :: y in r <==> y in acc || (y != "" && exists j :: 0 <= j < |m| && m[j].1.groupname == y)
    decreases |m|
  {
    if |m| == 0 then acc
    else
      var name := m[0].1.groupname;
      var acc' := if name != "" then InsertSorted(acc, name) else acc;
      assert forall j :: 0 <= j < |m[1..]| ==> m[1..][j] == m[j + 1];
      assert forall j :: 0 < j < |m| ==> m[j] == m[1..][j - 1];
      GroupNamesFrom(acc', m[1..])
  }

  /** `getAllGroupNames`: every non-empty group name once, in string order. */
  function GetAllGroupNames(m: Entries<Data>): (r: seq<string>)
    ensures Increasing(r)
    ensures forall y :: y in r <==> y != "" && exists j :: 0 <= j < |m| && m[j].1.groupname == y
  {
    GroupNamesFrom([], m)
  }

  /** The listing is the only increasing list of those names: any other
      sorted, repeat-free listing of the same names is equal to it. */
  lemma GroupNamesCanonical(m: Entries<Data>, names: seq<string>)
    requires Increasing(names)
    requires forall y :: y in names <==> y != "" && exists j :: 0 <= j < |m| && m[j].1.groupname == y
    ensures GetAllGroupNames(m) == names
  {
    IncreasingUnique(GetAllGroupNames(m), names);
  }

  // ---------------------------------------------------------------------
  // Windows
  // ---------------------------------------------------------------------

  /** A probe's initial window: its identity with all bounds 0. */
  function WindowOf(d: Data): (w: Window)
    ensures w.number == d.number && w.group == d.group && w.groupname == d.groupname
    ensures w.lowerbound == 0.0 && w.middle == 0.0 && w.upperbound == 0.0
  {
    Window(d.number, d.group, d.groupname, 0.0, 0.0, 0.0)
  }

  /** The constructor's loop: `dataWindow[window.number] = window` per entry. */
  function InitWindowsFrom(w: Entries<Window>, es: Entries<Data>): Entries<Window>
    decreases |es|
  {
    if |es| == 0 then w
    else InitWindowsFrom(OrderedMap.Insert(w, es[0].1.number, WindowOf(es[0].1)), es[1..])
  }

  /** The constructor's `dataWindow`, a `std::map` keyed by probe number. */
  function InitWindows(m: Entries<Data>): (r: Entries<Window>)
    ensures OrderedMap.Sorted(r)
  {
    InitWindowsFromSorted([], m);
    InitWindowsFrom([], m)
  }

  lemma {:induction false} InitWindowsFromFind(w: Entries<Window>, es: Entries<Data>, n: int)
    requires OrderedMap.Sorted(es) && KeysMatch(es)
    ensures OrderedMap.Find(InitWindowsFrom(w, es), n)
         == if OrderedMap.HasKey(es, n) then Some(WindowOf(OrderedMap.Find(es, n).value)) else OrderedMap.Find(w, n)
    decreases |es|
  {
    if |es| > 0 {
      var d := es[0].1;
      var w' := OrderedMap.Insert(w, d.number, WindowOf(d));
      var rest := es[1..];
      assert forall i :: 0 <= i < |rest| ==> rest[i] == es[i + 1];
      InitWindowsFromFind(w', rest, n);
      OrderedMap.InsertFind(w, d.number, WindowOf(d), n);
      assert OrderedMap.HasKey(es, n) <==> n == es[0].0 || OrderedMap.HasKey(rest, n) by {
        if OrderedMap.HasKey(es, n) && n != es[0].0 {
          var i :| 0 <= i < |es| && es[i].0 == n;
          assert rest[i - 1].0 == n;
        }
      }
      if n == es[0].0 {
        assert OrderedMap.Find(rest, n).None?;
      }
    }
  }

  lemma {:induction false} InitWindowsFromSorted(w: Entries<Window>, es: Entries<Data>)
    requires OrderedMap.Sorted(w)
    ensures OrderedMap.Sorted(InitWindowsFrom(w, es))
    decreases |es|
  {
    if |es| > 0 {
      OrderedMap.InsertSorted(w, es[0].1.number, WindowOf(es[0].1), 0);
      InitWindowsFromSorted(OrderedMap.Insert(w, es[0].1.number, WindowOf(es[0].1)), es[1..]);
    }
  }

  /** The initial windows have exactly the probes' numbers, each with the
      probe's number, group and name and zero bounds. */
  lemma InitWindowsMirror(m: Entries<Data>, n: int)
    requires OrderedMap.Sorted(m) && KeysMatch(m)
    ensures OrderedMap.Sorted(InitWindows(m))
    ensures OrderedMap.Find(InitWindows(m), n)
         == match OrderedMap.Find(m, n) case None => None case Some(d) => Some(WindowOf(d))
  {
    InitWindowsFromSorted([], m);
    InitWindowsFromFind([], m, n);
  }

  /** A user's window edit: each bound is given or left out. */
  datatype Bounds = Bounds(lower: Option<real>, middle: Option<real>, upper: Option<real>)

  /** `setWindowByNumber`: an absent bound becomes 0.0; an unknown number throws. */
  function SetWindowByNumber(w: Entries<Window>, n: int, b: Bounds): (r: Result<Entries<Window>, ConfigError>)
    requires OrderedMap.Sorted(w)
    ensures r.Failure? <==> !OrderedMap.HasKey(w, n)
    ensures r.Failure? ==> r.error == NotFound
    ensures r.Success? ==> OrderedMap.Sorted(r.value)
    ensures r.Success? ==>
      var before := OrderedMap.Find(w, n).value;
      var after := OrderedMap.Find(r.value, n);
      after.Some? && after.value.number == before.number && after.value.group == before.group
      && after.value.groupname == before.groupname
      && after.value.lowerbound == (if b.lower.Some? then b.lower.value else 0.0)
      && after.value.middle == (if b.middle.Some? then b.middle.value else 0.0)
      && after.value.upperbound == (if b.upper.Some? then b.upper.value else 0.0)
    ensures r.Success? ==> forall k :: k != n ==> OrderedMap.Find(r.value, k) == OrderedMap.Find(w, k)
  {
    match OrderedMap.Find(w, n)
    case None => Failure(NotFound)
    case Some(prev) =>
      var nw := prev.(lowerbound := b.lower.GetOr(0.0), middle := b.middle.GetOr(0.0), upperbound := b.upper.GetOr(0.0));
      OrderedMap.InsertSorted(w, n, nw, 0);
      OrderedMap.InsertFind(w, n, nw, n);
      assert forall k :: k != n ==> OrderedMap.Find(OrderedMap.Insert(w, n, nw), k) == OrderedMap.Find(w, k) by {
        forall k | k != n {
          OrderedMap.InsertFind(w, n, nw, k);
        }
      }
      Success(OrderedMap.Insert(w, n, nw))
  }

  // ---------------------------------------------------------------------
  // Exporting the windows
  // ---------------------------------------------------------------------

  const ExportColumns := ["Number", "Group", "GroupName", "LowerBound", "Middle", "UpperBound"]

  /** "Number,Group,GroupName,LowerBound,Middle,UpperBound". */
  const ExportHeader := Join(ExportColumns, ',')

  /** The cells of one exported line; doubles go through the stream's
      formatting, a parameter here. */
  function WindowCells(win: Window, fmt: real -> string): (c: seq<string>)
    ensures |c| == 6
  {
    [FmtInt(win.number), FmtInt(win.group), win.groupname, fmt(win.lowerbound), fmt(win.middle), fmt(win.upperbound)]
  }

  function ExportLines(w: Entries<Window>, fmt: real -> string): (ls: seq<string>)
    ensures |ls| == |w| + 1
  {
    [ExportHeader] + seq(|w|, i requires 0 <= i < |w| => Join(WindowCells(w[i].1, fmt), ','))
  }

  /** `exportWindow`: nothing when the file cannot be opened (it returns
      false), otherwise the header and one line per window in number order. */
  function ExportWindow(w: Entries<Window>, isOpen: bool, fmt: real -> string): (r: Option<string>)
    ensures r.Some? <==> isOpen
  {
    if isOpen then Some(JoinTerminated(ExportLines(w, fmt), '\n')) else None
  }

  /** The formatter never prints a delimiter and never prints nothing. */
  ghost predicate CellSafe(fmt: real -> string) {
    forall x :: |fmt(x)| > 0 && ',' !in fmt(x) && '\n' !in fmt(x)
  }

  lemma FmtIntChars(x: int)
    ensures ',' !in FmtInt(x) && ';' !in FmtInt(x)
  {
    FmtIntDigits(x);
  }

  /** Reading the exported file back line by line and cell by cell gives
      the header and, in number order, every window's number, group, name
      and formatted bounds. */
  lemma ExportReadsBack(w: Entries<Window>, fmt: real -> string, i: nat)
    requires CellSafe(fmt)
    requires forall j :: 0 <= j < |w| ==> ',' !in w[j].1.groupname && '\n' !in w[j].1.groupname
    requires forall j :: 0 <= j < |w| ==> InInt(w[j].1.number) && InInt(w[j].1.group)
    requires i < |w|
    ensures var ls := Lines(ExportWindow(w, true, fmt).value);
      |ls| == |w| + 1 && ls[0] == ExportHeader
      && Split(ls[i + 1], ',') == WindowCells(w[i].1, fmt)
      && Stoi(Split(ls[i + 1], ',')[0]) == Some(w[i].1.number)
      && Stoi(Split(ls[i + 1], ',')[1]) == Some(w[i].1.group)
      && Split(ls[i + 1], ',')[2] == w[i].1.groupname
  {
    ExportLinesBack(w, fmt);
    ExportLineAt(w, fmt, i);
    ExportCellsBack(w[i].1, fmt);
  }

  lemma ExportLineAt(w: Entries<Window>, fmt: real -> string, i: nat)
    requires i < |w|
    ensures ExportLines(w, fmt)[0] == ExportHeader
    ensures ExportLines(w, fmt)[i + 1] == Join(WindowCells(w[i].1, fmt), ',')
  {
  }

  lemma ExportLinesBack(w: Entries<Window>, fmt: real -> string)
    requires CellSafe(fmt)
    requires forall j :: 0 <= j < |w| ==> '\n' !in w[j].1.groupname
    ensures Lines(ExportWindow(w, true, fmt).value) == ExportLines(w, fmt)
  {
    ExportLinesPlain(w, fmt);
    SplitJoinTerminated(ExportLines(w, fmt), '\n');
  }

  /** No exported line holds a line break. */
  lemma ExportLinesPlain(w: Entries<Window>, fmt: real -> string)
    requires CellSafe(fmt)
    requires forall j :: 0 <= j < |w| ==> '\n' !in w[j].1.groupname
    ensures forall j :: 0 <= j < |ExportLines(w, fmt)| ==> '\n' !in ExportLines(w, fmt)[j]
  {
    forall j | 0 <= j < |ExportLines(w, fmt)|
      ensures '\n' !in ExportLines(w, fmt)[j]
    {
      if j > 0 {
        WindowExportLinePlain(w, fmt, j - 1);
      } else {
        ExportHeaderLine(w, fmt);
      }
    }
  }

  /** The line of window `i` has no line break. */
  lemma WindowExportLinePlain(w: Entries<Window>, fmt: real -> string, i: nat)
    requires CellSafe(fmt) && i < |w| && '\n' !in w[i].1.groupname
    ensures '\n' !in ExportLines(w, fmt)[i + 1]
  {
    ExportLineAt(w, fmt, i);
    WindowLinePlain(w[i].1, fmt);
  }

  lemma ExportHeaderLine(w: Entries<Window>, fmt: real -> string)
    ensures '\n' !in ExportLines(w, fmt)[0]
  {
    HeaderPlain();
    assert ExportLines(w, fmt)[0] == ExportHeader;
  }

  lemma WindowLinePlain(win: Window, fmt: real -> string)
    requires CellSafe(fmt) && '\n' !in win.groupname
    ensures '\n' !in Join(WindowCells(win, fmt), ',')
  {
    assert '\n' !in fmt(win.lowerbound) && '\n' !in fmt(win.middle) && '\n' !in fmt(win.upperbound);
    JoinNoBreak(WindowCells(win, fmt), win, fmt);
  }

  lemma ExportCellsBack(win: Window, fmt: real -> string)
    requires CellSafe(fmt) && ',' !in win.groupname && InInt(win.number) && InInt(win.group)
    ensures var cells := Split(Join(WindowCells(win, fmt), ','), ',');
      cells == WindowCells(win, fmt)
      && Stoi(cells[0]) == Some(win.number) && Stoi(cells[1]) == Some(win.group)
  {
    var cells := WindowCells(win, fmt);
    FmtIntChars(win.number);
    FmtIntChars(win.group);
    SplitJoin(cells, ',');
    StoiFmtInt(win.number);
    StoiFmtInt(win.group);
  }

  /** The header holds no line break and splits into the column names. */
  lemma HeaderPlain()
    ensures '\n' !in ExportHeader
    ensures Split(ExportHeader, ',') == ExportColumns
  {
    var c := ExportColumns;
    assert forall j :: 0 <= j < |c| ==> '\n' !in c[j] && ',' !in c[j];
    JoinKeeps(c, ',', '\n');
    SplitJoin(c, ',');
  }

  lemma JoinNoBreak(cells: seq<string>, win: Window, fmt: real -> string)
    requires cells == WindowCells(win, fmt) && '\n' !in win.groupname
    requires '\n' !in fmt(win.lowerbound) && '\n' !in fmt(win.middle) && '\n' !in fmt(win.upperbound)
    ensures '\n' !in Join(cells, ',')
  {
    JoinKeeps(cells, ',', '\n');
  }

  /** A character in no cell and different from the delimiter is not in the row. */
  lemma {:induction false} JoinKeeps(cells: seq<string>, d: char, c: char)
    requires c != d && forall j :: 0 <= j < |cells| ==> c !in cells[j]
    ensures c !in Join(cells, d)
    decreases |cells|
  {
    if |cells| > 1 {
      JoinKeeps(cells[1..], d, c);
    }
  }

  // ---------------------------------------------------------------------
  // The window file's location
  // ---------------------------------------------------------------------

  /** The window file's name: the table's stem, "_window", the session's
      timestamp (`getCurrentDateTime`, a parameter here) and ".csv". */
  function WindowFileName(filepath: string, stamp: string): (r: string)
    ensures '/' !in stamp ==> '/' !in r && |r| > 0
  {
    Stem(filepath) + "_window" + stamp + ".csv"
  }

  /** The path as the constructor builds it: directory and name pasted
      together with no separator between them. */
  function WindowPathAsWritten(filepath: string, stamp: string): (r: string)
    ensures '/' !in stamp ==> ParentPath(r) == ParentPath(ParentPath(filepath))
  {
    var name := WindowFileName(filepath, stamp);
    if '/' in name then ParentPath(filepath) + name
    else
      ParentOfConcat(ParentPath(filepath), name);
      ParentPath(filepath) + name
  }

  /** The pasted path lands one directory above the table, under a name
      that starts with the table's directory name. */
  lemma WindowPathAsWrittenMovesUp(filepath: string, stamp: string)
    requires '/' !in stamp
    ensures ParentPath(WindowPathAsWritten(filepath, stamp)) == ParentPath(ParentPath(filepath))
  {
    ParentOfConcat(ParentPath(filepath), WindowFileName(filepath, stamp));
  }

  /** For a table `d/p.c` the window file is written to the working
      directory instead of `d`. */
  lemma WindowPathAsWrittenExample()
    ensures ParentPath("d/p.c") == "d"
    ensures ParentPath(WindowPathAsWritten("d/p.c", "T")) == ""
  {
    var fp := "d/p.c";
    assert LastIndexOf(fp, '/') == Some(1);
    assert ParentPath(fp) == "d";
    WindowPathAsWrittenMovesUp(fp, "T");
    assert LastIndexOf("d", '/') == None;
  }

  /** Separators in `p` never come two in a row. */
  predicate SingleSeparators(p: string) {
    forall j :: 0 < j < |p| && p[j] == '/' ==> p[j - 1] != '/'
  }

  /** The window path joined with a separator (`filedir_ / name`), as the
      comment on `exportWindow` intends. */
  function WindowPath(filepath: string, stamp: string): (r: string)
    ensures '/' !in stamp && SingleSeparators(filepath) ==>
      ParentPath(r) == ParentPath(filepath) && FileName(r) == WindowFileName(filepath, stamp)
  {
    var name := WindowFileName(filepath, stamp);
    if '/' !in stamp && SingleSeparators(filepath) then
      JoinInTableDir(filepath, name);
      JoinPath(ParentPath(filepath), name)
    else JoinPath(ParentPath(filepath), name)
  }

  /** A plain name joined to the table's directory lies in that directory. */
  lemma JoinInTableDir(filepath: string, name: string)
    requires '/' !in name && |name| > 0 && SingleSeparators(filepath)
    ensures ParentPath(JoinPath(ParentPath(filepath), name)) == ParentPath(filepath)
    ensures FileName(JoinPath(ParentPath(filepath), name)) == name
  {
    var dir := ParentPath(filepath);
    if LastIndexOf(filepath, '/').Some? {
      var i := LastIndexOf(filepath, '/').value;
      if i > 0 {
        assert dir == filepath[..i] && dir[|dir| - 1] == filepath[i - 1];
      }
    }
    ParentOfJoin(dir, name);
  }

  /** The joined path puts the window file in the table's own directory. */
  lemma WindowPathInTableDir(filepath: string, stamp: string)
    requires '/' !in stamp && SingleSeparators(filepath)
    ensures ParentPath(WindowPath(filepath, stamp)) == ParentPath(filepath)
    ensures FileName(WindowPath(filepath, stamp)) == WindowFileName(filepath, stamp)
  {
    JoinInTableDir(filepath, WindowFileName(filepath, stamp));
  }

  // ---------------------------------------------------------------------
  // The whole configuration
  // ---------------------------------------------------------------------

  datatype Config = Config(windowPath: string, dataMap: Entries<Data>, dataWindow: Entries<Window>)

  /** The constructor: the window path as it pastes it together, the table
      (loading throws on a bad cell), and one zeroed window per probe. */
  function NewConfig(filepath: string, file: string, stamp: string): (r: Result<Config, ConfigError>)
    requires WellFormedRows(Rows(file))
    ensures r.Success? <==> LoadData(file).Success?
    ensures r.Success? ==> r.value.windowPath == WindowPathAsWritten(filepath, stamp)
    ensures r.Success? ==> r.value.dataMap == LoadData(file).value
  {
    var m :- LoadData(file);
    Success(Config(WindowPathAsWritten(filepath, stamp), m, InitWindows(m)))
  }

  /** The constructor as evidently intended: the same table and windows,
      with the window path joined by a separator. */
  function NewConfigIntended(filepath: string, file: string, stamp: string): (r: Result<Config, ConfigError>)
    requires WellFormedRows(Rows(file))
    ensures r.Success? <==> NewConfig(filepath, file, stamp).Success?
    ensures r.Success? ==>
      r.value == NewConfig(filepath, file, stamp).value.(windowPath := WindowPath(filepath, stamp))
  {
    var m :- LoadData(file);
    Success(Config(WindowPath(filepath, stamp), m, InitWindows(m)))
  }

  /** The constructor as written sends the window file one directory above
      the table. */
  lemma NewConfigWindowMovesUp(filepath: string, file: string, stamp: string)
    requires WellFormedRows(Rows(file)) && '/' !in stamp
    requires NewConfig(filepath, file, stamp).Success?
    ensures ParentPath(NewConfig(filepath, file, stamp).value.windowPath) == ParentPath(ParentPath(filepath))
  {
    WindowPathAsWrittenMovesUp(filepath, stamp);
  }

  /** The intended constructor keeps the window file beside the table. */
  lemma NewConfigIntendedWindowInTableDir(filepath: string, file: string, stamp: string)
    requires WellFormedRows(Rows(file)) && '/' !in stamp && SingleSeparators(filepath)
    requires NewConfigIntended(filepath, file, stamp).Success?
    ensures ParentPath(NewConfigIntended(filepath, file, stamp).value.windowPath) == ParentPath(filepath)
  {
    WindowPathInTableDir(filepath, stamp);
  }

  /** Windows and probes have the same numbers, and each window carries its
      probe's number, group and name. */
  ghost predicate Consistent(c: Config) {
    OrderedMap.Sorted(c.dataMap) && KeysMatch(c.dataMap) && OrderedMap.Sorted(c.dataWindow)
    && forall n :: Mirrors(OrderedMap.Find(c.dataMap, n), OrderedMap.Find(c.dataWindow, n))
  }

  predicate Mirrors(d: Option<Data>, w: Option<Window>) {
    d.Some? == w.Some?
    && (d.Some? ==> w.value.number == d.value.number && w.value.group == d.value.group
                    && w.value.groupname == d.value.groupname)
  }

  lemma NewConfigConsistent(filepath: string, file: string, stamp: string)
    requires AllParse(Rows(file))
    ensures NewConfig(filepath, file, stamp).Success?
    ensures Consistent(NewConfig(filepath, file, stamp).value)
  {
    LoadDataStores(file);
    StoreRowsFind([], ParsedRows(Rows(file)), 0);
    var c := NewConfig(filepath, file, stamp).value;
    forall n
      ensures Mirrors(OrderedMap.Find(c.dataMap, n), OrderedMap.Find(c.dataWindow, n))
    {
      InitWindowsMirror(c.dataMap, n);
    }
    InitWindowsMirror(c.dataMap, 0);
  }

  /** Editing a window keeps windows and probes in step. */
  lemma SetWindowKeepsConsistent(c: Config, n: int, b: Bounds)
    requires Consistent(c)
    requires SetWindowByNumber(c.dataWindow, n, b).Success?
    ensures Consistent(c.(dataWindow := SetWindowByNumber(c.dataWindow, n, b).value))
  {
    var w' := SetWindowByNumber(c.dataWindow, n, b).value;
    forall k
      ensures Mirrors(OrderedMap.Find(c.dataMap, k), OrderedMap.Find(w', k))
    {
      assert Mirrors(OrderedMap.Find(c.dataMap, k), OrderedMap.Find(c.dataWindow, k));
    }
  }

  /** A probe that is in the table can always have its window edited. */
  lemma SetWindowOfKnownProbe(c: Config, n: int, b: Bounds)
    requires Consistent(c) && GetDataByNumber(c.dataMap, n).Success?
    ensures SetWindowByNumber(c.dataWindow, n, b).Success?
  {
    assert Mirrors(OrderedMap.Find(c.dataMap, n), OrderedMap.Find(c.dataWindow, n));
  }

  // ---------------------------------------------------------------------
  // A row read back
  // ---------------------------------------------------------------------

  function FixedTexts(xs: seq<Fixed>): (r: seq<string>)
    requires forall i :: 0 <= i < |xs| ==> AllDigits(xs[i].frac)
    ensures |r| == |xs| && forall i :: 0 <= i < |xs| ==> r[i] == FixedText(xs[i])
  {
    seq(|xs|, i requires 0 <= i < |xs| => FixedText(xs[i]))
  }

  function FixedValues(xs: seq<Fixed>): (r: seq<real>)
    requires forall i :: 0 <= i < |xs| ==> AllDigits(xs[i].frac)
    ensures |r| == |xs| && forall i :: 0 <= i < |xs| ==> r[i] == FixedValue(xs[i])
  {
    seq(|xs|, i requires 0 <= i < |xs| => FixedValue(xs[i]))
  }

  /** A table row as a spreadsheet writes it. */
  function RowText(number: int, group: int, name: string, xs: seq<Fixed>): string
    requires forall i :: 0 <= i < |xs| ==> AllDigits(xs[i].frac)
  {
    Join([FmtInt(number), FmtInt(group), name] + FixedTexts(xs), ';')
  }

  /** Every row with `int` ids, a ';'-free name and six decimals is read
      back exactly: the first three decimals are the rotation, the last
      three the translation. */
  lemma ParseRowText(number: int, group: int, name: string, xs: seq<Fixed>)
    requires ';' !in name && |xs| == 6
    requires forall i :: 0 <= i < 6 ==> AllDigits(xs[i].frac)
    requires InInt(number) && InInt(group)
    ensures |Cells(RowText(number, group, name, xs))| >= 9
    ensures var r := ParseRow(RowText(number, group, name, xs));
      r.Success? && r.value.number == number && r.value.group == group && r.value.groupname == name
      && r.value.localR == FixedValues(xs)[..3] && r.value.localT == FixedValues(xs)[3..]
  {
    var cells := RowCells(number, group, name, xs);
    CellsConvert(number, group, name, xs);
    ParseCellsOf(cells, number, group, FixedValues(xs));
  }

  /** Each written cell converts back to what was written. */
  lemma CellsConvert(number: int, group: int, name: string, xs: seq<Fixed>)
    requires |xs| == 6 && forall i :: 0 <= i < 6 ==> AllDigits(xs[i].frac)
    requires InInt(number) && InInt(group)
    ensures var c := [FmtInt(number), FmtInt(group), name] + FixedTexts(xs);
      Stoi(c[0]) == Some(number) && Stoi(c[1]) == Some(group)
      && forall j :: 3 <= j < 9 ==> Stod(c[j]) == Some(FixedValues(xs)[j - 3])
  {
    var ts := FixedTexts(xs);
    var c := [FmtInt(number), FmtInt(group), name] + ts;
    assert c[0] == FmtInt(number) && c[1] == FmtInt(group);
    StoiFmtInt(number);
    StoiFmtInt(group);
    assert forall j :: 3 <= j < 9 ==> c[j] == ts[j - 3];
    FixedCells(xs);
  }

  /** The cells of a written row are the texts it was joined from. */
  lemma RowCells(number: int, group: int, name: string, xs: seq<Fixed>) returns (cells: seq<string>)
    requires ';' !in name && |xs| > 0
    requires forall i :: 0 <= i < |xs| ==> AllDigits(xs[i].frac)
    ensures cells == [FmtInt(number), FmtInt(group), name] + FixedTexts(xs)
    ensures Cells(RowText(number, group, name, xs)) == cells
  {
    cells := [FmtInt(number), FmtInt(group), name] + FixedTexts(xs);
    FmtIntChars(number);
    FmtIntChars(group);
    FixedCells(xs);
    assert forall j :: 0 <= j < |cells| ==> ';' !in cells[j];
    SplitJoin(cells, ';');
  }

  /** Cells whose conversions all succeed make the row of those values. */
  lemma ParseCellsOf(c: seq<string>, number: int, group: int, xs: seq<real>)
    requires |c| >= 9 && |xs| == 6
    requires Stoi(c[0]) == Some(number) && Stoi(c[1]) == Some(group)
    requires forall j :: 3 <= j < 9 ==> Stod(c[j]) == Some(xs[j - 3])
    ensures ParseCells(c).Success?
    ensures ParseCells(c).value.number == number && ParseCells(c).value.group == group
    ensures ParseCells(c).value.groupname == c[2]
    ensures ParseCells(c).value.localR == xs[..3] && ParseCells(c).value.localT == xs[3..]
  {
    ParseCoordsOf(c, xs);
  }

  /** Coordinate cells that all convert give those values, split in half. */
  lemma ParseCoordsOf(c: seq<string>, xs: seq<real>)
    requires |c| >= 9 && |xs| == 6
    requires forall j :: 3 <= j < 9 ==> Stod(c[j]) == Some(xs[j - 3])
    ensures ParseCoords(c) == Some((xs[..3], xs[3..]))
  {
    Halves(xs);
    assert Stod(c[3]) == Some(xs[0]) && Stod(c[4]) == Some(xs[1]) && Stod(c[5]) == Some(xs[2]);
    assert Stod(c[6]) == Some(xs[3]) && Stod(c[7]) == Some(xs[4]) && Stod(c[8]) == Some(xs[5]);
  }

  /** The two halves of six values, element by element. */
  lemma Halves<T>(xs: seq<T>)
    requires |xs| == 6
    ensures xs[..3] == [xs[0], xs[1], xs[2]] && xs[3..] == [xs[3], xs[4], xs[5]]
  {
  }

  /** Written decimals hold no ';' and read back as their values. */
  lemma FixedCells(xs: seq<Fixed>)
    requires forall i :: 0 <= i < |xs| ==> AllDigits(xs[i].frac)
    ensures forall i :: 0 <= i < |xs| ==> ';' !in FixedTexts(xs)[i]
    ensures forall i :: 0 <= i < |xs| ==> Stod(FixedTexts(xs)[i]) == Some(FixedValues(xs)[i])
  {
    forall i | 0 <= i < |xs|
      ensures Stod(FixedTexts(xs)[i]) == Some(FixedValues(xs)[i])
    {
      StodFixed(xs[i]);
    }
  }
}

=== FILE: amode_stream.dfy ===
/** The A-mode frame decoder of `AmodeConnection`: socket bytes are appended
    to a buffer, frames are cut between consecutive separators, a fixed
    number of bytes is copied out of each frame into the sample vector, and
    the buffer is trimmed so that it starts at the next separator.

    The device sends, per time step,
      [array header: 4][separator: 10][index: 2][samples: 2 * samples * probes]
    so the distance between two separators is the frame size. */
module AmodeStream {
  import opened Wrappers
  import opened Bytes
  import opened Seqs

  /** The separator words, "START" in ASCII with 10000 added to each letter. */
  const SeparatorWords: seq<u16> := [10083, 10084, 10065, 10082, 10084]

  /** `separator_qbyte`: the separator words, little-endian. */
  const Separator: seq<byte> := [0x63, 0x27, 0x64, 0x27, 0x51, 0x27, 0x62, 0x27, 0x64, 0x27]

  const HeaderSize: nat := 4
  const SeparatorSize: nat := 10
  const IndexSize: nat := 2

  /** Number of samples per probe and number of probes. */
  datatype Geometry = Geometry(samples: nat, probes: nat) {
    /** `datalength_`: the words of one frame. */
    function DataLength(): nat { samples * probes }
    /** `usdata_datasize_`: the bytes copied out of one frame. */
    function DataSize(): nat { 2 * DataLength() }
  }

  /** The values `AmodeConnection` is built with (`samples_`, `probes_`). */
  const DefaultGeometry := Geometry(3500, 30)

  /** The byte counts `initializeData` computes. */
  datatype Layout = Layout(frameSize: nat, allHeaderSize: nat, dataSize: nat, sampleCount: nat)

  function InitializeData(g: Geometry): (l: Layout)
    ensures l.dataSize == 2 * l.sampleCount && l.sampleCount == g.samples * g.probes
    ensures l.frameSize == HeaderSize + l.allHeaderSize + l.dataSize
    ensures l.allHeaderSize == SeparatorSize + IndexSize
  {
    Layout(HeaderSize + |Separator| + IndexSize + g.DataSize(), |Separator| + IndexSize, g.DataSize(), g.DataLength())
  }

  lemma SeparatorEncodesWords()
    ensures Separator == EncodeLE(SeparatorWords)
    ensures |Separator| == SeparatorSize
  {
  }

  lemma DefaultLayout()
    ensures InitializeData(DefaultGeometry) == Layout(210016, 12, 210000, 105000)
  {
  }

  // ---------------------------------------------------------------------
  // Separator search (`QByteArray::indexOf`)
  // ---------------------------------------------------------------------

  predicate SepAt(buf: seq<byte>, p: nat) {
    p + SeparatorSize <= |buf| && buf[p..p + SeparatorSize] == Separator
  }

  /** `buffer.indexOf(separator_qbyte, from)`: the lowest offset at or after
      `from` where the separator starts (`-1` is `None`). */
  function FindSep(buf: seq<byte>, from: nat): (r: Option<nat>)
    ensures r.Some? ==> from <= r.value && SepAt(buf, r.value)
    decreases |buf| - from
  {
    if from + SeparatorSize > |buf| then None
    else if SepAt(buf, from) then Some(from)
    else FindSep(buf, from + 1)
  }

  /** The search misses no occurrence: none lies between `from` and the
      offset found, and none at all when nothing is found. */
  lemma {:induction false} FindSepComplete(buf: seq<byte>, from: nat, q: nat)
    requires from <= q && SepAt(buf, q)
    ensures FindSep(buf, from).Some? && FindSep(buf, from).value <= q
    decreases |buf| - from
  {
    if from + SeparatorSize <= |buf| && !SepAt(buf, from) {
      FindSepComplete(buf, from + 1, q);
    }
  }

  /** No separator lies between `from` and the offset found. */
  lemma FindSepNoneBefore(buf: seq<byte>, from: nat, p: nat)
    requires FindSep(buf, from) == Some(p)
    ensures forall q :: from <= q < p ==> !SepAt(buf, q)
  {
    forall q | from <= q < p
      ensures !SepAt(buf, q)
    {
      if SepAt(buf, q) {
        FindSepComplete(buf, from, q);
      }
    }
  }

  /** The separator search returns the first occurrence. */
  lemma {:induction false} FindSepFirst(buf: seq<byte>, from: nat, p: nat)
    requires from <= p && SepAt(buf, p)
    requires forall q :: from <= q < p ==> !SepAt(buf, q)
    ensures FindSep(buf, from) == Some(p)
    decreases p - from
  {
    if from < p {
      assert !SepAt(buf, from);
      FindSepFirst(buf, from + 1, p);
    }
  }

  lemma SepAtExtend(a: seq<byte>, b: seq<byte>, q: nat)
    requires q + SeparatorSize <= |a|
    ensures SepAt(a + b, q) <==> SepAt(a, q)
  {
    assert (a + b)[q..q + SeparatorSize] == a[q..q + SeparatorSize];
  }

  /** A separator found in `a` is still the first one once more bytes arrive. */
  lemma FindSepExtend(a: seq<byte>, b: seq<byte>, from: nat, p: nat)
    requires FindSep(a, from) == Some(p)
    ensures FindSep(a + b, from) == Some(p)
  {
    SepAtExtend(a, b, p);
    forall q | from <= q < p
      ensures !SepAt(a + b, q)
    {
      SepAtExtend(a, b, q);
      if SepAt(a, q) {
        FindSepComplete(a, from, q);
      }
    }
    FindSepFirst(a + b, from, p);
  }

  // ---------------------------------------------------------------------
  // Frame extraction
  // ---------------------------------------------------------------------

  /** The frames `readData` cuts from a buffer, each running from one
      separator up to (not including) the next, and what it leaves in the
      buffer. */
  datatype Cut = Cut(segments: seq<seq<byte>>, rest: seq<byte>)

  function Scan(buf: seq<byte>): (r: Cut)
    ensures |r.segments| == 0 ==> r.rest == buf
    ensures |r.segments| > 0 ==> SepAt(r.rest, 0)
    decreases |buf|
  {
    match FindSep(buf, 0)
    case None => Cut([], buf)
    case Some(s) =>
      match FindSep(buf, s + SeparatorSize)
      case None => Cut([], buf)
      case Some(e) =>
        var tail := Scan(buf[e..]);
        assert SepAt(tail.rest, 0) by {
          if |tail.segments| == 0 {
            assert buf[e..][0..SeparatorSize] == buf[e..e + SeparatorSize];
          }
        }
        Cut([buf[s..e]] + tail.segments, tail.rest)
  }

  /** The unfolding of `Scan` at a complete frame `buf[s..e]`. */
  lemma ScanStep(buf: seq<byte>, s: nat, e: nat)
    requires FindSep(buf, 0) == Some(s) && FindSep(buf, s + SeparatorSize) == Some(e)
    ensures Scan(buf) == Cut([buf[s..e]] + Scan(buf[e..]).segments, Scan(buf[e..]).rest)
  {
  }

  /** The frames of a buffer whose first complete frame is `buf[s..e]`:
      that frame, then the frames of the rest. */
  lemma ScanSegmentsAt(buf: seq<byte>, s: nat, e: nat)
    requires FindSep(buf, 0) == Some(s) && FindSep(buf, s + SeparatorSize) == Some(e)
    ensures |Scan(buf).segments| == |Scan(buf[e..]).segments| + 1
    ensures Scan(buf).segments[0] == buf[s..e]
    ensures forall i :: 0 < i < |Scan(buf).segments| ==> Scan(buf).segments[i] == Scan(buf[e..]).segments[i - 1]
  {
    ScanStep(buf, s, e);
  }

  /** Cutting the first frame off a buffer whose frames all fit: that
      frame fits and so do the ones after it. */
  lemma FitStep(g: Geometry, buf: seq<byte>, s: nat, e: nat)
    requires FindSep(buf, 0) == Some(s) && FindSep(buf, s + SeparatorSize) == Some(e)
    requires AllFit(g, Scan(buf).segments)
    ensures Scan(buf) == Cut([buf[s..e]] + Scan(buf[e..]).segments, Scan(buf[e..]).rest)
    ensures Fits(g, buf[s..e]) && AllFit(g, Scan(buf[e..]).segments)
  {
    ScanStep(buf, s, e);
    ScanSegmentsAt(buf, s, e);
    var tail := Scan(buf[e..]);
    forall i | 0 <= i < |tail.segments|
      ensures Fits(g, tail.segments[i])
    {
      assert Scan(buf).segments[i + 1] == tail.segments[i];
    }
  }

  /** The unfolding of `Scan` when no complete frame is in the buffer. */
  lemma ScanIdle(buf: seq<byte>)
    requires FindSep(buf, 0).None? || FindSep(buf, FindSep(buf, 0).value + SeparatorSize).None?
    ensures Scan(buf) == Cut([], buf)
  {
  }

  /** A frame cut between the separators at `s` and `e` starts with a
      separator and holds no other one at or after offset 10. */
  lemma FrameClean(buf: seq<byte>, s: nat, e: nat)
    requires SepAt(buf, s) && FindSep(buf, s + SeparatorSize) == Some(e)
    ensures SepAt(buf[s..e], 0)
    ensures forall q :: SeparatorSize <= q ==> !SepAt(buf[s..e], q)
  {
    assert buf[s..e][0..SeparatorSize] == buf[s..s + SeparatorSize];
    forall q | SeparatorSize <= q
      ensures !SepAt(buf[s..e], q)
    {
      if SepAt(buf[s..e], q) {
        assert buf[s..e][q..q + SeparatorSize] == buf[s + q..s + q + SeparatorSize];
        FindSepComplete(buf, s + SeparatorSize, s + q);
      }
    }
  }

  /** Every frame `Scan` cuts starts with a separator and holds no other one
      past it. */
  lemma {:induction false} ScanFramesClean(buf: seq<byte>)
    ensures forall i :: 0 <= i < |Scan(buf).segments| ==> SepAt(Scan(buf).segments[i], 0)
    ensures forall i, q :: 0 <= i < |Scan(buf).segments| && SeparatorSize <= q ==> !SepAt(Scan(buf).segments[i], q)
    decreases |buf|
  {
    var first := FindSep(buf, 0);
    if first.Some? && FindSep(buf, first.value + SeparatorSize).Some? {
      var s := first.value;
      var e := FindSep(buf, s + SeparatorSize).value;
      ScanSegmentsAt(buf, s, e);
      FrameClean(buf, s, e);
      ScanFramesClean(buf[e..]);
    } else {
      ScanIdle(buf);
    }
  }

  /** The frames and the kept bytes laid end to end. */
  function Kept(buf: seq<byte>): seq<byte> {
    Flatten(Scan(buf).segments) + Scan(buf).rest
  }

  /** Nothing is lost or reordered: the frames and the kept bytes, laid end to
      end, are the buffer with only a prefix removed, and once a frame is cut
      that prefix holds no separator. */
  lemma {:induction false} ScanCovers(buf: seq<byte>)
    ensures |Kept(buf)| <= |buf| && buf[|buf| - |Kept(buf)|..] == Kept(buf)
    ensures |Scan(buf).segments| > 0 ==>
      forall q :: 0 <= q < |buf| - |Kept(buf)| ==> !SepAt(buf, q)
    decreases |buf|
  {
    var first := FindSep(buf, 0);
    if first.Some? && FindSep(buf, first.value + SeparatorSize).Some? {
      var s := first.value;
      var e := FindSep(buf, s + SeparatorSize).value;
      ScanCovers(buf[e..]);
      CoversStep(buf, s, e);
    } else {
      ScanIdle(buf);
    }
  }

  /** The inductive step of `ScanCovers`: given what it states about the
      bytes after the first frame, the buffer is kept from the first
      separator on. */
  lemma CoversStep(buf: seq<byte>, s: nat, e: nat)
    requires FindSep(buf, 0) == Some(s) && FindSep(buf, s + SeparatorSize) == Some(e)
    requires |Kept(buf[e..])| <= |buf[e..]| && buf[e..][|buf[e..]| - |Kept(buf[e..])|..] == Kept(buf[e..])
    requires |Scan(buf[e..]).segments| > 0 ==>
      forall q :: 0 <= q < |buf[e..]| - |Kept(buf[e..])| ==> !SepAt(buf[e..], q)
    ensures |Scan(buf).segments| > 0 && Kept(buf) == buf[s..]
    ensures forall q :: 0 <= q < s ==> !SepAt(buf, q)
  {
    KeptStep(buf, s, e);
    SepAtSuffix(buf, e);
    KeptWhole(buf[e..]);
    SplitAt(buf, s, e);
    FindSepNoneBefore(buf, 0, s);
  }

  /** Cutting a complete frame `buf[s..e]` keeps it in front of what the
      rest of the buffer keeps. */
  lemma KeptStep(buf: seq<byte>, s: nat, e: nat)
    requires FindSep(buf, 0) == Some(s) && FindSep(buf, s + SeparatorSize) == Some(e)
    ensures |Scan(buf).segments| > 0
    ensures Kept(buf) == buf[s..e] + Kept(buf[e..])
  {
    ScanStep(buf, s, e);
    var t := Scan(buf[e..]);
    FlattenCons(buf[s..e], t.segments, t.rest);
  }

  lemma SepAtSuffix(buf: seq<byte>, e: nat)
    requires SepAt(buf, e)
    ensures SepAt(buf[e..], 0)
  {
    assert buf[e..][0..SeparatorSize] == buf[e..e + SeparatorSize];
  }

  /** A buffer that starts with a separator is kept whole, given what
      `ScanCovers` states about it. */
  lemma KeptWhole(x: seq<byte>)
    requires |Kept(x)| <= |x| && x[|x| - |Kept(x)|..] == Kept(x)
    requires |Scan(x).segments| > 0 ==> forall q :: 0 <= q < |x| - |Kept(x)| ==> !SepAt(x, q)
    requires SepAt(x, 0)
    ensures Kept(x) == x
  {
    if |Scan(x).segments| == 0 {
      assert Kept(x) == [] + Scan(x).rest;
    }
  }

  /** Appending bytes never changes the frames already complete: the frames
      of `a + b` are those of `a` followed by those of what `a` left plus `b`. */
  lemma {:induction false} ScanAppend(a: seq<byte>, b: seq<byte>)
    ensures Scan(a + b).segments == Scan(a).segments + Scan(Scan(a).rest + b).segments
    ensures Scan(a + b).rest == Scan(Scan(a).rest + b).rest
    decreases |a|
  {
    var first := FindSep(a, 0);
    if first.Some? && FindSep(a, first.value + SeparatorSize).Some? {
      var s := first.value;
      var e := FindSep(a, s + SeparatorSize).value;
      ScanAppendStep(a, b, s, e);
      ScanAppend(a[e..], b);
      var t := Scan(a[e..]);
      ConsAssoc(a[s..e], t.segments, Scan(t.rest + b).segments);
    } else {
      ScanIdle(a);
    }
  }

  /** `a` and `a + b` start with the same complete frame. */
  lemma ScanAppendStep(a: seq<byte>, b: seq<byte>, s: nat, e: nat)
    requires FindSep(a, 0) == Some(s) && FindSep(a, s + SeparatorSize) == Some(e)
    ensures Scan(a) == Cut([a[s..e]] + Scan(a[e..]).segments, Scan(a[e..]).rest)
    ensures Scan(a + b) == Cut([a[s..e]] + Scan(a[e..] + b).segments, Scan(a[e..] + b).rest)
  {
    FindSepExtend(a, b, 0, s);
    FindSepExtend(a, b, s + SeparatorSize, e);
    ScanStep(a, s, e);
    ScanStep(a + b, s, e);
    SliceAppend(a, b, s, e);
  }

  /** What `readData` keeps holds no complete frame. */
  lemma {:induction false} ScanRestIdle(buf: seq<byte>)
    ensures Scan(Scan(buf).rest).segments == []
    decreases |buf|
  {
    var first := FindSep(buf, 0);
    if first.Some? && FindSep(buf, first.value + SeparatorSize).Some? {
      var s := first.value;
      var e := FindSep(buf, s + SeparatorSize).value;
      ScanStep(buf, s, e);
      ScanRestIdle(buf[e..]);
    } else {
      ScanIdle(buf);
      ScanIdle(Scan(buf).rest);
    }
  }

  // ---------------------------------------------------------------------
  // Copying a frame out (`QByteArray::mid` and `memcpy`)
  // ---------------------------------------------------------------------

  /** `(startIndex - sizeof(uint16_t)) + separatorsize_ + indexsize_` is
      evaluated in `size_t` and then passed on as a signed `qsizetype`. */
  function CopyStart(startIndex: nat): int {
    var unsigned := ((startIndex - 2) % SizeMax + SeparatorSize + IndexSize) % SizeMax;
    if unsigned < SizeMax / 2 then unsigned else unsigned - SizeMax
  }

  /** For every offset a buffer can have, the unsigned detour lands on
      `startIndex + 10`: two bytes before the index field, at its start. */
  lemma CopyStartValue(startIndex: nat)
    requires startIndex < SizeMax / 4
    ensures CopyStart(startIndex) == startIndex + SeparatorSize
  {
  }

  /** A segment is long enough for the unchecked `memcpy` when the frame cut
      from it (`(endIndex - startIndex) - 16` bytes) holds the data size. */
  predicate Fits(g: Geometry, seg: seq<byte>) {
    |seg| - (SeparatorSize + IndexSize + HeaderSize) >= g.DataSize()
  }

  predicate AllFit(g: Geometry, segs: seq<seq<byte>>) {
    forall i :: 0 <= i < |segs| ==> Fits(g, segs[i])
  }

  /** The words decoded from one segment `buffer[S..E]`: the data size in
      bytes, starting right after the separator. */
  function FrameWords(g: Geometry, seg: seq<byte>): (w: seq<u16>)
    requires Fits(g, seg)
    ensures |w| == g.DataLength()
  {
    DecodeLE(seg[SeparatorSize..SeparatorSize + g.DataSize()])
  }

  /** The words `memcpy` puts into `usdata_uint16_` for the frame between
      separators at `s` and `e`: the frame is `buffer.mid(CopyStart(s),
      (e - s) - 16)`, and the first `DataSize()` bytes of it are copied. */
  function CopyFrame(g: Geometry, buffer: seq<byte>, s: nat, e: nat): (w: seq<u16>)
    requires s + SeparatorSize <= e <= |buffer| && e < SizeMax / 4
    requires Fits(g, buffer[s..e])
    ensures w == FrameWords(g, buffer[s..e])
  {
    var frame := Mid(buffer, CopyStart(s), FrameLength(s, e));
    CopiedBytes(g, buffer, s, e);
    DecodeLE(frame[..g.DataSize()])
  }

  /** `(endIndex - startIndex) - 16`: the length of the frame `mid` cuts. */
  function FrameLength(s: nat, e: nat): int {
    (e - s) - (SeparatorSize + IndexSize + HeaderSize)
  }

  /** The bytes `memcpy` reads are the data bytes of the segment. */
  lemma CopiedBytes(g: Geometry, buffer: seq<byte>, s: nat, e: nat)
    requires s + SeparatorSize <= e <= |buffer| && e < SizeMax / 4
    requires Fits(g, buffer[s..e])
    ensures |Mid(buffer, CopyStart(s), FrameLength(s, e))| >= g.DataSize()
    ensures Mid(buffer, CopyStart(s), FrameLength(s, e))[..g.DataSize()]
      == buffer[s..e][SeparatorSize..SeparatorSize + g.DataSize()]
    ensures DecodeLE(Mid(buffer, CopyStart(s), FrameLength(s, e))[..g.DataSize()])
      == FrameWords(g, buffer[s..e])
  {
    var d := g.DataSize();
    var len := FrameLength(s, e);
    CopyStartValue(s);
    MidInside(buffer, s + SeparatorSize, len);
    SliceOfSlice(buffer, s + SeparatorSize, s + SeparatorSize + len, 0, d);
    SliceOfSlice(buffer, s, e, SeparatorSize, SeparatorSize + d);
  }

  // ---------------------------------------------------------------------
  // `readData`
  // ---------------------------------------------------------------------

  /** The decoder state: the byte buffer and the sample vector
      (`usdata_uint16_`) that keeps the last decoded frame. */
  datatype Connection = Connection(buffer: seq<byte>, samples: seq<u16>)

  /** A fresh connection after `initializeData`: empty buffer, zeroed samples. */
  function Initial(g: Geometry): (c: Connection)
    ensures c.buffer == [] && |c.samples| == g.DataLength()
    ensures forall i :: 0 <= i < |c.samples| ==> c.samples[i] == 0
  {
    Connection([], seq(g.DataLength(), _ => 0))
  }

  /** The new state and the value `dataReceived` is emitted with, if any. */
  datatype ReadOutcome = ReadOutcome(conn: Connection, emitted: Option<seq<u16>>)

  /** One `readData` call: `incoming` is what `readAll()` returned. The
      source copies with no length check, so every frame must be long
      enough; offsets are held in an `int`, so buffers stay below 2^31. */
  method ReadData(g: Geometry, c: Connection, incoming: seq<byte>) returns (r: ReadOutcome)
    requires |c.buffer + incoming| < 0x8000_0000
    requires AllFit(g, Scan(c.buffer + incoming).segments)
    ensures r.conn.buffer == Scan(c.buffer + incoming).rest
    ensures r.emitted.Some? <==> |Scan(c.buffer + incoming).segments| > 0
    ensures r.emitted.None? ==> r.conn == Connection(c.buffer + incoming, c.samples)
    ensures r.emitted.Some? ==>
      var segs := Scan(c.buffer + incoming).segments;
      Fits(g, segs[|segs| - 1]) &&
      r.emitted.value == r.conn.samples == FrameWords(g, segs[|segs| - 1])
  {
    var buffer := c.buffer + incoming;
    ghost var all := Scan(buffer);
    ghost var done: seq<seq<byte>> := [];
    var samples := c.samples;
    var isDataReceived := false;
    var endIndex: nat := 0;
    while true
      invariant endIndex == 0
      invariant |buffer| < 0x8000_0000
      invariant all.segments == done + Scan(buffer).segments
      invariant all.rest == Scan(buffer).rest
      invariant AllFit(g, Scan(buffer).segments)
      invariant isDataReceived <==> |done| > 0
      invariant !isDataReceived ==> buffer == c.buffer + incoming && samples == c.samples
      invariant isDataReceived ==> Fits(g, done[|done| - 1]) && samples == FrameWords(g, done[|done| - 1])
      decreases |buffer|
    {
      var startIndex := FindSep(buffer, endIndex);
      if startIndex.None? {
        break;
      }
      var s := startIndex.value;
      var end := FindSep(buffer, s + SeparatorSize);
      if end.None? {
        break;
      }
      var e := end.value;
      FitStep(g, buffer, s, e);
      samples := CopyFrame(g, buffer, s, e);
      CutOneFrame(all, done, buffer, s, e);
      isDataReceived := true;
      done := done + [buffer[s..e]];
      buffer := buffer[e..];
      endIndex := 0;
    }
    ScanIdle(buffer);
    if isDataReceived {
      r := ReadOutcome(Connection(buffer, samples), Some(samples));
    } else {
      r := ReadOutcome(Connection(buffer, samples), None);
    }
  }

  /** One pass of the `readData` loop moves the first frame of the buffer
      to the frames already cut. */
  lemma CutOneFrame(all: Cut, done: seq<seq<byte>>, buffer: seq<byte>, s: nat, e: nat)
    requires FindSep(buffer, 0) == Some(s) && FindSep(buffer, s + SeparatorSize) == Some(e)
    requires all.segments == done + Scan(buffer).segments
    requires all.rest == Scan(buffer).rest
    ensures all.segments == (done + [buffer[s..e]]) + Scan(buffer[e..]).segments
    ensures all.rest == Scan(buffer[e..]).rest
  {
    ScanStep(buffer, s, e);
    SnocAssoc(done, buffer[s..e], Scan(buffer[e..]).segments);
  }

  // ---------------------------------------------------------------------
  // Delivery in chunks
  // ---------------------------------------------------------------------

  function Concat(chunks: seq<seq<byte>>): seq<byte> {
    if |chunks| == 0 then [] else Concat(chunks[..|chunks| - 1]) + chunks[|chunks| - 1]
  }

  /** The frames cut and the buffer left when the chunks arrive one
      `readData` call at a time. */
  function Deliver(buffer: seq<byte>, chunks: seq<seq<byte>>): Cut {
    if |chunks| == 0 then Cut([], buffer)
    else
      var before := Deliver(buffer, chunks[..|chunks| - 1]);
      var now := Scan(before.rest + chunks[|chunks| - 1]);
      Cut(before.segments + now.segments, now.rest)
  }

  /** However the stream is chunked, the same frames are cut, in the same
      order, and the same bytes are kept. */
  lemma {:induction false} ChunkingIrrelevant(chunks: seq<seq<byte>>)
    ensures Deliver([], chunks).segments == Scan(Concat(chunks)).segments
    ensures Deliver([], chunks).rest == Scan(Concat(chunks)).rest
  {
    if |chunks| > 0 {
      var init := chunks[..|chunks| - 1];
      var last := chunks[|chunks| - 1];
      ChunkingIrrelevant(init);
      ScanAppend(Concat(init), last);
    } else {
      assert Scan([]) == Cut([], []);
    }
  }

  /** Without a second separator the buffer is kept exactly, including any
      bytes in front of the first separator. */
  lemma IncompleteKeepsBuffer(buf: seq<byte>, s: nat)
    requires FindSep(buf, 0) == Some(s)
    requires FindSep(buf, s + SeparatorSize).None?
    ensures Scan(buf) == Cut([], buf)
  {
  }

  // ---------------------------------------------------------------------
  // What a device frame decodes to
  // ---------------------------------------------------------------------

  /** The bytes from one separator to the next in a device stream: the
      separator, the index word, the samples and the next array header. */
  function DeviceSegment(index: u16, data: seq<u16>, nextHeader: seq<byte>): seq<byte>
    requires |nextHeader| == HeaderSize
  {
    Separator + EncodeLE([index]) + EncodeLE(data) + nextHeader
  }

  /** Because the copy starts at `S + 10`, a device frame decodes to its index
      word followed by all samples but the last. */
  lemma DeviceFrameDecodes(g: Geometry, index: u16, data: seq<u16>, nextHeader: seq<byte>)
    requires |nextHeader| == HeaderSize && |data| == g.DataLength() && |data| > 0
    ensures |DeviceSegment(index, data, nextHeader)| == InitializeData(g).frameSize
    ensures Fits(g, DeviceSegment(index, data, nextHeader))
    ensures FrameWords(g, DeviceSegment(index, data, nextHeader)) == [index] + data[..|data| - 1]
  {
    var seg := DeviceSegment(index, data, nextHeader);
    var front := data[..|data| - 1];
    var copied := [index] + front;
    assert data == front + [data[|data| - 1]];
    EncodeAppend(front, [data[|data| - 1]]);
    EncodeAppend([index], front);
    assert seg == Separator + EncodeLE(copied) + (EncodeLE([data[|data| - 1]]) + nextHeader);
    SliceMiddle(Separator, EncodeLE(copied), EncodeLE([data[|data| - 1]]) + nextHeader);
    DecodeEncode(copied);
  }

  lemma {:induction false} EncodeAppend(a: seq<u16>, b: seq<u16>)
    ensures EncodeLE(a + b) == EncodeLE(a) + EncodeLE(b)
  {
    if |a| > 0 {
      assert (a + b)[1..] == a[1..] + b;
      EncodeAppend(a[1..], b);
    } else {
      assert a + b == b;
    }
  }
}

=== FILE: bmode_visualizer.dfy ===
/** `Bmode3DVisualizer` as far as its control flow goes: the soft
    synchronisation of B-mode images with the probe pose, and the
    `firstData` switch that builds the 3D scene on the first visualisation
    and only updates it afterwards. The Qt3D entities themselves are not
    modelled; a visualisation is recorded by the branch it takes. */
module BmodeVisualizer {
  import opened Wrappers
  import opened Pose
  import opened SoftSync
  import opened TransformRegistry

  /** The rigid body whose pose places the B-mode image. */
  const ProbeId := "B_PROBE"

  /** Which branch of `visualizeImage` ran: the scene was built, or only its
      texture and transforms were updated. */
  datatype Branch = Create | Update

  /** The current image and pose with their ready flags, and `firstData`. */
  datatype Visualizer<I> = Visualizer(flags: Flags<I, Matrix4>, firstData: bool)

  /** The state after construction: both flags clear and `firstData` set.
      The image and pose held before the first arrival are parameters, since
      neither is read before it is overwritten. */
  function Init<I>(blank: I, t0: Matrix4): (v: Visualizer<I>)
    ensures v.firstData && !v.flags.aReady && !v.flags.bReady
  {
    Visualizer(Flags(blank, t0, false, false), true)
  }

  /** `visualizeImage`: the flags are cleared, then the scene is built if
      this is the first call and updated otherwise; `firstData` is false
      from then on. */
  function VisualizeImage<I>(v: Visualizer<I>): (r: (Visualizer<I>, Branch))
    ensures !r.0.flags.aReady && !r.0.flags.bReady && !r.0.firstData
    ensures r.0.flags.a == v.flags.a && r.0.flags.b == v.flags.b
    ensures r.1 == Create <==> v.firstData
  {
    var f := Fire(v.flags);
    if v.firstData then (Visualizer(f, false), Create)
    else (Visualizer(f, v.firstData), Update)
  }

  /** What one arrival does: the next state and the branch taken if it
      triggered a visualisation. */
  datatype Outcome<I> = Outcome(next: Visualizer<I>, drawn: Option<Branch>)

  /** The shared tail of both slots: the value has been stored and flagged;
      if the other flag was already set, visualise. */
  function Settle<I>(v: Visualizer<I>, g: Flags<I, Matrix4>, other: bool): Outcome<I> {
    if other then
      var r := VisualizeImage(v.(flags := g));
      Outcome(r.0, Some(r.1))
    else Outcome(v.(flags := g), None)
  }

  /** `onImageReceived`. */
  function OnImage<I>(v: Visualizer<I>, img: I): (r: Outcome<I>)
    ensures r.next.flags.a == img && r.next.flags.b == v.flags.b
    ensures r.drawn.Some? <==> v.flags.bReady
    ensures r.drawn.Some? ==> (r.drawn.value == Create <==> v.firstData) && !r.next.firstData
    ensures r.drawn.None? ==> r.next.firstData == v.firstData && r.next.flags.aReady && !r.next.flags.bReady
  {
    Settle(v, v.flags.(a := img, aReady := true), v.flags.bReady)
  }

  /** `onRigidBodyReceived`: the "B_PROBE" pose is looked up, which throws
      when the sample has no such body. */
  function OnRigidBody<I>(v: Visualizer<I>, reg: Registry): (res: Result<Outcome<I>, string>)
    ensures res.Failure? <==> ProbeId !in reg.entries
    ensures res.Failure? ==> res.error == MissingId
    ensures res.Success? ==> var r := res.value;
      r.next.flags.b == reg.entries[ProbeId] && r.next.flags.a == v.flags.a &&
      (r.drawn.Some? <==> v.flags.aReady) &&
      (r.drawn.Some? ==> (r.drawn.value == Create <==> v.firstData) && !r.next.firstData) &&
      (r.drawn.None? ==> r.next.firstData == v.firstData && r.next.flags.bReady && !r.next.flags.aReady)
  {
    var t :- Get(reg, ProbeId);
    Success(Settle(v, v.flags.(b := t, bReady := true), v.flags.aReady))
  }

  /** Each slot does what the generic flag machine does: same flags after,
      and a visualisation exactly when the flag machine forms a pair. */
  lemma OnImageIsFlagOffer<I>(v: Visualizer<I>, img: I)
    ensures OnImage(v, img).next.flags == FlagOfferA(v.flags, img).next
    ensures OnImage(v, img).drawn.Some? <==> FlagOfferA(v.flags, img).paired.Some?
  {
  }

  lemma OnRigidBodyIsFlagOffer<I>(v: Visualizer<I>, reg: Registry)
    requires ProbeId in reg.entries
    ensures OnRigidBody(v, reg).value.next.flags == FlagOfferB(v.flags, reg.entries[ProbeId]).next
    ensures OnRigidBody(v, reg).value.drawn.Some? <==> FlagOfferB(v.flags, reg.entries[ProbeId]).paired.Some?
  {
  }

  /** An image or a motion-capture sample. */
  function Arrive<I>(v: Visualizer<I>, e: Event<I, Registry>): Result<Outcome<I>, string> {
    match e
    case FromA(img) => Success(OnImage(v, img))
    case FromB(reg) => OnRigidBody(v, reg)
  }

  /** Arrivals in order: the final state and the branches taken, or the
      exception of the first sample without the probe. */
  function Feed<I>(v: Visualizer<I>, evs: seq<Event<I, Registry>>): Result<(Visualizer<I>, seq<Branch>), string>
    decreases |evs|
  {
    if |evs| == 0 then Success((v, []))
    else
      var o :- Arrive(v, evs[0]);
      var rest :- Feed(o.next, evs[1..]);
      Success((rest.0, (if o.drawn.Some? then [o.drawn.value] else []) + rest.1))
  }

  predicate AllHaveProbe<I>(evs: seq<Event<I, Registry>>) {
    forall i :: 0 <= i < |evs| && evs[i].FromB? ==> ProbeId in evs[i].y.entries
  }

  /** What reaches the flag machine: the image or the probe pose. */
  function Lift<I>(evs: seq<Event<I, Registry>>): (r: seq<Event<I, Matrix4>>)
    requires AllHaveProbe(evs)
    ensures |r| == |evs|
    decreases |evs|
  {
    if |evs| == 0 then []
    else
      assert AllHaveProbe(evs[1..]) by {
        assert forall i :: 0 <= i < |evs[1..]| ==> evs[1..][i] == evs[i + 1];
      }
      [Lifted(evs[0])] + Lift(evs[1..])
  }

  function Lifted<I>(e: Event<I, Registry>): Event<I, Matrix4>
    requires e.FromB? ==> ProbeId in e.y.entries
  {
    match e
    case FromA(img) => FromA(img)
    case FromB(reg) => FromB(reg.entries[ProbeId])
  }

  /** A run fails exactly when some sample lacks the probe. */
  lemma {:induction false} FeedFails<I>(v: Visualizer<I>, evs: seq<Event<I, Registry>>)
    ensures Feed(v, evs).Failure? <==> !AllHaveProbe(evs)
    decreases |evs|
  {
    if |evs| > 0 {
      FeedFails(if Arrive(v, evs[0]).Success? then Arrive(v, evs[0]).value.next else v, evs[1..]);
      assert forall i :: 0 < i < |evs| ==> evs[1..][i - 1] == evs[i];
      if !AllHaveProbe(evs) && Arrive(v, evs[0]).Success? {
        var i :| 0 <= i < |evs| && evs[i].FromB? && ProbeId !in evs[i].y.entries;
        assert i > 0;
        assert evs[1..][i - 1] == evs[i];
      }
    }
  }

  /** From any state: one visualisation per pair the flag machine forms;
      only the very first one, and only while `firstData` is set, builds
      the scene; `firstData` survives only a run that visualises nothing. */
  lemma {:induction false} FeedBranches<I>(v: Visualizer<I>, evs: seq<Event<I, Registry>>)
    requires AllHaveProbe(evs)
    ensures Feed(v, evs).Success?
    ensures |Feed(v, evs).value.1| == |FlagRun(v.flags, Lift(evs))|
    ensures forall i :: 0 <= i < |Feed(v, evs).value.1| ==>
      (Feed(v, evs).value.1[i] == Create <==> i == 0 && v.firstData)
    ensures Feed(v, evs).value.0.firstData <==> v.firstData && |Feed(v, evs).value.1| == 0
    decreases |evs|
  {
    if |evs| > 0 {
      var o := Arrive(v, evs[0]).value;
      var st := FlagOffer(v.flags, Lifted(evs[0]));
      assert o.next.flags == st.next && (o.drawn.Some? <==> st.paired.Some?) by {
        match evs[0]
        case FromA(img) => OnImageIsFlagOffer(v, img);
        case FromB(reg) => OnRigidBodyIsFlagOffer(v, reg);
      }
      assert AllHaveProbe(evs[1..]) by {
        assert forall i :: 0 <= i < |evs[1..]| ==> evs[1..][i] == evs[i + 1];
      }
      FeedBranches(o.next, evs[1..]);
      assert Lift(evs)[0] == Lifted(evs[0]) && Lift(evs)[1..] == Lift(evs[1..]);
      var rest := Feed(o.next, evs[1..]).value.1;
      var br := Feed(v, evs).value.1;
      if o.drawn.Some? {
        assert br == [o.drawn.value] + rest;
        assert forall i :: 0 < i < |br| ==> br[i] == rest[i - 1];
      } else {
        assert br == rest;
      }
    }
  }

  /** From a freshly built visualiser: one visualisation per greedy pair of
      adjacent image and pose arrivals, the first builds the scene and every
      later one updates it. */
  lemma FeedFromInit<I>(blank: I, t0: Matrix4, evs: seq<Event<I, Registry>>)
    requires AllHaveProbe(evs)
    ensures Feed(Init(blank, t0), evs).Success?
    ensures |Feed(Init(blank, t0), evs).value.1| == |Greedy(Lift(evs))|
    ensures forall i :: 0 <= i < |Feed(Init(blank, t0), evs).value.1| ==>
      (Feed(Init(blank, t0), evs).value.1[i] == Create <==> i == 0)
  {
    FeedBranches(Init(blank, t0), evs);
    FlagRunIsGreedy(blank, t0, Lift(evs));
  }
}

=== FILE: bytes.dfy ===
/** Bytes and 16-bit words as the A-mode stream and the image files carry
    them, with the little-endian conversions between the two. */
module Bytes {

  type byte = x: int | 0 <= x < 256

  /** `uint16_t`. */
  type u16 = x: int | 0 <= x < 0x1_0000

  /** `int16_t`. */
  type i16 = x: int | -0x8000 <= x < 0x8000

  /** `qToLittleEndian` of every word, appended in order
      (`convertSTDVectorToQByteArray`): low byte first. */
  function EncodeLE(words: seq<u16>): (r: seq<byte>)
    ensures |r| == 2 * |words|
    ensures forall i :: 0 <= i < |words| ==> r[2 * i] == words[i] % 256 && r[2 * i + 1] == words[i] / 256
  {
    if |words| == 0 then []
    else [words[0] % 256, words[0] / 256] + EncodeLE(words[1..])
  }

  /** Reading byte pairs as `uint16_t` on a little-endian host, as a `memcpy`
      into a `std::vector<uint16_t>` does. */
  function DecodeLE(bytes: seq<byte>): (r: seq<u16>)
    requires |bytes| % 2 == 0
    ensures |r| == |bytes| / 2
    ensures forall i :: 0 <= i < |r| ==> r[i] == Word(bytes[2 * i], bytes[2 * i + 1])
  {
    if |bytes| == 0 then []
    else [Word(bytes[0], bytes[1])] + DecodeLE(bytes[2..])
  }

  /** The word whose low byte is `lo` and high byte is `hi`. */
  function Word(lo: byte, hi: byte): u16 {
    lo as int + 256 * hi as int
  }

  lemma WordBytes(lo: byte, hi: byte)
    ensures Word(lo, hi) % 256 == lo && Word(lo, hi) / 256 == hi
  {
  }

  lemma {:induction false} DecodeEncode(words: seq<u16>)
    ensures DecodeLE(EncodeLE(words)) == words
  {
    if |words| > 0 {
      var e := EncodeLE(words);
      assert e[2..] == EncodeLE(words[1..]);
      DecodeEncode(words[1..]);
      assert words == [words[0]] + words[1..];
    }
  }

  lemma {:induction false} EncodeDecode(bytes: seq<byte>)
    requires |bytes| % 2 == 0
    ensures EncodeLE(DecodeLE(bytes)) == bytes
  {
    if |bytes| > 0 {
      var w := DecodeLE(bytes);
      assert w[1..] == DecodeLE(bytes[2..]);
      WordBytes(bytes[0], bytes[1]);
      EncodeDecode(bytes[2..]);
      assert bytes == [bytes[0], bytes[1]] + bytes[2..];
    }
  }

  /** Decoding distributes over concatenation of even-length pieces. */
  lemma {:induction false} DecodeAppend(a: seq<byte>, b: seq<byte>)
    requires |a| % 2 == 0 && |b| % 2 == 0
    ensures DecodeLE(a + b) == DecodeLE(a) + DecodeLE(b)
  {
    if |a| > 0 {
      assert (a + b)[2..] == a[2..] + b;
      DecodeAppend(a[2..], b);
    } else {
      assert a + b == b;
    }
  }

  /** `size_t` arithmetic is modulo 2^64; `std::string::npos` is its largest value. */
  const SizeMax: int := 0x1_0000_0000_0000_0000
  const Npos: int := SizeMax - 1

  /** `npos + k` wraps round to `k - 1`. */
  lemma NposPlus(k: int)
    requires 0 < k < SizeMax
    ensures (Npos + k) % SizeMax == k - 1
  {
  }

  /** The value conversion `uint16_t` to `int16_t` (two's complement wrap). */
  function ToInt16(u: u16): (r: i16)
    ensures (r - u) % 0x1_0000 == 0
  {
    if u < 0x8000 then u else u - 0x1_0000
  }

  /** One byte held in a `char` of a `std::string`. */
  function ToChar(b: byte): char {
    b as char
  }

  /** A `char` of a `std::string` converted to `unsigned char` (modulo 256). */
  function ToByte(c: char): byte {
    c as int % 256
  }

  function BytesToChars(bs: seq<byte>): (r: string)
    ensures |r| == |bs| && forall i :: 0 <= i < |bs| ==> r[i] == ToChar(bs[i])
  {
    seq(|bs|, i requires 0 <= i < |bs| => ToChar(bs[i]))
  }

  function CharsToBytes(cs: string): (r: seq<byte>)
    ensures |r| == |cs| && forall i :: 0 <= i < |cs| ==> r[i] == ToByte(cs[i])
  {
    seq(|cs|, i requires 0 <= i < |cs| => ToByte(cs[i]))
  }

  /** Bytes written through a `char` buffer and read back as `unsigned char` are unchanged. */
  lemma CharsBytesRoundTrip(bs: seq<byte>)
    ensures CharsToBytes(BytesToChars(bs)) == bs
  {
  }
}

=== FILE: cint.dfy ===
/** C++ `int` division and remainder. Dafny's `/` and `%` are Euclidean;
    C++ rounds the quotient toward zero and gives the remainder the sign of
    the dividend. Overflow (`INT_MIN / -1`) is not modelled. */
module CInt {

  function Abs(x: int): nat { if x < 0 then -x else x }

  /** `a / b`: the quotient of the magnitudes, negated when the signs differ. */
  function Quot(a: int, b: int): (q: int)
    requires b != 0
    ensures Abs(q) == Abs(a) / Abs(b)
    ensures (a < 0) == (b < 0) ==> q >= 0
    ensures (a < 0) != (b < 0) ==> q <= 0
  {
    DivMod(Abs(a), Abs(b));
    var m := Abs(a) / Abs(b);
    if (a < 0) == (b < 0) then m else -m
  }

  /** `a % b`: the remainder of the magnitudes, with the sign of `a`. */
  function Rem(a: int, b: int): (r: int)
    requires b != 0
    ensures Abs(r) < Abs(b)
    ensures r > 0 ==> a > 0
    ensures r < 0 ==> a < 0
  {
    DivMod(Abs(a), Abs(b));
    ZeroMod(Abs(b));
    var m := Abs(a) % Abs(b);
    if a < 0 then -m else m
  }

  /** Euclidean division of naturals, stated without multiplying two unknowns
      in the goal. */
  lemma DivMod(n: nat, d: nat)
    requires d > 0
    ensures n / d >= 0 && 0 <= n % d < d
    ensures n == (n / d) * d + n % d
  {
  }

  lemma ZeroMod(d: nat)
    requires d > 0
    ensures 0 % d == 0 && 0 / d == 0
  {
  }

  lemma MulAtLeast(x: int, d: nat)
    requires x >= 1
    ensures x * d >= d
  {
  }

  /** Multiplying by a natural keeps the order. */
  lemma MulMonotone(a: int, b: int, d: nat)
    requires a <= b
    ensures a * d <= b * d
  {
    assert b * d - a * d == (b - a) * d;
  }

  /** Quotient and remainder are the only such pair. */
  lemma DivUnique(n: int, d: nat, q: int, r: int)
    requires d > 0 && n >= 0 && n == q * d + r && 0 <= r < d
    ensures n / d == q && n % d == r
  {
    DivMod(n, d);
    var q' := n / d;
    var r' := n % d;
    assert (q - q') * d == r' - r;
    if q - q' >= 1 {
      MulAtLeast(q - q', d);
    } else if q' - q >= 1 {
      MulAtLeast(q' - q, d);
    }
  }

  /** The identity the C++ standard demands of the pair: `(a / b) * b + a % b == a`. */
  lemma QuotRem(a: int, b: int)
    requires b != 0
    ensures Quot(a, b) * b + Rem(a, b) == a
  {
    var n: int, d: int := Abs(a), Abs(b);
    var m: int := n / d;
    DivMod(n, d);
    var q := Quot(a, b);
    MulSigns(m, d);
    if a < 0 && b < 0 {
      assert q * b == m * (-d);
    } else if a < 0 {
      assert q * b == (-m) * d;
    } else if b < 0 {
      assert q * b == (-m) * (-d);
    } else {
      assert q * b == m * d;
    }
  }

  lemma MulSigns(x: int, y: int)
    ensures (-x) * y == -(x * y) && x * (-y) == -(x * y) && (-x) * (-y) == x * y
  {
  }

  /** On a non-negative dividend and a positive divisor C++ and Dafny agree. */
  lemma NonNegative(a: int, b: int)
    requires a >= 0 && b > 0
    ensures Quot(a, b) == a / b && Rem(a, b) == a % b
  {
  }

  /** The remainder is zero exactly when the magnitude of `b` divides `a`,
      whatever the signs. */
  lemma RemZero(a: int, b: int)
    requires b != 0
    ensures Rem(a, b) == 0 <==> Abs(a) % Abs(b) == 0
  {
  }
}

=== FILE: data_manipulator.dfy ===
/** `AmodeDataManipulator`: slicing one probe's row out of the flat A-mode
    frame, and the stride downsampling used for plotting. */
module DataManipulator {
  import opened Seqs
  import opened Bytes
  import opened CInt

  // ---------------------------------------------------------------------
  // `getRow`
  // ---------------------------------------------------------------------

  /** `getRow`: the `totalColumns` samples of row `rowNumber`, through
      `QVector::mid`, so a row reaching past the end is cut short and a row
      starting past the end is empty. */
  function GetRow(input: seq<i16>, rowNumber: int, totalColumns: int): (r: seq<i16>)
    ensures 0 <= rowNumber && 0 <= totalColumns ==>
      var start := rowNumber * totalColumns;
      r == input[Min(start, |input|)..Min(start + totalColumns, |input|)]
  {
    Mid(input, rowNumber * totalColumns, totalColumns)
  }

  /** The rows `0 .. rows - 1` of a frame. */
  function Rows(input: seq<i16>, rows: nat, cols: nat): (rs: seq<seq<i16>>)
    ensures |rs| == rows
  {
    seq(rows, r requires 0 <= r < rows => GetRow(input, r, cols))
  }

  /** A frame of `rows` rows of `cols` samples is exactly its rows laid end
      to end: slicing loses nothing and duplicates nothing. */
  lemma {:induction false} RowsFlatten(input: seq<i16>, rows: nat, cols: nat)
    requires |input| == rows * cols
    ensures Flatten(Rows(input, rows, cols)) == input
    decreases rows
  {
    if rows > 0 {
      MulSucc(rows - 1, cols);
      var rest := input[cols..];
      RowsFlatten(rest, rows - 1, cols);
      RowsCons(input, rows, cols);
      FlattenStep(input, cols, Rows(rest, rows - 1, cols), Rows(input, rows, cols));
    }
  }

  /** A first row before rows that flatten to the rest flattens to the whole. */
  lemma FlattenStep(input: seq<i16>, cols: nat, ts: seq<seq<i16>>, rs: seq<seq<i16>>)
    requires cols <= |input| && rs == [input[..cols]] + ts && Flatten(ts) == input[cols..]
    ensures Flatten(rs) == input
  {
    FlattenHead(input[..cols], ts);
    assert input == input[..cols] + input[cols..];
  }

  /** The rows of a frame are its first row, then the rows of the rest. */
  lemma RowsCons(input: seq<i16>, rows: nat, cols: nat)
    requires |input| == rows * cols && rows > 0
    ensures |input| >= cols
    ensures Rows(input, rows, cols) == [input[..cols]] + Rows(input[cols..], rows - 1, cols)
  {
    RowInside(rows, cols, 0);
    var rs := Rows(input, rows, cols);
    var ts := Rows(input[cols..], rows - 1, cols);
    forall r | 1 <= r < rows
      ensures rs[r] == ts[r - 1]
    {
      RowShift(input, rows, cols, r);
    }
  }

  /** Row `r` of a frame is row `r - 1` of the frame without its first row. */
  lemma RowShift(input: seq<i16>, rows: nat, cols: nat, r: nat)
    requires |input| == rows * cols && 1 <= r < rows
    ensures GetRow(input, r, cols) == GetRow(input[cols..], r - 1, cols)
  {
    var a := (r - 1) * cols;
    MulSucc(r - 1, cols);
    RowInside(rows, cols, r);
    assert GetRow(input, r, cols) == input[a + cols..a + cols + cols];
    assert GetRow(input[cols..], r - 1, cols) == input[cols..][a..a + cols];
    SliceOfSlice(input, cols, |input|, a, a + cols);
  }

  /** Row `r` of `rows` ends inside the frame. */
  lemma RowInside(rows: nat, cols: nat, r: nat)
    requires r < rows
    ensures r * cols + cols <= rows * cols
  {
    MulMonotone(r + 1, rows, cols);
  }

  // ---------------------------------------------------------------------
  // `downsampleVector`
  // ---------------------------------------------------------------------

  /** The step: input length over target size, in `int` division. */
  function Step(n: nat, targetSize: int): int
    requires targetSize != 0
  {
    Quot(n, targetSize)
  }

  /** The `std::transform` pass, whose lambda counts the samples in `n`:
      sample `n` is kept where `n % step == 0`, and replaced by the
      placeholder 0 elsewhere. */
  function Marked(s: seq<i16>, step: int, n: nat): (m: seq<i16>)
    requires step != 0 || |s| == 0
    ensures |m| == |s|
    ensures forall i :: 0 <= i < |s| ==> m[i] == if Rem(n + i, step) == 0 then s[i] else 0
    decreases |s|
  {
    if |s| == 0 then []
    else
      var rest := Marked(s[1..], step, n + 1);
      [if Rem(n, step) == 0 then s[0] else 0] + rest
  }

  /** `std::remove(…, 0)` followed by `erase`: the non-zero samples in order. */
  function RemoveZeros(s: seq<i16>): (r: seq<i16>)
    ensures 0 !in r && |r| <= |s|
    ensures forall x :: x in r ==> x in s
    decreases |s|
  {
    if |s| == 0 then []
    else (if s[0] == 0 then [] else [s[0]]) + RemoveZeros(s[1..])
  }

  /** The inputs on which `downsampleVector` is defined: `targetSize` 0
      divides by zero, and a step of 0 (a target above the input length)
      divides by zero in `n % step` as soon as there is a sample. */
  predicate Defined(input: seq<i16>, targetSize: int) {
    targetSize != 0 && (|input| == 0 || Step(|input|, targetSize) != 0)
  }

  /** `downsampleVector` as written. The placeholders are removed together
      with every sample that is itself 0. */
  function DownsampleAsWritten(input: seq<i16>, targetSize: int): (r: seq<i16>)
    requires Defined(input, targetSize)
    ensures 0 !in r
  {
    RemoveZeros(Marked(input, Step(|input|, targetSize), 0))
  }

  /** The samples whose count `n` is a multiple of the step, zero or not. */
  function Picks(s: seq<i16>, step: int, n: nat): (r: seq<i16>)
    requires step != 0 || |s| == 0
    ensures |r| <= |s|
    decreases |s|
  {
    if |s| == 0 then []
    else (if Rem(n, step) == 0 then [s[0]] else []) + Picks(s[1..], step, n + 1)
  }

  /** `downsampleVector` as evidently intended: the sampled elements, a
      genuine 0 among them included. */
  function Downsample(input: seq<i16>, targetSize: int): (r: seq<i16>)
    requires Defined(input, targetSize)
    ensures |input| == 0 ==> r == []
    ensures |input| > 0 ==> var m := Abs(Step(|input|, targetSize));
      |input| <= |r| * m < |input| + m
      && forall k :: 0 <= k < |r| ==> k * m < |input| && r[k] == input[k * m]
  {
    var step := Step(|input|, targetSize);
    if |input| == 0 then Picks(input, step, 0)
    else
      PicksStride(input, step);
      Picks(input, step, 0)
  }

  /** Counting from 0, the selection is every `|step|`-th sample: ⌈n / |step|⌉
      of them, at indices `0, |step|, 2|step|, …`. */
  lemma PicksStride(s: seq<i16>, step: int)
    requires step != 0
    ensures var m := Abs(step); var r := Picks(s, step, 0);
      |s| <= |r| * m < |s| + m
      && forall k :: 0 <= k < |r| ==> k * m < |s| && r[k] == s[k * m]
  {
    ZeroMod(Abs(step));
    PicksAreStrided(s, step, 0);
    StridedLength(s, Abs(step));
    StridedAt(s, Abs(step));
  }

  /** The placeholder pass followed by zero removal is the selection with
      its zeros removed: the two differ only in samples that are 0. */
  lemma {:induction false} AsWrittenDropsZeros(s: seq<i16>, step: int, n: nat)
    requires step != 0 || |s| == 0
    ensures RemoveZeros(Marked(s, step, n)) == RemoveZeros(Picks(s, step, n))
    decreases |s|
  {
    if |s| > 0 {
      AsWrittenDropsZeros(s[1..], step, n + 1);
      var m := Marked(s, step, n);
      assert m[1..] == Marked(s[1..], step, n + 1);
      var head := if Rem(n, step) == 0 then [s[0]] else [];
      RemoveZerosAppend(head, Picks(s[1..], step, n + 1));
      assert RemoveZeros(head) == (if m[0] == 0 then [] else [m[0]]) by {
        if head != [] {
          assert head[1..] == [];
        }
      }
    }
  }

  lemma {:induction false} RemoveZerosAppend(a: seq<i16>, b: seq<i16>)
    ensures RemoveZeros(a + b) == RemoveZeros(a) + RemoveZeros(b)
    decreases |a|
  {
    if |a| > 0 {
      var h := if a[0] == 0 then [] else [a[0]];
      assert (a + b)[0] == a[0] && (a + b)[1..] == a[1..] + b;
      RemoveZerosAppend(a[1..], b);
      assert h + (RemoveZeros(a[1..]) + RemoveZeros(b)) == (h + RemoveZeros(a[1..])) + RemoveZeros(b);
    } else {
      assert a + b == b;
    }
  }

  /** Hence the output as written is the intended output with its zeros
      removed. */
  lemma AsWrittenIsIntendedWithoutZeros(input: seq<i16>, targetSize: int)
    requires Defined(input, targetSize)
    ensures DownsampleAsWritten(input, targetSize) == RemoveZeros(Downsample(input, targetSize))
  {
    AsWrittenDropsZeros(input, Step(|input|, targetSize), 0);
  }

  // The selection is the stride: every m-th sample from the first

  /** Every `m`-th sample, starting with the first. */
  function Strided(s: seq<i16>, m: nat): (r: seq<i16>)
    requires m > 0
    decreases |s|
  {
    if |s| == 0 then [] else [s[0]] + Strided(s[Min(m, |s|)..], m)
  }

  /** There are ⌈|s| / m⌉ strided samples: the smallest count whose `m`
      multiples cover the input. */
  lemma {:induction false} StridedLength(s: seq<i16>, m: nat)
    requires m > 0
    ensures |s| <= |Strided(s, m)| * m < |s| + m
    decreases |s|
  {
    if |s| > m {
      var t := s[m..];
      StridedLength(t, m);
      StridedCons(s, m);
      MulSucc(|Strided(t, m)|, m);
    } else if |s| > 0 {
      StridedLast(s, m);
    }
  }

  /** The strided samples are the ones at indices `0, m, 2m, …`. */
  lemma {:induction false} StridedAt(s: seq<i16>, m: nat)
    requires m > 0
    ensures forall k :: 0 <= k < |Strided(s, m)| ==> k * m < |s| && Strided(s, m)[k] == s[k * m]
    decreases |s|
  {
    if |s| > m {
      var t := s[m..];
      StridedAt(t, m);
      StridedCons(s, m);
      var r := Strided(s, m);
      forall k | 0 < k < |r|
        ensures k * m < |s| && r[k] == s[k * m]
      {
        MulSucc(k - 1, m);
      }
    } else if |s| > 0 {
      StridedLast(s, m);
    }
  }

  /** Past the first stride, the rest is strided from index `m`. */
  lemma StridedCons(s: seq<i16>, m: nat)
    requires 0 < m < |s|
    ensures Strided(s, m) == [s[0]] + Strided(s[m..], m)
  {
  }

  /** Within one stride only the first sample is taken. */
  lemma StridedLast(s: seq<i16>, m: nat)
    requires 0 < |s| <= m
    ensures Strided(s, m) == [s[0]]
  {
    assert s[Min(m, |s|)..] == [];
  }

  lemma MulSucc(k: int, m: int)
    ensures (k + 1) * m == k * m + m
  {
  }

  /** Counting from a multiple of the step, the selection is the stride. */
  lemma {:induction false} PicksAreStrided(s: seq<i16>, step: int, n: nat)
    requires step != 0 && n % Abs(step) == 0
    ensures Picks(s, step, n) == Strided(s, Abs(step))
    decreases |s|
  {
    var m := Abs(step);
    RemZero(n, step);
    if |s| > 0 {
      var k := Min(m, |s|);
      SkipGap(s[1..], step, n, k - 1);
      assert s[1..][k - 1..] == s[k..];
      if k == m {
        NextMultiple(n, m);
        PicksAreStrided(s[k..], step, n + m);
      } else {
        assert s[k..] == [];
      }
    }
  }

  lemma NextMultiple(n: nat, m: nat)
    requires m > 0 && n % m == 0
    ensures (n + m) % m == 0
  {
    DivMod(n, m);
    DivUnique(n + m, m, n / m + 1, 0);
  }

  /** Between two multiples of the step nothing is selected. */
  lemma {:induction false} SkipGap(s: seq<i16>, step: int, n: nat, j: nat)
    requires step != 0 && n % Abs(step) == 0 && j < Abs(step) && j <= |s|
    ensures Picks(s, step, n + 1) == Picks(s[j..], step, n + 1 + j)
    decreases j
  {
    if j > 0 {
      var m := Abs(step);
      SkipGap(s, step, n, j - 1);
      var t := s[j - 1..];
      var q := n / m;
      DivMod(n, m);
      DivUnique(n + j, m, q, j);
      RemZero(n + j, step);
      assert t[1..] == s[j..];
    }
  }

  /** Five samples downsampled to a target of 2 give a step of 2 and three
      samples, one more than the target. */
  lemma MoreThanTarget()
    ensures Step(5, 2) == 2
    ensures |Downsample([1, 2, 3, 4, 5], 2)| == 3
  {
    PicksAreStrided([1, 2, 3, 4, 5], 2, 0);
    StridedLength([1, 2, 3, 4, 5], 2);
  }

  /** The intended output is every step-th sample; the output as written
      is those samples without the zeros, so never longer than ⌈n / step⌉. */
  lemma DownsampleIsStride(input: seq<i16>, targetSize: int)
    requires targetSize != 0 && Step(|input|, targetSize) != 0
    ensures var m := Abs(Step(|input|, targetSize));
      var d := Downsample(input, targetSize);
      |input| <= |d| * m < |input| + m
      && (forall k :: 0 <= k < |d| ==> k * m < |input| && d[k] == input[k * m])
      && |DownsampleAsWritten(input, targetSize)| <= |d|
  {
    var step := Step(|input|, targetSize);
    ZeroMod(Abs(step));
    PicksAreStrided(input, step, 0);
    StridedLength(input, Abs(step));
    StridedAt(input, Abs(step));
    AsWrittenIsIntendedWithoutZeros(input, targetSize);
  }

  /** `a` occurs in `b` in order, possibly with gaps. */
  predicate IsSubsequence(a: seq<i16>, b: seq<i16>)
    decreases |b|
  {
    |a| == 0 ||
    (|b| > 0 &&
      if a[0] == b[0] then IsSubsequence(a[1..], b[1..]) else IsSubsequence(a, b[1..]))
  }

  lemma {:induction false} SubsequenceDropFirst(a: seq<i16>, b: seq<i16>)
    requires IsSubsequence(a, b) && |a| > 0
    ensures IsSubsequence(a[1..], b)
    decreases |b|, |a|
  {
    if a[0] == b[0] {
      SubsequenceSkip(a[1..], b);
    } else {
      SubsequenceDropFirst(a, b[1..]);
      SubsequenceSkip(a[1..], b);
    }
  }

  /** A subsequence of the tail is a subsequence of the whole. */
  lemma {:induction false} SubsequenceSkip(a: seq<i16>, b: seq<i16>)
    requires |b| > 0 && IsSubsequence(a, b[1..])
    ensures IsSubsequence(a, b)
    decreases |b|, |a|
  {
    if |a| > 0 && a[0] == b[0] {
      SubsequenceDropFirst(a, b[1..]);
    }
  }

  /** The selected samples, with or without their zeros, occur in the input
      in their original order. */
  lemma {:induction false} PicksAreSubsequence(s: seq<i16>, step: int, n: nat)
    requires step != 0 || |s| == 0
    ensures IsSubsequence(RemoveZeros(Picks(s, step, n)), s)
    decreases |s|
  {
    if |s| > 0 {
      PicksAreSubsequence(s[1..], step, n + 1);
      var rest := RemoveZeros(Picks(s[1..], step, n + 1));
      var head := if Rem(n, step) == 0 then [s[0]] else [];
      RemoveZerosAppend(head, Picks(s[1..], step, n + 1));
      if Rem(n, step) == 0 && s[0] != 0 {
        assert RemoveZeros(head) == [s[0]] by {
          assert head[1..] == [];
        }
        assert ([s[0]] + rest)[1..] == rest;
      } else {
        assert RemoveZeros(head) == [] by {
          if head != [] {
            assert head[1..] == [];
          }
        }
        assert RemoveZeros(head) + rest == rest;
        SubsequenceSkip(rest, s);
      }
    }
  }

  /** The output as written is a subsequence of the input with no zeros in
      it. */
  lemma DownsampleAsWrittenSubsequence(input: seq<i16>, targetSize: int)
    requires Defined(input, targetSize)
    ensures IsSubsequence(DownsampleAsWritten(input, targetSize), input)
  {
    AsWrittenIsIntendedWithoutZeros(input, targetSize);
    PicksAreSubsequence(input, Step(|input|, targetSize), 0);
  }

  /** A zero sample at a sampled index is lost as written and kept as
      intended: `[0, 7]` at target 2 (step 1). */
  lemma ZeroSampleDropped()
    ensures DownsampleAsWritten([0, 7], 2) == [7]
    ensures Downsample([0, 7], 2) == [0, 7]
  {
    var s: seq<i16> := [0, 7];
    assert Step(2, 2) == 1;
    PicksAreStrided(s, 1, 0);
    AsWrittenIsIntendedWithoutZeros(s, 2);
    assert Strided(s, 1) == [0] + Strided([7], 1);
    assert Strided([7], 1) == [7] + Strided([], 1);
    var z: seq<i16> := [0];
    assert RemoveZeros(s) == RemoveZeros(z) + RemoveZeros([7]) by {
      assert s == z + [7];
      RemoveZerosAppend(z, [7]);
    }
  }
}

=== FILE: file_path.dfy ===
/** The parts of `std::filesystem::path` the configuration uses, for paths
    whose separator is '/': `parent_path`, `filename`, `stem`, and joining a
    directory with a name (`operator/`). */
module FilePath {
  import opened Wrappers

  /** The position of the last `c` in `s`. */
  function LastIndexOf(s: string, c: char): (r: Option<nat>)
    ensures r.None? ==> c !in s
    ensures r.Some? ==> r.value < |s| && s[r.value] == c && c !in s[r.value + 1..]
    decreases |s|
  {
    if |s| == 0 then None
    else if s[|s| - 1] == c then Some(|s| - 1)
    else
      var r := LastIndexOf(s[..|s| - 1], c);
      assert r.Some? ==> s[r.value + 1..] == s[..|s| - 1][r.value + 1..] + [s[|s| - 1]];
      r
  }

  /** Text without `c` appended after a prefix does not move the last `c`. */
  lemma {:induction false} LastIndexOfAppend(a: string, b: string, c: char)
    requires c !in b
    ensures LastIndexOf(a + b, c) == LastIndexOf(a, c)
    decreases |b|
  {
    if |b| > 0 {
      var ab := a + b;
      assert ab[..|ab| - 1] == a + b[..|b| - 1];
      LastIndexOfAppend(a, b[..|b| - 1], c);
    } else {
      assert a + b == a;
    }
  }

  /** The directory part: everything before the last separator, the root
      when that separator is the first character, empty when there is none. */
  function ParentPath(p: string): (r: string)
    ensures '/' !in p ==> r == ""
  {
    match LastIndexOf(p, '/')
    case None => ""
    case Some(i) => if i == 0 then "/" else p[..i]
  }

  /** The last component: everything after the last separator. */
  function FileName(p: string): (r: string)
    ensures '/' !in r
    ensures '/' !in p ==> r == p
  {
    match LastIndexOf(p, '/')
    case None => p
    case Some(i) => p[i + 1..]
  }

  /** The file name without its extension: the name up to its last '.',
      unless that '.' opens the name or the name is "." or "..". */
  function Stem(p: string): (r: string)
    ensures '/' !in r
    ensures |r| <= |FileName(p)| && r == FileName(p)[..|r|]
  {
    var f := FileName(p);
    if f == "." || f == ".." then f
    else match LastIndexOf(f, '.')
      case None => f
      case Some(i) => if i == 0 then f else f[..i]
  }

  /** `dir / name` for a name without separators. */
  function JoinPath(dir: string, name: string): string {
    if dir == "" then name
    else if dir[|dir| - 1] == '/' then dir + name
    else dir + "/" + name
  }

  /** A name joined to a directory lands in that directory. */
  lemma ParentOfJoin(dir: string, name: string)
    requires '/' !in name && |name| > 0
    requires dir == "" || dir == "/" || dir[|dir| - 1] != '/'
    ensures ParentPath(JoinPath(dir, name)) == dir
    ensures FileName(JoinPath(dir, name)) == name
  {
    if dir == "" {
    } else if dir == "/" {
      LastIndexOfAppend("/", name, '/');
      assert ("/" + name)[1..] == name;
    } else {
      var j := dir + "/" + name;
      assert j == (dir + "/") + name;
      LastIndexOfAppend(dir + "/", name, '/');
      assert j[..|dir|] == dir && j[|dir| + 1..] == name;
    }
  }

  /** Appending a name without separators straight onto a directory (with
      no separator in between) moves the result up one directory. */
  lemma ParentOfConcat(dir: string, name: string)
    requires '/' !in name
    ensures ParentPath(dir + name) == ParentPath(dir)
  {
    LastIndexOfAppend(dir, name, '/');
    match LastIndexOf(dir, '/')
    case None =>
    case Some(i) =>
      assert (dir + name)[..i] == dir[..i];
  }
}

=== FILE: metaimage.dfy ===
/** The text layout of a MetaImage sequence file (`.mha`) shared by the
    writer and the reader: the header keys, the `key = value` line, and
    the line after which the raw image bytes start. */
module MetaImage {
  import opened Wrappers

  /** The header fields, one per key. */
  datatype Key =
    | ObjectType | NDims | BinaryData | BinaryDataByteOrderMSB | CompressedData
    | TransformMatrix | DimSize | Offset | CenterOfRotation | AnatomicalOrientation
    | ElementSpacing | ElementType | UltrasoundImageOrientation | UltrasoundImageType
    | ElementDataFile

  /** The key as it is spelled in the file. */
  function KeyName(k: Key): (s: string)
    ensures |s| > 0 && s[0] != 'S'
  {
    match k
    case ObjectType => "ObjectType"
    case NDims => "NDims"
    case BinaryData => "BinaryData"
    case BinaryDataByteOrderMSB => "BinaryDataByteOrderMSB"
    case CompressedData => "CompressedData"
    case TransformMatrix => "TransformMatrix"
    case DimSize => "DimSize"
    case Offset => "Offset"
    case CenterOfRotation => "CenterOfRotation"
    case AnatomicalOrientation => "AnatomicalOrientation"
    case ElementSpacing => "ElementSpacing"
    case ElementType => "ElementType"
    case UltrasoundImageOrientation => "UltrasoundImageOrientation"
    case UltrasoundImageType => "UltrasoundImageType"
    case ElementDataFile => "ElementDataFile"
  }

  /** A key name holds no '=' and no line break, and does not end in a
      space, so a `key = value` line splits back at the right place. */
  lemma KeyNamePlain(k: Key)
    ensures '=' !in KeyName(k) && '\n' !in KeyName(k)
    ensures KeyName(k)[|KeyName(k)| - 1] != ' '
  {
    if k.ObjectType? || k.NDims? || k.BinaryData? || k.DimSize? || k.Offset? {
      ShortKeysPlain(k);
    } else if k.BinaryDataByteOrderMSB? || k.CompressedData? {
      ByteKeysPlain(k);
    } else if k.TransformMatrix? || k.CenterOfRotation? {
      GeometryKeysPlain(k);
    } else if k.AnatomicalOrientation? || k.ElementSpacing? {
      SpacingKeysPlain(k);
    } else if k.ElementType? || k.UltrasoundImageOrientation? {
      OrientationKeysPlain(k);
    } else {
      FileKeysPlain(k);
    }
  }

  // The names are checked a few at a time: each literal costs the solver
  // in proportion to its length.

  lemma ShortKeysPlain(k: Key)
    requires k.ObjectType? || k.NDims? || k.BinaryData? || k.DimSize? || k.Offset?
    ensures '=' !in KeyName(k) && '\n' !in KeyName(k)
  {
  }

  lemma ByteKeysPlain(k: Key)
    requires k.BinaryDataByteOrderMSB? || k.CompressedData?
    ensures '=' !in KeyName(k) && '\n' !in KeyName(k)
  {
  }

  lemma GeometryKeysPlain(k: Key)
    requires k.TransformMatrix? || k.CenterOfRotation?
    ensures '=' !in KeyName(k) && '\n' !in KeyName(k)
  {
  }

  lemma SpacingKeysPlain(k: Key)
    requires k.AnatomicalOrientation? || k.ElementSpacing?
    ensures '=' !in KeyName(k) && '\n' !in KeyName(k)
  {
  }

  lemma OrientationKeysPlain(k: Key)
    requires k.ElementType? || k.UltrasoundImageOrientation?
    ensures '=' !in KeyName(k) && '\n' !in KeyName(k)
  {
  }

  lemma FileKeysPlain(k: Key)
    requires k.UltrasoundImageType? || k.ElementDataFile?
    ensures '=' !in KeyName(k) && '\n' !in KeyName(k)
  {
  }

  /** Where the key's line stands among the header lines; `ElementDataFile`
      is after all fourteen. */
  function KeyIndex(k: Key): nat {
    match k
    case ObjectType => 0
    case NDims => 1
    case BinaryData => 2
    case BinaryDataByteOrderMSB => 3
    case CompressedData => 4
    case TransformMatrix => 5
    case DimSize => 6
    case Offset => 7
    case CenterOfRotation => 8
    case AnatomicalOrientation => 9
    case ElementSpacing => 10
    case ElementType => 11
    case UltrasoundImageOrientation => 12
    case UltrasoundImageType => 13
    case ElementDataFile => 14
  }

  /** The keys of the header block, in the order the writer prints them;
      `ElementDataFile` comes last, after the per-frame lines. */
  const HeaderKeys: seq<Key> := [
    ObjectType, NDims, BinaryData, BinaryDataByteOrderMSB, CompressedData,
    TransformMatrix, DimSize, Offset, CenterOfRotation, AnatomicalOrientation,
    ElementSpacing, ElementType, UltrasoundImageOrientation, UltrasoundImageType]

  /** Each key but `ElementDataFile` appears in the header block exactly
      once, at its index. */
  lemma HeaderKeysIndexed(k: Key)
    ensures KeyIndex(k) < |HeaderKeys| <==> k != ElementDataFile
    ensures k != ElementDataFile ==> HeaderKeys[KeyIndex(k)] == k
    ensures forall j :: 0 <= j < |HeaderKeys| ==> KeyIndex(HeaderKeys[j]) == j
  {
  }

  /** Every key, in the order of `readHeader`'s comparisons. */
  const AllKeys: seq<Key> := HeaderKeys + [ElementDataFile]

  lemma AllKeysIndexed()
    ensures |AllKeys| == 15
    ensures forall k :: AllKeys[KeyIndex(k)] == k
  {
    forall k
      ensures AllKeys[KeyIndex(k)] == k
    {
      HeaderKeysIndexed(k);
    }
  }

  /** No two keys share a name. */
  lemma KeyNameInjective(a: Key, b: Key)
    requires KeyName(a) == KeyName(b)
    ensures a == b
  {
    KeyTag(a);
    KeyTag(b);
  }

  /** The length and first letter of a name tell its key. */
  lemma KeyTag(k: Key)
    ensures KeyOfTag(|KeyName(k)|, KeyName(k)[0]) == Some(k)
  {
  }

  function KeyOfTag(n: nat, c: char): Option<Key> {
    if n == 10 && c == 'O' then Some(ObjectType)
    else if n == 5 && c == 'N' then Some(NDims)
    else if n == 10 && c == 'B' then Some(BinaryData)
    else if n == 22 && c == 'B' then Some(BinaryDataByteOrderMSB)
    else if n == 14 && c == 'C' then Some(CompressedData)
    else if n == 15 && c == 'T' then Some(TransformMatrix)
    else if n == 7 && c == 'D' then Some(DimSize)
    else if n == 6 && c == 'O' then Some(Offset)
    else if n == 16 && c == 'C' then Some(CenterOfRotation)
    else if n == 21 && c == 'A' then Some(AnatomicalOrientation)
    else if n == 14 && c == 'E' then Some(ElementSpacing)
    else if n == 11 && c == 'E' then Some(ElementType)
    else if n == 26 && c == 'U' then Some(UltrasoundImageOrientation)
    else if n == 19 && c == 'U' then Some(UltrasoundImageType)
    else if n == 15 && c == 'E' then Some(ElementDataFile)
    else None
  }

  /** One `key = value` line, without its line break. */
  function Line(key: string, value: string): string {
    key + " = " + value
  }

  /** The line that ends the text part, with its line break; the image
      bytes follow it directly. */
  const Marker := "ElementDataFile = LOCAL\n"

  /** The marker is the ElementDataFile line of a file with local data. */
  lemma MarkerIsLine()
    ensures Line(KeyName(ElementDataFile), "LOCAL") + "\n" == Marker
  {
  }
}

=== FILE: mha_reader.dfy ===
/** `MHAReader`: reads a PLUS sequence file back. The text part, up to and
    including the first `ElementDataFile = LOCAL` line, is parsed line by
    line into the header; every byte after that line is appended to the
    volume. Reading the file from disk is left out: the file's contents are
    a parameter, and so is the header the reader starts from (the C++
    struct is left default-initialised, so its fields are indeterminate). */
module MhaReader {
  import opened Wrappers
  import opened Seqs
  import opened Text
  import opened Bytes
  import opened MetaImage

  /** `MHAReader::MHAHeader`: the writer's header, with Offset and
      ElementSpacing read as doubles. */
  datatype Header = Header(
    objectType: string, nDims: int, binaryData: bool, byteOrderMSB: bool,
    compressed: bool, transformMatrix: seq<int>, dimSize: seq<int>,
    offset: seq<real>, centerOfRotation: seq<int>, anatomicalOrientation: string,
    elementSpacing: seq<real>, elementType: string, imageOrientation: string,
    imageType: string, elementDataFile: string)

  /** The reader's state: the header read so far and the volume bytes. */
  datatype Reader = Reader(header: Header, volume: seq<byte>)

  /** `what()` of the `std::invalid_argument` that `std::stoi` throws. */
  const StoiError := "stoi"
  /** `what()` of the `std::out_of_range` that `std::string::substr` throws. */
  const SubstrError := "basic_string::substr"
  /** The corrected reader's answer to a file without the marker. */
  const NoMarkerError := "no ElementDataFile = LOCAL line"

  // ---------------------------------------------------------------------
  // One header line
  // ---------------------------------------------------------------------

  /** The key (the text before the first '=', trailing whitespace dropped)
      and the value (the text after it, leading whitespace dropped). With
      no '=' in the line, `find` gives `npos` and `npos + 1` wraps to 0, so
      both come from the whole line. */
  function SplitLine(line: string): (kv: (string, string))
    ensures '=' in line ==> '=' !in kv.0
    ensures '=' !in line ==> kv.0 == TrimRight(line) && kv.1 == TrimLeft(line)
    ensures forall p :: 0 <= p < |line| && line[p] == '=' && '=' !in line[..p] ==>
      kv == (TrimRight(line[..p]), TrimLeft(line[p + 1..]))
    ensures |kv.0| == 0 || !IsSpace(kv.0[|kv.0| - 1])
    ensures |kv.1| == 0 || !IsSpace(kv.1[0])
  {
    IndexOfFirst(line, '=');
    match IndexOf(line, '=')
    case Some(p) =>
      var key := TrimRight(line[..p]);
      assert key == line[..p][..|key|];
      (key, TrimLeft(line[p + 1..]))
    case None =>
      NposPlus(1);
      (TrimRight(line), TrimLeft(line[(Npos + 1) % SizeMax..]))
  }

  /** A line written as `key = value` splits back into its key, and into
      its value when that does not start with whitespace. */
  lemma SplitKeyValue(key: string, value: string)
    requires '=' !in key && (|key| == 0 || !IsSpace(key[|key| - 1]))
    ensures SplitLine(Line(key, value)).0 == key
    ensures |value| == 0 || !IsSpace(value[0]) ==> SplitLine(Line(key, value)).1 == value
  {
    var line := Line(key, value);
    LinePieces(key, value);
    TrimRightSpace(key);
    if |value| == 0 || !IsSpace(value[0]) {
      TrimLeftSpace(value);
    }
  }

  /** Where the '=' of a `key = value` line stands, and what is around it. */
  lemma LinePieces(key: string, value: string)
    requires '=' !in key
    ensures var line := Line(key, value);
      IndexOf(line, '=') == Some(|key| + 1)
      && line[..|key| + 1] == key + " " && line[|key| + 2..] == " " + value
  {
    var line := Line(key, value);
    assert line == (key + " ") + ("= " + value);
    assert '=' !in key + " ";
    IndexOfAfter(key + " ", "= " + value, '=');
    assert line[..|key| + 1] == key + " ";
    assert line[|key| + 2..] == " " + value;
  }

  /** The comparisons of `readHeader`'s `if … else if` chain, in order:
      the first key in `ks` spelled `s`. */
  function FindKey(s: string, ks: seq<Key>): (r: Option<Key>)
    ensures r.Some? ==> KeyName(r.value) == s
    ensures r.None? ==> forall i :: 0 <= i < |ks| ==> KeyName(ks[i]) != s
    decreases |ks|
  {
    if |ks| == 0 then None
    else if KeyName(ks[0]) == s then Some(ks[0])
    else
      var r := FindKey(s, ks[1..]);
      assert forall i :: 1 <= i < |ks| ==> ks[i] == ks[1..][i - 1];
      r
  }

  /** The key spelled `s`, if the chain recognises one. */
  function KeyOf(s: string): (r: Option<Key>)
    ensures r.Some? ==> KeyName(r.value) == s
  {
    FindKey(s, AllKeys)
  }

  /** The chain recognises a text exactly when some key has that name. */
  lemma KeyOfNone(s: string)
    ensures KeyOf(s).None? <==> forall k :: KeyName(k) != s
  {
    AllKeysIndexed();
    if KeyOf(s).None? {
      forall k
        ensures KeyName(k) != s
      {
        assert AllKeys[KeyIndex(k)] == k;
      }
    }
  }

  /** Every key is recognised under its own name. */
  lemma KeyOfName(k: Key)
    ensures KeyOf(KeyName(k)) == Some(k)
  {
    KeyOfNone(KeyName(k));
    KeyNameInjective(KeyOf(KeyName(k)).value, k);
  }

  /** A header field's value. */
  datatype Value =
    | TextValue(text: string) | FlagValue(flag: bool) | IntValue(n: int)
    | IntsValue(ints: seq<int>) | RealsValue(reals: seq<real>)

  /** The field `k` of a header. */
  function Get(h: Header, k: Key): Value {
    match k
    case ObjectType => TextValue(h.objectType)
    case NDims => IntValue(h.nDims)
    case BinaryData => FlagValue(h.binaryData)
    case BinaryDataByteOrderMSB => FlagValue(h.byteOrderMSB)
    case CompressedData => FlagValue(h.compressed)
    case TransformMatrix => IntsValue(h.transformMatrix)
    case DimSize => IntsValue(h.dimSize)
    case Offset => RealsValue(h.offset)
    case CenterOfRotation => IntsValue(h.centerOfRotation)
    case AnatomicalOrientation => TextValue(h.anatomicalOrientation)
    case ElementSpacing => RealsValue(h.elementSpacing)
    case ElementType => TextValue(h.elementType)
    case UltrasoundImageOrientation => TextValue(h.imageOrientation)
    case UltrasoundImageType => TextValue(h.imageType)
    case ElementDataFile => TextValue(h.elementDataFile)
  }

  /** Two headers with the same fields are the same header. */
  lemma HeaderExt(a: Header, b: Header)
    requires forall k :: Get(a, k) == Get(b, k)
    ensures a == b
  {
    assert a.objectType == b.objectType by { assert Get(a, ObjectType) == Get(b, ObjectType); }
    assert a.nDims == b.nDims by { assert Get(a, NDims) == Get(b, NDims); }
    assert a.binaryData == b.binaryData by { assert Get(a, BinaryData) == Get(b, BinaryData); }
    assert a.byteOrderMSB == b.byteOrderMSB by { assert Get(a, BinaryDataByteOrderMSB) == Get(b, BinaryDataByteOrderMSB); }
    assert a.compressed == b.compressed by { assert Get(a, CompressedData) == Get(b, CompressedData); }
    assert a.transformMatrix == b.transformMatrix by { assert Get(a, TransformMatrix) == Get(b, TransformMatrix); }
    assert a.dimSize == b.dimSize by { assert Get(a, DimSize) == Get(b, DimSize); }
    assert a.offset == b.offset by { assert Get(a, Offset) == Get(b, Offset); }
    assert a.centerOfRotation == b.centerOfRotation by { assert Get(a, CenterOfRotation) == Get(b, CenterOfRotation); }
    assert a.anatomicalOrientation == b.anatomicalOrientation by { assert Get(a, AnatomicalOrientation) == Get(b, AnatomicalOrientation); }
    assert a.elementSpacing == b.elementSpacing by { assert Get(a, ElementSpacing) == Get(b, ElementSpacing); }
    assert a.elementType == b.elementType by { assert Get(a, ElementType) == Get(b, ElementType); }
    assert a.imageOrientation == b.imageOrientation by { assert Get(a, UltrasoundImageOrientation) == Get(b, UltrasoundImageOrientation); }
    assert a.imageType == b.imageType by { assert Get(a, UltrasoundImageType) == Get(b, UltrasoundImageType); }
    assert a.elementDataFile == b.elementDataFile by { assert Get(a, ElementDataFile) == Get(b, ElementDataFile); }
  }

  /** What the reader makes of `value` for key `k`, by the kind of field:
      text is kept, a flag is true exactly for `True`, `NDims` goes through
      `std::stoi` (`None` where it throws), and vectors through
      `std::istream_iterator`. */
  function Parse(k: Key, value: string): Option<Value> {
    match k
    case NDims =>
      (match Stoi(value)
       case None => None
       case Some(n) => Some(IntValue(n)))
    case BinaryData | BinaryDataByteOrderMSB | CompressedData => Some(FlagValue(value == "True"))
    case TransformMatrix | DimSize | CenterOfRotation => Some(IntsValue(ReadInts(value)))
    case Offset | ElementSpacing => Some(RealsValue(ReadDecimals(value)))
    case _ => Some(TextValue(value))
  }

  /** The kind of value each field holds. */
  predicate Fits(k: Key, v: Value) {
    match k
    case NDims => v.IntValue?
    case BinaryData | BinaryDataByteOrderMSB | CompressedData => v.FlagValue?
    case TransformMatrix | DimSize | CenterOfRotation => v.IntsValue?
    case Offset | ElementSpacing => v.RealsValue?
    case _ => v.TextValue?
  }

  /** The header with field `k` replaced by `v`. */
  function Set(h: Header, k: Key, v: Value): Header
    requires Fits(k, v)
  {
    match k
    case ObjectType => h.(objectType := v.text)
    case NDims => h.(nDims := v.n)
    case BinaryData => h.(binaryData := v.flag)
    case BinaryDataByteOrderMSB => h.(byteOrderMSB := v.flag)
    case CompressedData => h.(compressed := v.flag)
    case TransformMatrix => h.(transformMatrix := v.ints)
    case DimSize => h.(dimSize := v.ints)
    case Offset => h.(offset := v.reals)
    case CenterOfRotation => h.(centerOfRotation := v.ints)
    case AnatomicalOrientation => h.(anatomicalOrientation := v.text)
    case ElementSpacing => h.(elementSpacing := v.reals)
    case ElementType => h.(elementType := v.text)
    case UltrasoundImageOrientation => h.(imageOrientation := v.text)
    case UltrasoundImageType => h.(imageType := v.text)
    case ElementDataFile => h.(elementDataFile := v.text)
  }

  /** Setting a field changes that field and no other. */
  lemma GetSet(h: Header, k: Key, v: Value, k': Key)
    requires Fits(k, v)
    ensures Get(Set(h, k, v), k') == if k' == k then v else Get(h, k')
  {
  }

  /** Every value the reader parses fits its field. */
  lemma ParseFits(k: Key, value: string)
    ensures Parse(k, value).Some? ==> Fits(k, Parse(k, value).value)
  {
  }

  /** One branch of `readHeader`'s chain: the field the key names is set
      from the parsed value. Only `std::stoi` can throw, and nothing
      catches it. */
  function ApplyField(h: Header, k: Key, value: string): (r: Result<Header, string>)
    ensures r.Failure? <==> k == NDims && Stoi(value).None?
    ensures r.Failure? ==> r.error == StoiError
  {
    ParseFits(k, value);
    match Parse(k, value)
    case None => Failure(StoiError)
    case Some(v) => Success(Set(h, k, v))
  }

  /** A successful branch sets the field its key names to the parsed value
      and leaves every other field as it was. */
  lemma ApplyFieldGet(h: Header, k: Key, value: string, k': Key)
    requires ApplyField(h, k, value).Success?
    ensures Parse(k, value).Some?
    ensures Get(ApplyField(h, k, value).value, k') ==
      if k' == k then Parse(k, value).value else Get(h, k')
  {
    ParseFits(k, value);
    GetSet(h, k, Parse(k, value).value, k');
  }

  /** The key a line names, if the reader recognises it. */
  function LineKey(line: string): Option<Key> {
    KeyOf(SplitLine(line).0)
  }

  function LineValue(line: string): string {
    SplitLine(line).1
  }

  /** One `std::getline` line; a key matching no branch changes nothing. */
  function ApplyLine(h: Header, line: string): (r: Result<Header, string>)
    ensures LineKey(line).None? ==> r == Success(h)
  {
    match LineKey(line)
    case None => Success(h)
    case Some(k) => ApplyField(h, k, LineValue(line))
  }

  /** A line `readHeader` rejects: an `NDims` value `std::stoi` cannot read. */
  predicate BadLine(line: string) {
    LineKey(line) == Some(NDims) && Stoi(LineValue(line)).None?
  }

  // ---------------------------------------------------------------------
  // `readHeader`
  // ---------------------------------------------------------------------

  /** Steps applied in order; the first failure ends the run. The header
      reading below is this with `ApplyLine` as the step; the lemmas about
      the order of the steps are stated here, for any step. */
  function Steps<L>(h: Header, ls: seq<L>, step: (Header, L) -> Result<Header, string>): Result<Header, string>
    decreases |ls|
  {
    if |ls| == 0 then Success(h)
    else
      var h1 :- step(h, ls[0]);
      Steps(h1, ls[1..], step)
  }

  /** Running steps one batch after another is running them all. */
  lemma {:induction false} StepsAppend<L>(h: Header, a: seq<L>, b: seq<L>, step: (Header, L) -> Result<Header, string>)
    ensures Steps(h, a + b, step) ==
      match Steps(h, a, step)
      case Failure(e) => Failure(e)
      case Success(h1) => Steps(h1, b, step)
    decreases |a|
  {
    if |a| == 0 {
      assert a + b == b;
    } else {
      assert (a + b)[0] == a[0] && (a + b)[1..] == a[1..] + b;
      if step(h, a[0]).Success? {
        StepsAppend(step(h, a[0]).value, a[1..], b, step);
      }
    }
  }

  /** A run that succeeds is the run without its last step, then that step. */
  lemma StepsLast<L>(h: Header, ls: seq<L>, step: (Header, L) -> Result<Header, string>)
    requires |ls| > 0 && Steps(h, ls, step).Success?
    ensures Steps(h, ls[..|ls| - 1], step).Success?
    ensures Steps(h, ls, step) == step(Steps(h, ls[..|ls| - 1], step).value, ls[|ls| - 1])
  {
    var init, last := ls[..|ls| - 1], ls[|ls| - 1];
    assert ls == init + [last];
    StepsAppend(h, init, [last], step);
    var h1 := Steps(h, init, step).value;
    assert [last][1..] == [];
    assert Steps(h1, [last], step) == step(h1, last);
  }

  /** A run of one step is that step. */
  lemma StepsOne<L>(h: Header, x: L, step: (Header, L) -> Result<Header, string>)
    ensures Steps(h, [x], step) == step(h, x)
  {
    assert [x][1..] == [];
  }

  /** The lines applied in order; the first exception ends the reading. */
  function ApplyLines(h: Header, ls: seq<string>): Result<Header, string> {
    Steps(h, ls, ApplyLine)
  }

  /** `readHeader`: every `std::getline` line of the text. The C++ returns
      `true` whenever it returns at all. */
  function ReadHeader(h: Header, text: string): (r: Result<Header, string>)
    ensures r.Failure? <==> Any(Lines(text), BadLine)
  {
    ApplyLinesFails(h, Lines(text));
    ApplyLines(h, Lines(text))
  }

  /** One line fails exactly when it is a bad `NDims` line. */
  lemma ApplyLineFails(h: Header, line: string)
    ensures ApplyLine(h, line).Failure? <==> BadLine(line)
  {
  }

  /** Reading fails exactly when some line is a bad `NDims` line. */
  lemma {:induction false} ApplyLinesFails(h: Header, ls: seq<string>)
    ensures ApplyLines(h, ls).Failure? <==> Any(ls, BadLine)
    decreases |ls|
  {
    if |ls| > 0 {
      ApplyLineFails(h, ls[0]);
      AnyCons(ls, BadLine);
      var first := ApplyLine(h, ls[0]);
      if first.Success? {
        ApplyLinesFails(first.value, ls[1..]);
      }
    }
  }

  /** Lines with keys the reader does not know leave the header alone. */
  lemma {:induction false} UnknownLinesIgnored(h: Header, ls: seq<string>)
    requires forall i :: 0 <= i < |ls| ==> LineKey(ls[i]).None?
    ensures ApplyLines(h, ls) == Success(h)
    decreases |ls|
  {
    if |ls| > 0 {
      UnknownLinesIgnored(h, ls[1..]);
    }
  }

  /** The value of the last line that names key `k`, if any. */
  function LastValue(ls: seq<string>, k: Key): Option<string>
    decreases |ls|
  {
    if |ls| == 0 then None
    else if LineKey(ls[|ls| - 1]) == Some(k) then Some(LineValue(ls[|ls| - 1]))
    else LastValue(ls[..|ls| - 1], k)
  }

  /** One line sets the field its key names and no other. */
  lemma ApplyLineGet(h: Header, line: string, k: Key)
    requires ApplyLine(h, line).Success?
    ensures LineKey(line) == Some(k) ==> Parse(k, LineValue(line)).Some?
    ensures Get(ApplyLine(h, line).value, k) ==
      if LineKey(line) == Some(k) then Parse(k, LineValue(line)).value else Get(h, k)
  {
    if LineKey(line).Some? {
      ApplyFieldGet(h, LineKey(line).value, LineValue(line), k);
    }
  }

  /** What `readHeader` leaves in each field: the value of the last line
      naming its key, or, when no line names it, what was there before. */
  lemma {:induction false} ReadHeaderLastWins(h: Header, ls: seq<string>, k: Key)
    requires ApplyLines(h, ls).Success?
    ensures LastValue(ls, k).Some? ==> Parse(k, LastValue(ls, k).value).Some?
    ensures LastValue(ls, k).Some? ==>
      Get(ApplyLines(h, ls).value, k) == Parse(k, LastValue(ls, k).value).value
    ensures LastValue(ls, k).None? ==> Get(ApplyLines(h, ls).value, k) == Get(h, k)
    decreases |ls|
  {
    if |ls| > 0 {
      var init, last := ls[..|ls| - 1], ls[|ls| - 1];
      StepsLast(h, ls, ApplyLine);
      ReadHeaderLastWins(h, init, k);
      ApplyLineGet(ApplyLines(h, init).value, last, k);
    }
  }

  // ---------------------------------------------------------------------
  // `readVolumeImage`
  // ---------------------------------------------------------------------

  /** Header text and volume bytes once the split point is known. */
  function ReadFrom(r: Reader, file: string, start: nat): (res: Result<Reader, string>)
    requires start <= |file|
    ensures res.Success? ==> (res.value.volume ==
      r.volume + (if res.value.header.compressed then [] else CharsToBytes(file[start..])))
  {
    var h :- ReadHeader(r.header, file[..start]);
    Success(Reader(h, if h.compressed then r.volume else r.volume + CharsToBytes(file[start..])))
  }

  /** Where the header text ends in the evidently intended reader: just past
      the marker, if the file has one. */
  function MarkerEnd(file: string): (e: Option<nat>)
    ensures e.Some? <==> Find(file, Marker).Some?
    ensures e.Some? ==> |Marker| <= e.value <= |file| && file[e.value - |Marker|..e.value] == Marker
  {
    match Find(file, Marker)
    case None => None
    case Some(p) => Some(p + |Marker|)
  }

  /** Where `readVolumeImage` as written splits the file: the split point is
      `find(separator) + separator.size()` in `size_t` arithmetic, so a file
      without the marker is split 23 characters in (`npos + 24` wraps), and
      `substr` throws (None) only when the file is shorter than that. */
  function SplitAsWritten(file: string): (e: Option<nat>)
    ensures Find(file, Marker).Some? ==> e == MarkerEnd(file)
    ensures Find(file, Marker).None? ==> (e.None? <==> |file| < |Marker| - 1)
    ensures Find(file, Marker).None? && e.Some? ==> e.value == |Marker| - 1
    ensures e.Some? ==> e.value <= |file|
  {
    match Find(file, Marker)
    case Some(p) => Some(p + |Marker|)
    case None =>
      NposPlus(|Marker|);
      var start := (Npos + |Marker|) % SizeMax;
      if start > |file| then None else Some(start)
  }

  /** The reader once the split point is known; no split point is the
      error `missing`. */
  function ReadSplit(r: Reader, file: string, split: Option<nat>, missing: string): Result<Reader, string>
    requires split.Some? ==> split.value <= |file|
  {
    match split
    case None => Failure(missing)
    case Some(s) => ReadFrom(r, file, s)
  }

  /** `readVolumeImage` as written. */
  function ReadVolumeImageAsWritten(r: Reader, file: string): (res: Result<Reader, string>)
    ensures SplitAsWritten(file).None? ==> res == Failure(SubstrError)
    ensures SplitAsWritten(file).Some? ==>
      (res.Success? <==> ReadHeader(r.header, file[..SplitAsWritten(file).value]).Success?)
    ensures res.Success? ==> res.value.header == ReadHeader(r.header, file[..SplitAsWritten(file).value]).value
    ensures res.Success? ==> (res.value.volume == r.volume +
      (if res.value.header.compressed then [] else CharsToBytes(file[SplitAsWritten(file).value..])))
    ensures Find(file, Marker).None? && |file| < |Marker| - 1 ==> res == Failure(SubstrError)
    ensures Find(file, Marker).None? && |file| >= |Marker| - 1 ==> res == ReadFrom(r, file, |Marker| - 1)
  {
    ReadSplit(r, file, SplitAsWritten(file), SubstrError)
  }

  /** `readVolumeImage` as evidently intended: a file without the marker
      is rejected. */
  function ReadVolumeImage(r: Reader, file: string): (res: Result<Reader, string>)
    ensures Find(file, Marker).None? ==> res == Failure(NoMarkerError)
    ensures MarkerEnd(file).Some? ==>
      (res.Success? <==> ReadHeader(r.header, file[..MarkerEnd(file).value]).Success?)
    ensures res.Success? ==> res.value.header == ReadHeader(r.header, file[..MarkerEnd(file).value]).value
    ensures res.Success? ==> (res.value.volume == r.volume +
      (if res.value.header.compressed then [] else CharsToBytes(file[Find(file, Marker).value + |Marker|..])))
  {
    ReadSplit(r, file, MarkerEnd(file), NoMarkerError)
  }

  /** On a file with the marker the two readers agree. */
  lemma AsWrittenWithMarker(r: Reader, file: string)
    requires Find(file, Marker).Some?
    ensures ReadVolumeImageAsWritten(r, file) == ReadVolumeImage(r, file)
  {
    assert SplitAsWritten(file) == MarkerEnd(file);
  }

  /** A file whose header lacks the ElementDataFile line. */
  const UnmarkedFile := "ObjectType = US_Volume\nxyz"

  lemma UnmarkedFileHasNoMarker()
    ensures Find(UnmarkedFile, Marker).None?
  {
    assert 'E' !in UnmarkedFile;
    FirstCharAbsent(UnmarkedFile, Marker);
  }

  /** The header text of the unmarked file is one `ObjectType` line. */
  const UnmarkedLine := "ObjectType = US_Volume"

  lemma UnmarkedFileHeader(h: Header)
    ensures ReadHeader(h, UnmarkedFile[..23]) == Success(h.(objectType := "US_Volume"))
  {
    UnmarkedLines();
    assert UnmarkedLine == Line(KeyName(ObjectType), "US_Volume");
    ReadKeyLineOnly(h, UnmarkedFile[..23], ObjectType, "US_Volume");
  }

  lemma UnmarkedLines()
    ensures Lines(UnmarkedFile[..23]) == [UnmarkedLine]
  {
    assert UnmarkedFile[..23] == UnmarkedLine + "\n";
    assert '\n' !in UnmarkedLine;
    SplitJoinTerminated([UnmarkedLine], '\n');
    assert JoinTerminated([UnmarkedLine], '\n') == UnmarkedLine + "\n";
  }

  /** A written `key = value` line is recognised as that key and value. */
  lemma ReadKeyLine(k: Key, v: string)
    requires |v| == 0 || !IsSpace(v[0])
    ensures LineKey(Line(KeyName(k), v)) == Some(k)
    ensures LineValue(Line(KeyName(k), v)) == v
  {
    KeyNamePlain(k);
    SplitKeyValue(KeyName(k), v);
    KeyOfName(k);
  }

  /** A header text of one `key = value` line sets that field. */
  lemma ReadKeyLineOnly(h: Header, text: string, k: Key, v: string)
    requires |v| == 0 || !IsSpace(v[0])
    requires Lines(text) == [Line(KeyName(k), v)]
    ensures ReadHeader(h, text) == ApplyField(h, k, v)
  {
    StepsOne(h, Line(KeyName(k), v), ApplyLine);
    ReadKeyLine(k, v);
  }



  /** The as-written reader accepts a file with no marker: its first 23
      characters are taken as the header and the rest as image bytes,
      while the intended reader rejects it. */
  lemma UnmarkedFileAccepted(h: Header)
    requires !h.compressed
    ensures Find(UnmarkedFile, Marker).None?
    ensures ReadVolumeImageAsWritten(Reader(h, []), UnmarkedFile)
      == Success(Reader(h.(objectType := "US_Volume"), CharsToBytes("xyz")))
    ensures ReadVolumeImage(Reader(h, []), UnmarkedFile) == Failure(NoMarkerError)
  {
    UnmarkedFileHasNoMarker();
    UnmarkedFileHeader(h);
    var h1 := h.(objectType := "US_Volume");
    var bytes := CharsToBytes(UnmarkedFile[23..]);
    assert bytes == CharsToBytes("xyz") by {
      assert UnmarkedFile[23..] == "xyz";
    }
    assert [] + bytes == bytes;
    assert ReadFrom(Reader(h, []), UnmarkedFile, 23) == Success(Reader(h1, [] + bytes));
  }
}

=== FILE: mha_roundtrip.dfy ===
/** Reading back what the sequence writer wrote: the reader finds the
    marker exactly at the writer's ElementDataFile line, every header field
    comes back with the value the writer printed (Offset and ElementSpacing
    as doubles), the per-frame lines are passed over, and the image bytes
    are appended to the volume unchanged. */
module MhaRoundTrip {
  import opened Wrappers
  import opened Text
  import opened Bytes
  import opened Pose
  import opened MetaImage
  import opened MhaWriter
  import opened MhaReader

  /** The marker without its line break. */
  const MarkerLine := "ElementDataFile = LOCAL"

  /** A line that cannot hold the start of the marker: it has no line
      break and does not end with the marker's text. */
  predicate CleanLine(l: string) {
    '\n' !in l && !EndsWith(l, MarkerLine)
  }

  /** A value the reader keeps as it is: no '=', no line break, and no
      leading whitespace for `TrimLeft` to drop. */
  predicate Plain(s: string) {
    '=' !in s && '\n' !in s && (|s| == 0 || !IsSpace(s[0]))
  }

  /** The double formatter prints neither a line break nor an '='. */
  ghost predicate FmtSafe(fmt: Double -> string) {
    forall d :: '\n' !in fmt(d) && '=' !in fmt(d)
  }

  // ---------------------------------------------------------------------
  // The marker is found at the ElementDataFile line
  // ---------------------------------------------------------------------

  /** A `key = value` line is clean unless its key ends with
      `ElementDataFile`: the marker's '=' would have to be the line's only
      one, with the key's last fifteen characters before it. */
  lemma LineClean(key: string, v: string)
    requires '=' !in key && '\n' !in key && '=' !in v && '\n' !in v
    requires !EndsWith(key, "ElementDataFile")
    ensures CleanLine(Line(key, v))
  {
    var l := Line(key, v);
    assert l == key + " = " + v;
    LineNoBreak(key, v);
    forall i | 0 <= i < |l|
      ensures l[i] == '=' ==> i == |key| + 1
    {
      if i < |key| {
        assert l[i] == key[i];
      } else if i >= |key| + 3 {
        assert l[i] == v[i - |key| - 3];
      }
    }
    var n := |l|;
    if n >= |MarkerLine| {
      var tail := l[n - |MarkerLine|..];
      if n - 7 != |key| + 1 {
        assert tail[16] == l[n - 7] != '=';
      } else {
        var kk := key[|key| - 15..];
        var i :| 0 <= i < 15 && kk[i] != "ElementDataFile"[i];
        assert tail[i] == kk[i];
        assert MarkerLine[i] == "ElementDataFile"[i];
      }
      assert tail != MarkerLine;
    }
  }

  lemma LineNoBreak(key: string, v: string)
    requires '\n' !in key && '\n' !in v
    ensures '\n' !in Line(key, v)
  {
    var l := Line(key, v);
    assert l == key + " = " + v;
    forall i | 0 <= i < |l|
      ensures l[i] != '\n'
    {
      if i < |key| {
        assert l[i] == key[i];
      } else if i >= |key| + 3 {
        assert l[i] == v[i - |key| - 3];
      }
    }
  }

  /** The marker cannot start inside a clean line, nor at its line break:
      its only line break is its last character. */
  lemma NoMarkerInFirstLine(l: string, t: string, q: nat)
    requires CleanLine(l) && q <= |l| && |t| > 0 && t[0] == '\n'
    ensures !OccursAt(l + t, Marker, q)
  {
    var s := l + t;
    if q + |Marker| <= |s| {
      var o := s[q..q + |Marker|];
      if q + 23 < |l| {
        assert o[23] == l[q + 23] != '\n';
      } else if q + 23 > |l| {
        var d := |l| - q;
        assert o[d] == t[0];
        assert Marker[..23] == MarkerLine;
        assert '\n' !in MarkerLine;
        assert Marker[d] == MarkerLine[d];
      } else {
        assert l[q..] != MarkerLine;
        var i :| 0 <= i < 23 && l[q..][i] != MarkerLine[i];
        assert o[i] == l[q + i];
        assert Marker[i] == MarkerLine[i];
      }
      assert o != Marker;
    }
  }

  /** An occurrence past a prefix is an occurrence in the rest. */
  lemma OccursAfter(a: string, b: string, pat: string, q: nat)
    requires q >= |a| && OccursAt(a + b, pat, q)
    ensures OccursAt(b, pat, q - |a|)
  {
    assert (a + b)[q..q + |pat|] == b[q - |a|..q - |a| + |pat|];
  }

  /** The marker does not start anywhere inside a run of clean lines. */
  lemma {:induction false} NoMarkerInLines(ls: seq<string>, rest: string)
    requires forall i :: 0 <= i < |ls| ==> CleanLine(ls[i])
    ensures forall q: nat :: q < |JoinTerminated(ls, '\n')| ==>
      !OccursAt(JoinTerminated(ls, '\n') + rest, Marker, q)
  {
    if |ls| > 0 {
      var l := ls[0];
      var tail := JoinTerminated(ls[1..], '\n');
      NoMarkerInLines(ls[1..], rest);
      var s := JoinTerminated(ls, '\n') + rest;
      assert s == l + ("\n" + (tail + rest));
      assert s == (l + "\n") + (tail + rest);
      forall q: nat | q < |JoinTerminated(ls, '\n')|
        ensures !OccursAt(s, Marker, q)
      {
        if q <= |l| {
          NoMarkerInFirstLine(l, "\n" + (tail + rest), q);
        } else if OccursAt(s, Marker, q) {
          OccursAfter(l + "\n", tail + rest, Marker, q);
        }
      }
    }
  }

  /** Text made of clean lines, then the marker: `find` stops at the marker. */
  lemma FindAfterCleanLines(ls: seq<string>, rest: string)
    requires forall i :: 0 <= i < |ls| ==> CleanLine(ls[i])
    ensures Find(JoinTerminated(ls, '\n') + Marker + rest, Marker)
      == Some(|JoinTerminated(ls, '\n')|)
  {
    var p := JoinTerminated(ls, '\n');
    NoMarkerInLines(ls, Marker + rest);
    assert p + Marker + rest == p + (Marker + rest);
    assert (p + Marker + rest)[|p|..|p| + |Marker|] == Marker;
    FindFirst(p + Marker + rest, Marker, |p|);
  }

  // ---------------------------------------------------------------------
  // What each written line tells the reader
  // ---------------------------------------------------------------------

  /** The reader's header for a file written with header `w`. */
  function ReadBack(w: WriterHeader): Header {
    Header(w.objectType, w.nDims, w.binaryData, w.byteOrderMSB, w.compressed,
      w.transformMatrix, w.dimSize, AsReals(w.offset), w.centerOfRotation,
      w.anatomicalOrientation, AsReals(w.elementSpacing), w.elementType,
      w.imageOrientation, w.imageType, w.elementDataFile)
  }

  /** The reader parses each printed value back into the field it came
      from: `std::stoi` reads the printed `NDims`, a flag prints as `True`
      exactly when it is set, and the number readers read printed vectors. */
  lemma ParseFieldText(w: WriterHeader, k: Key)
    requires InInt(w.nDims) && AllInInt(w.transformMatrix) && AllInInt(w.dimSize)
    requires AllInInt(w.centerOfRotation)
    ensures Parse(k, FieldText(w, k)) == Some(Get(ReadBack(w), k))
  {
    match k
    case NDims => StoiFmtInt(w.nDims);
    case TransformMatrix => ReadIntsSpaceJoin(w.transformMatrix);
    case DimSize => ReadIntsSpaceJoin(w.dimSize);
    case CenterOfRotation => ReadIntsSpaceJoin(w.centerOfRotation);
    case Offset => ReadDecimalsSpaceJoin(w.offset);
    case ElementSpacing => ReadDecimalsSpaceJoin(w.elementSpacing);
    case _ =>
  }

  /** A header whose vectors are printable and whose text fields are plain. */
  predicate PlainHeader(w: WriterHeader) {
    Printable(w) && Plain(w.objectType) && Plain(w.anatomicalOrientation)
    && Plain(w.elementType) && Plain(w.imageOrientation) && Plain(w.imageType)
    && Plain(w.elementDataFile)
  }

  lemma FieldTextPlain(w: WriterHeader, k: Key)
    requires PlainHeader(w)
    ensures Plain(FieldText(w, k))
  {
  }

  /** No key but `ElementDataFile` ends with `ElementDataFile`. */
  lemma KeyNameNotMarker(k: Key)
    requires k != ElementDataFile
    ensures !EndsWith(KeyName(k), "ElementDataFile")
  {
    var s := KeyName(k);
    if |s| >= 15 {
      var tail := s[|s| - 15..];
      assert s[|s| - 1] != 'e' || s[|s| - 3] != 'i';
      assert tail[14] != 'e' || tail[12] != 'i';
    }
  }

  /** A written `key = value` line reads back as that key and value. */
  lemma WrittenLine(k: Key, v: string)
    requires Plain(v)
    ensures LineKey(Line(KeyName(k), v)) == Some(k)
    ensures LineValue(Line(KeyName(k), v)) == v
    ensures '\n' !in Line(KeyName(k), v)
    ensures k != ElementDataFile ==> CleanLine(Line(KeyName(k), v))
  {
    KeyNamePlain(k);
    LineNoBreak(KeyName(k), v);
    ReadKeyLine(k, v);
    if k != ElementDataFile {
      KeyNameNotMarker(k);
      LineClean(KeyName(k), v);
    }
  }

  /** Header line j names key j of `HeaderKeys` and holds its value. */
  lemma HeaderLineAt(w: WriterHeader, j: nat)
    requires PlainHeader(w) && j < |HeaderKeys|
    ensures LineKey(HeaderLines(w)[j]) == Some(HeaderKeys[j])
    ensures LineValue(HeaderLines(w)[j]) == FieldText(w, HeaderKeys[j])
    ensures CleanLine(HeaderLines(w)[j])
  {
    var k := HeaderKeys[j];
    HeaderKeysIndexed(k);
    assert k != ElementDataFile;
    FieldTextPlain(w, k);
    WrittenLine(k, FieldText(w, k));
  }

  /** The entry text holds what the formatter prints, and spaces. */
  lemma {:induction false} EntriesSafe(es: seq<Double>, fmt: Double -> string)
    requires FmtSafe(fmt)
    ensures '\n' !in EntriesText(es, fmt) && '=' !in EntriesText(es, fmt)
  {
    if |es| > 0 {
      EntriesSafe(es[1..], fmt);
      assert EntriesText(es, fmt) == fmt(es[0]) + " " + EntriesText(es[1..], fmt);
    }
  }

  /** A per-frame key: it starts with 'S', so it names no header field,
      and ends like its field. */
  lemma SeqKeyPlain(i: nat, field: string)
    requires '=' !in field && '\n' !in field && |field| > 0
    requires !IsSpace(field[|field| - 1]) && field[|field| - 1] != 'e'
    ensures '=' !in SeqKey(i, field) && '\n' !in SeqKey(i, field)
    ensures !EndsWith(SeqKey(i, field), "ElementDataFile")
    ensures !IsSpace(SeqKey(i, field)[|SeqKey(i, field)| - 1])
    ensures KeyOf(SeqKey(i, field)).None?
  {
    var s := SeqKey(i, field);
    var p := Pad4(i);
    var front := "Seq_Frame";
    assert s == front + p + field;
    forall j | 0 <= j < |s|
      ensures s[j] != '=' && s[j] != '\n'
    {
      if j < |front| {
        assert s[j] == front[j];
      } else if j < |front| + |p| {
        assert s[j] == p[j - |front|];
        assert IsDigit(p[j - |front|]);
      } else {
        assert s[j] == field[j - |front| - |p|];
      }
    }
    assert s[|s| - 1] == field[|field| - 1];
    if |s| >= 15 {
      assert s[|s| - 15..][14] == s[|s| - 1];
    }
    assert forall k :: KeyName(k)[0] != s[0];
    KeyOfNone(s);
  }

  /** A per-frame line names no header field and cannot hide the marker. */
  lemma PerFrameLine(i: nat, field: string, v: string)
    requires '=' !in field && '\n' !in field && |field| > 0
    requires !IsSpace(field[|field| - 1]) && field[|field| - 1] != 'e'
    requires '=' !in v && '\n' !in v
    ensures LineKey(Line(SeqKey(i, field), v)).None?
    ensures CleanLine(Line(SeqKey(i, field), v))
  {
    SeqKeyPlain(i, field);
    SplitKeyValue(SeqKey(i, field), v);
    LineClean(SeqKey(i, field), v);
  }

  /** The four lines of a frame record name no header field and are clean. */
  lemma RecordLineAt(i: nat, m: Matrix4, t: Double, fmt: Double -> string, k: nat)
    requires FmtSafe(fmt) && k < 4
    ensures LineKey(RecordLines(i, m, t, fmt)[k]).None?
    ensures CleanLine(RecordLines(i, m, t, fmt)[k])
  {
    var ls := RecordLines(i, m, t, fmt);
    if k == 0 {
      EntriesSafe(m, fmt);
      TransformLineOf(i, EntriesText(m, fmt));
    } else if k == 1 {
      StatusTextPlain(m);
      StatusLineOf(i, StatusText(m));
    } else if k == 2 {
      TimestampLineOf(i, fmt(t));
    } else {
      ImageStatusLineOf(i);
    }
  }

  lemma TransformLineOf(i: nat, v: string)
    requires '=' !in v && '\n' !in v
    ensures LineKey(Line(SeqKey(i, "_ProbeToTrackerTransform"), v)).None?
    ensures CleanLine(Line(SeqKey(i, "_ProbeToTrackerTransform"), v))
  {
    PerFrameLine(i, "_ProbeToTrackerTransform", v);
  }

  lemma StatusTextPlain(m: Matrix4)
    ensures '=' !in StatusText(m) && '\n' !in StatusText(m)
  {
  }

  lemma StatusLineOf(i: nat, v: string)
    requires '=' !in v && '\n' !in v
    ensures LineKey(Line(SeqKey(i, "_ProbeToTrackerTransformStatus"), v)).None?
    ensures CleanLine(Line(SeqKey(i, "_ProbeToTrackerTransformStatus"), v))
  {
    PerFrameLine(i, "_ProbeToTrackerTransformStatus", v);
  }

  lemma TimestampLineOf(i: nat, v: string)
    requires '=' !in v && '\n' !in v
    ensures LineKey(Line(SeqKey(i, "_Timestamp"), v)).None?
    ensures CleanLine(Line(SeqKey(i, "_Timestamp"), v))
  {
    PerFrameLine(i, "_Timestamp", v);
  }

  lemma ImageStatusLineOf(i: nat)
    ensures LineKey(Line(SeqKey(i, "_ImageStatus"), "OK")).None?
    ensures CleanLine(Line(SeqKey(i, "_ImageStatus"), "OK"))
  {
    PerFrameLine(i, "_ImageStatus", "OK");
  }

  /** Every per-frame line names no header field and is clean. */
  lemma TransformLineAt(ts: seq<Matrix4>, stamps: seq<Double>, fmt: Double -> string, t: nat)
    requires |ts| == |stamps| && FmtSafe(fmt) && t < 4 * |ts|
    ensures LineKey(TransformLines(ts, stamps, fmt)[t]).None?
    ensures CleanLine(TransformLines(ts, stamps, fmt)[t])
  {
    var i, k := t / 4, t % 4;
    assert t == 4 * i + k;
    TransformLinesAt(ts, stamps, fmt, i, k);
    RecordLineAt(i, ts[i], stamps[i], fmt, k);
  }

  /** The closing line is the marker line, naming `ElementDataFile`. */
  lemma ClosingLine(w: WriterHeader)
    requires w.elementDataFile == "LOCAL"
    ensures LineKey(Line(KeyName(ElementDataFile), FieldText(w, ElementDataFile))) == Some(ElementDataFile)
    ensures LineValue(Line(KeyName(ElementDataFile), FieldText(w, ElementDataFile)))
      == FieldText(w, ElementDataFile)
    ensures '\n' !in Line(KeyName(ElementDataFile), FieldText(w, ElementDataFile))
  {
    var v := FieldText(w, ElementDataFile);
    assert v == w.elementDataFile;
    assert Plain(v);
    WrittenLine(ElementDataFile, v);
  }

  /** What the reader sees in line i of the written text. */
  lemma TextLineAt(r: Recorder, fmt: Double -> string, i: nat)
    requires Aligned(r) && |r.images| >= 2 && FmtSafe(fmt)
    requires i < |TextLines(r, fmt)|
    ensures i < |HeaderKeys| ==> LineKey(TextLines(r, fmt)[i]) == Some(HeaderKeys[i])
    ensures i < |HeaderKeys| ==>
      LineValue(TextLines(r, fmt)[i]) == FieldText(HeaderFor(r.images), HeaderKeys[i])
    ensures |HeaderKeys| <= i < |TextLines(r, fmt)| - 1 ==> LineKey(TextLines(r, fmt)[i]).None?
    ensures i == |TextLines(r, fmt)| - 1 ==> LineKey(TextLines(r, fmt)[i]) == Some(ElementDataFile)
    ensures i == |TextLines(r, fmt)| - 1 ==>
      LineValue(TextLines(r, fmt)[i]) == FieldText(HeaderFor(r.images), ElementDataFile)
    ensures i < |TextLines(r, fmt)| - 1 ==> CleanLine(TextLines(r, fmt)[i])
    ensures '\n' !in TextLines(r, fmt)[i]
  {
    if i < |HeaderKeys| {
      HeaderTextLine(r, fmt, i);
    } else if i < |TextLines(r, fmt)| - 1 {
      TransformTextLine(r, fmt, i);
    } else {
      LastTextLine(r, fmt);
    }
  }

  /** The header lines of the written text. */
  lemma HeaderTextLine(r: Recorder, fmt: Double -> string, i: nat)
    requires Aligned(r) && |r.images| >= 2
    requires i < |HeaderKeys|
    ensures LineKey(TextLines(r, fmt)[i]) == Some(HeaderKeys[i])
    ensures LineValue(TextLines(r, fmt)[i]) == FieldText(HeaderFor(r.images), HeaderKeys[i])
    ensures CleanLine(TextLines(r, fmt)[i])
  {
    var w := HeaderFor(r.images);
    HeaderForPlain(r.images);
    assert TextLines(r, fmt)[i] == HeaderLines(w)[i];
    HeaderLineAt(w, i);
  }

  lemma HeaderForPlain(images: seq<Image>)
    requires |images| >= 2
    ensures PlainHeader(HeaderFor(images))
  {
    var w := HeaderFor(images);
    PlainWords("Image", "RAI", "MET_UCHAR");
    PlainWords("MFA", "BRIGHTNESS", "LOCAL");
  }

  lemma PlainWords(a: string, b: string, c: string)
    requires a in {"Image", "MFA"} && b in {"RAI", "BRIGHTNESS"} && c in {"MET_UCHAR", "LOCAL"}
    ensures Plain(a) && Plain(b) && Plain(c)
  {
  }

  /** The per-frame lines of the written text. */
  lemma TransformTextLine(r: Recorder, fmt: Double -> string, i: nat)
    requires Aligned(r) && |r.images| >= 2 && FmtSafe(fmt)
    requires |HeaderKeys| <= i < |TextLines(r, fmt)| - 1
    ensures LineKey(TextLines(r, fmt)[i]).None?
    ensures CleanLine(TextLines(r, fmt)[i])
  {
    var tl := TransformLines(r.transforms, r.timestamps, fmt);
    assert TextLines(r, fmt)[i] == tl[i - |HeaderKeys|];
    TransformLineAt(r.transforms, r.timestamps, fmt, i - |HeaderKeys|);
  }

  /** The closing line of the written text. */
  lemma LastTextLine(r: Recorder, fmt: Double -> string)
    requires Aligned(r) && |r.images| >= 2
    ensures LineKey(TextLines(r, fmt)[|TextLines(r, fmt)| - 1]) == Some(ElementDataFile)
    ensures LineValue(TextLines(r, fmt)[|TextLines(r, fmt)| - 1]) == FieldText(HeaderFor(r.images), ElementDataFile)
    ensures '\n' !in TextLines(r, fmt)[|TextLines(r, fmt)| - 1]
  {
    var w := HeaderFor(r.images);
    ClosingLine(w);
  }

  // ---------------------------------------------------------------------
  // The round trip
  // ---------------------------------------------------------------------

  /** The line found last for a key is its only line from there on. */
  lemma {:induction false} LastValueAt(ls: seq<string>, k: Key, j: nat)
    requires j < |ls| && LineKey(ls[j]) == Some(k)
    requires forall i :: j < i < |ls| ==> LineKey(ls[i]) != Some(k)
    ensures LastValue(ls, k) == Some(LineValue(ls[j]))
    decreases |ls|
  {
    var init := ls[..|ls| - 1];
    if j < |ls| - 1 {
      LastValueSkip(ls, k);
      forall i | j < i < |init|
        ensures LineKey(init[i]) != Some(k)
      {
        assert init[i] == ls[i];
      }
      LastValueAt(init, k, j);
    } else {
      LastValueHit(ls, k);
    }
  }

  lemma LastValueSkip(ls: seq<string>, k: Key)
    requires |ls| > 0 && LineKey(ls[|ls| - 1]) != Some(k)
    ensures LastValue(ls, k) == LastValue(ls[..|ls| - 1], k)
  {
  }

  lemma LastValueHit(ls: seq<string>, k: Key)
    requires |ls| > 0 && LineKey(ls[|ls| - 1]) == Some(k)
    ensures LastValue(ls, k) == Some(LineValue(ls[|ls| - 1]))
  {
  }

  /** No written line is one `readHeader` rejects. */
  lemma WrittenLinesAccepted(r: Recorder, fmt: Double -> string, h0: Header)
    requires Aligned(r) && |r.images| >= 2 && FmtSafe(fmt)
    ensures ApplyLines(h0, TextLines(r, fmt)).Success?
  {
    var ls := TextLines(r, fmt);
    forall i | 0 <= i < |ls|
      ensures !BadLine(ls[i])
    {
      WrittenLineAccepted(r, fmt, i);
    }
    ApplyLinesFails(h0, ls);
  }

  lemma WrittenLineAccepted(r: Recorder, fmt: Double -> string, i: nat)
    requires Aligned(r) && |r.images| >= 2 && FmtSafe(fmt)
    requires i < |TextLines(r, fmt)|
    ensures !BadLine(TextLines(r, fmt)[i])
  {
    if i < |HeaderKeys| {
      HeaderLineAccepted(r, fmt, i);
    } else {
      TextLineAt(r, fmt, i);
    }
  }

  lemma HeaderLineAccepted(r: Recorder, fmt: Double -> string, i: nat)
    requires Aligned(r) && |r.images| >= 2 && FmtSafe(fmt)
    requires i < |HeaderKeys|
    ensures !BadLine(TextLines(r, fmt)[i])
  {
    var l := TextLines(r, fmt)[i];
    TextLineAt(r, fmt, i);
    if HeaderKeys[i] == NDims {
      StoiFmtInt(HeaderFor(r.images).nDims);
    }
  }

  /** The last line naming key k is the one the writer wrote for it. */
  lemma WrittenLastValue(r: Recorder, fmt: Double -> string, k: Key)
    requires Aligned(r) && |r.images| >= 2 && FmtSafe(fmt)
    ensures LastValue(TextLines(r, fmt), k) == Some(FieldText(HeaderFor(r.images), k))
  {
    var ls := TextLines(r, fmt);
    HeaderKeysIndexed(k);
    if k == ElementDataFile {
      LastTextLine(r, fmt);
      LastValueAt(ls, k, |ls| - 1);
    } else {
      var j := KeyIndex(k);
      HeaderTextLine(r, fmt, j);
      forall i | j < i < |ls|
        ensures LineKey(ls[i]) != Some(k)
      {
        LaterLineNotKey(r, fmt, k, i);
      }
      LastValueAt(ls, k, j);
    }
  }

  /** No line after the header line for key k names k again. */
  lemma LaterLineNotKey(r: Recorder, fmt: Double -> string, k: Key, i: nat)
    requires Aligned(r) && |r.images| >= 2 && FmtSafe(fmt)
    requires k != ElementDataFile && KeyIndex(k) < i < |TextLines(r, fmt)|
    ensures LineKey(TextLines(r, fmt)[i]) != Some(k)
  {
    HeaderKeysIndexed(k);
    if i < |HeaderKeys| {
      HeaderTextLine(r, fmt, i);
      HeaderKeysIndexed(HeaderKeys[i]);
    } else if i < |TextLines(r, fmt)| - 1 {
      TransformTextLine(r, fmt, i);
    } else {
      LastTextLine(r, fmt);
    }
  }

  /** The integers `writeHeader` prints for `NDims` and the integer vectors
      fit an `int`. */
  lemma HeaderForInInt(images: seq<Image>)
    requires IntExtents(images)
    ensures var w := HeaderFor(images);
      InInt(w.nDims) && AllInInt(w.transformMatrix) && AllInInt(w.dimSize)
      && AllInInt(w.centerOfRotation)
  {
  }

  /** Reading the written lines rebuilds the written header, whatever
      header the reader started from. */
  lemma ReadsBackHeader(r: Recorder, fmt: Double -> string, h0: Header)
    requires Aligned(r) && IntExtents(r.images) && FmtSafe(fmt)
    ensures ApplyLines(h0, TextLines(r, fmt)) == Success(ReadBack(HeaderFor(r.images)))
  {
    var w := HeaderFor(r.images);
    var ls := TextLines(r, fmt);
    HeaderForInInt(r.images);
    WrittenLinesAccepted(r, fmt, h0);
    var h := ApplyLines(h0, ls).value;
    forall k
      ensures Get(h, k) == Get(ReadBack(w), k)
    {
      WrittenLastValue(r, fmt, k);
      ReadHeaderLastWins(h0, ls, k);
      ParseFieldText(w, k);
    }
    HeaderExt(h, ReadBack(w));
  }

  /** `readVolumeImage` on the text `stopRecord` writes: the header comes
      back field by field and the image bytes are appended to the volume
      unchanged. The as-written reader agrees, since the marker is there. */
  lemma WrittenFileReadsBack(r: Recorder, fmt: Double -> string, rd: Reader)
    requires Aligned(r) && IntExtents(r.images) && FmtSafe(fmt)
    ensures ReadVolumeImage(rd, FileText(r, fmt))
      == Success(Reader(ReadBack(HeaderFor(r.images)), rd.volume + ImageBytes(r.images)))
    ensures ReadVolumeImageAsWritten(rd, FileText(r, fmt)) == ReadVolumeImage(rd, FileText(r, fmt))
  {
    var ls := TextLines(r, fmt);
    var init, last := ls[..|ls| - 1], ls[|ls| - 1];
    var chars := BytesToChars(ImageBytes(r.images));
    assert ls == init + [last];
    JoinTerminatedAppend(init, [last], '\n');
    assert JoinTerminated([last], '\n') == Marker;
    var p := JoinTerminated(init, '\n');
    var file := FileText(r, fmt);
    assert file == p + Marker + chars;
    forall i | 0 <= i < |init|
      ensures CleanLine(init[i])
    {
      TextLineAt(r, fmt, i);
    }
    FindAfterCleanLines(init, chars);
    assert file[..|p| + |Marker|] == JoinTerminated(ls, '\n');
    assert file[|p| + |Marker|..] == chars;
    forall i | 0 <= i < |ls|
      ensures '\n' !in ls[i]
    {
      TextLineAt(r, fmt, i);
    }
    SplitJoinTerminated(ls, '\n');
    ReadsBackHeader(r, fmt, rd.header);
    CharsBytesRoundTrip(ImageBytes(r.images));
  }
}

=== FILE: mha_writer.dfy ===
/** `MHAWriter`: records B-mode images paired with the probe pose, then
    writes them as a PLUS sequence file (`.mha`): a fixed MetaImage header,
    four `Seq_FrameNNNN_…` lines per record, the `ElementDataFile = LOCAL`
    line, and the raw bytes of every image back to back.

    Number formatting of doubles (`operator<<` on a `double`) is a
    parameter `fmt`; the clock (`QElapsedTimer::elapsed`) is passed in as
    milliseconds; whether the file could be opened is passed in as a flag. */
module MhaWriter {
  import opened Wrappers
  import opened Text
  import opened Bytes
  import opened Pose
  import opened SoftSync
  import opened TransformRegistry
  import opened Seqs
  import opened MetaImage

  /** A B-mode frame (`cv::Mat`): its size and its `total() * elemSize()`
      raw bytes. */
  datatype Image = Image(cols: int, rows: int, data: seq<byte>)

  datatype Recorder = Recorder(
    fileName: string,
    fileOpen: bool,
    recording: bool,
    pending: Slots<Image, Matrix4>,
    images: seq<Image>,
    transforms: seq<Matrix4>,
    timestamps: seq<Double>)

  /** The three record lists grow together. */
  predicate Aligned(r: Recorder) {
    |r.images| == |r.transforms| == |r.timestamps|
  }

  /** The rigid body whose pose is recorded with each image. */
  const TrackerId := "TB-M"

  function FileName(filepath: string, prefix: string, dateTime: string): (n: string)
    ensures StartsWith(n, filepath + prefix + "_") && EndsWith(n, ".mha")
  {
    var n := filepath + prefix + "_" + dateTime + ".mha";
    assert n[..|filepath + prefix + "_"|] == filepath + prefix + "_";
    assert n[|n| - 4..] == ".mha";
    n
  }

  /** The constructor: the file is opened at once, and a failure to open
      it throws. */
  function Open(filepath: string, prefix: string, dateTime: string, isOpen: bool): (r: Result<Recorder, string>)
    ensures r.Success? <==> isOpen
    ensures r.Success? ==> r.value.fileOpen && !r.value.recording && r.value.pending == Empty()
    ensures r.Success? ==> Aligned(r.value) && |r.value.images| == 0
    ensures r.Failure? ==> r.error == "Unable to open file: " + FileName(filepath, prefix, dateTime)
  {
    var name := FileName(filepath, prefix, dateTime);
    if isOpen then Success(Recorder(name, true, false, Empty(), [], [], []))
    else Failure("Unable to open file: " + name)
  }

  /** `timestamp.elapsed() / 1000.0`: seconds since the writer was made. */
  function ElapsedSeconds(elapsedMs: int): (d: Double)
    ensures d.Num? && d.value * 1000.0 == elapsedMs as real
  {
    Num(elapsedMs as real / 1000.0)
  }

  /** `storeDataPair`: the image, the pose and the time are appended together. */
  function StoreDataPair(r: Recorder, img: Image, t: Matrix4, elapsedMs: int): (res: Recorder)
    ensures Aligned(r) ==> Aligned(res)
    ensures res.images == r.images + [img] && res.transforms == r.transforms + [t]
    ensures res.timestamps == r.timestamps + [ElapsedSeconds(elapsedMs)]
    ensures res.pending == r.pending && res.fileOpen == r.fileOpen
  {
    r.(images := r.images + [img], transforms := r.transforms + [t],
       timestamps := r.timestamps + [ElapsedSeconds(elapsedMs)])
  }

  /** Applies one soft-synchronisation step; a completed pair is stored. */
  function Settle(r: Recorder, st: Step<Slots<Image, Matrix4>, Image, Matrix4>, elapsedMs: int): Recorder {
    var r1 := r.(pending := st.next);
    if st.paired.Some? then StoreDataPair(r1, st.paired.value.0, st.paired.value.1, elapsedMs) else r1
  }

  /** `onImageReceived`. */
  function OnImageReceived(r: Recorder, img: Image, elapsedMs: int): (res: Recorder)
    ensures Aligned(r) ==> Aligned(res)
    ensures res.pending.a.None? || res.pending.b.None?
    ensures |res.images| == |r.images| + (if r.pending.b.Some? then 1 else 0)
  {
    Settle(r, OfferA(r.pending, img), elapsedMs)
  }

  /** The pose half of `onRigidBodyReceived`, once the pose is looked up. */
  function OnPose(r: Recorder, t: Matrix4, elapsedMs: int): (res: Recorder)
    ensures Aligned(r) ==> Aligned(res)
    ensures res.pending.a.None? || res.pending.b.None?
    ensures |res.images| == |r.images| + (if r.pending.a.Some? then 1 else 0)
  {
    Settle(r, OfferB(r.pending, t), elapsedMs)
  }

  /** `onRigidBodyReceived`: the tracker pose is looked up first, so a
      sample without it throws and nothing changes. */
  function OnRigidBodyReceived(r: Recorder, reg: Registry, elapsedMs: int): (res: Result<Recorder, string>)
    ensures res.Failure? <==> TrackerId !in reg.entries
    ensures res.Success? ==> res.value == OnPose(r, reg.entries[TrackerId], elapsedMs)
  {
    var t :- Get(reg, TrackerId);
    Success(OnPose(r, t, elapsedMs))
  }

  /** `startRecord` only raises the flag; arrivals are paired either way. */
  function StartRecord(r: Recorder): (res: Recorder)
    ensures res.recording && res.images == r.images && res.pending == r.pending
    ensures res.fileName == r.fileName && res.fileOpen == r.fileOpen
    ensures res.transforms == r.transforms && res.timestamps == r.timestamps
    ensures Aligned(res) <==> Aligned(r)
  {
    r.(recording := true)
  }

  // ---------------------------------------------------------------------
  // A run of arrivals
  // ---------------------------------------------------------------------

  function Arrive(r: Recorder, e: Event<Image, Matrix4>, elapsedMs: int): Recorder {
    match e
    case FromA(img) => OnImageReceived(r, img, elapsedMs)
    case FromB(t) => OnPose(r, t, elapsedMs)
  }

  /** The recorder after the arrivals `evs`, the i-th at time `clock[i]`. */
  function Record(r: Recorder, evs: seq<Event<Image, Matrix4>>, clock: seq<int>): Recorder
    requires |clock| == |evs|
    decreases |evs|
  {
    if |evs| == 0 then r else Record(Arrive(r, evs[0], clock[0]), evs[1..], clock[1..])
  }

  function Firsts<A, B>(ps: seq<(A, B)>): (r: seq<A>)
    ensures |r| == |ps| && forall i :: 0 <= i < |ps| ==> r[i] == ps[i].0
  {
    if |ps| == 0 then [] else [ps[0].0] + Firsts(ps[1..])
  }

  function Seconds<A, B>(ps: seq<(A, B)>): (r: seq<B>)
    ensures |r| == |ps| && forall i :: 0 <= i < |ps| ==> r[i] == ps[i].1
  {
    if |ps| == 0 then [] else [ps[0].1] + Seconds(ps[1..])
  }

  lemma FirstsAppend<A, B>(a: seq<(A, B)>, b: seq<(A, B)>)
    ensures Firsts(a + b) == Firsts(a) + Firsts(b) && Seconds(a + b) == Seconds(a) + Seconds(b)
  {
    FirstsOfAppend(a, b);
    SecondsOfAppend(a, b);
  }

  lemma {:induction false} FirstsOfAppend<A, B>(a: seq<(A, B)>, b: seq<(A, B)>)
    ensures Firsts(a + b) == Firsts(a) + Firsts(b)
    decreases |a|
  {
    if |a| == 0 {
      assert a + b == b;
    } else {
      assert (a + b)[1..] == a[1..] + b;
      FirstsOfAppend(a[1..], b);
      AppendAssoc([(a + b)[0].0], Firsts(a[1..]), Firsts(b));
    }
  }

  lemma {:induction false} SecondsOfAppend<A, B>(a: seq<(A, B)>, b: seq<(A, B)>)
    ensures Seconds(a + b) == Seconds(a) + Seconds(b)
    decreases |a|
  {
    if |a| == 0 {
      assert a + b == b;
    } else {
      assert (a + b)[1..] == a[1..] + b;
      SecondsOfAppend(a[1..], b);
      AppendAssoc([(a + b)[0].1], Seconds(a[1..]), Seconds(b));
    }
  }

  /** The pair one arrival completes, as a list of zero or one pairs. */
  function Completed<S, A, B>(st: Step<S, A, B>): (ps: seq<(A, B)>)
    ensures |ps| <= 1
  {
    if st.paired.Some? then [st.paired.value] else []
  }

  /** One arrival appends exactly the pair it completes. */
  lemma ArriveStores(r: Recorder, e: Event<Image, Matrix4>, elapsedMs: int)
    requires Aligned(r)
    ensures var r1 := Arrive(r, e, elapsedMs);
      Aligned(r1) && r1.pending == Offer(r.pending, e).next
      && r1.images == r.images + Firsts(Completed(Offer(r.pending, e)))
      && r1.transforms == r.transforms + Seconds(Completed(Offer(r.pending, e)))
  {
  }

  /** The records are exactly the pairs the soft synchroniser forms, in
      order, and the lists stay aligned. */
  lemma {:induction false} RecordStoresPairs(r: Recorder, evs: seq<Event<Image, Matrix4>>, clock: seq<int>)
    requires |clock| == |evs| && Aligned(r)
    ensures Aligned(Record(r, evs, clock))
    ensures Record(r, evs, clock).images == r.images + Firsts(Run(r.pending, evs))
    ensures Record(r, evs, clock).transforms == r.transforms + Seconds(Run(r.pending, evs))
    decreases |evs|
  {
    if |evs| > 0 {
      var st := Offer(r.pending, evs[0]);
      var r1 := Arrive(r, evs[0], clock[0]);
      ArriveStores(r, evs[0], clock[0]);
      RecordStoresPairs(r1, evs[1..], clock[1..]);
      var head := Completed(st);
      var tail := Run(st.next, evs[1..]);
      assert Run(r.pending, evs) == head + tail;
      FirstsAppend(head, tail);
      AppendAssoc(r.images, Firsts(head), Firsts(tail));
      AppendAssoc(r.transforms, Seconds(head), Seconds(tail));
    }
  }

  /** From a fresh writer, image i is recorded with pose i exactly for the
      greedy adjacent pairs of arrivals. */
  lemma FreshRecordIsGreedy(r: Recorder, evs: seq<Event<Image, Matrix4>>, clock: seq<int>)
    requires |clock| == |evs| && Aligned(r) && r.images == [] && r.transforms == [] && r.pending == Empty()
    ensures Record(r, evs, clock).images == Firsts(Greedy(evs))
    ensures Record(r, evs, clock).transforms == Seconds(Greedy(evs))
  {
    RecordStoresPairs(r, evs, clock);
    RunIsGreedy(evs);
  }

  // ---------------------------------------------------------------------
  // The file text
  // ---------------------------------------------------------------------

  function BoolText(b: bool): string {
    if b then "True" else "False"
  }

  /** The writer's `MHAHeader`; every numeric field is an `int` here. */
  datatype WriterHeader = WriterHeader(
    objectType: string, nDims: int, binaryData: bool, byteOrderMSB: bool,
    compressed: bool, transformMatrix: seq<int>, dimSize: seq<int>,
    offset: seq<int>, centerOfRotation: seq<int>, anatomicalOrientation: string,
    elementSpacing: seq<int>, elementType: string, imageOrientation: string,
    imageType: string, elementDataFile: string)

  /** The header `stopRecord` fills in: fixed values, and a DimSize taken
      from the image at index 1 (so there must be two images). */
  function HeaderFor(images: seq<Image>): (h: WriterHeader)
    requires |images| >= 2
    ensures h.dimSize == [images[1].cols, images[1].rows, |images|]
    ensures h.nDims == 3 && h.binaryData && !h.byteOrderMSB && !h.compressed
    ensures h.elementType == "MET_UCHAR" && h.elementDataFile == "LOCAL"
  {
    WriterHeader("Image", 3, true, false, false, [1, 0, 0, 0, 1, 0, 0, 0, 1],
      [images[1].cols, images[1].rows, |images|], [0, 0, 0], [0, 0, 0], "RAI",
      [1, 1, 1], "MET_UCHAR", "MFA", "BRIGHTNESS", "LOCAL")
  }

  /** The extents `writeHeader` prints as `DimSize` each fit an `int`: the
      image's `cv::Mat` columns and rows, and the number of images. */
  predicate IntExtents(images: seq<Image>) {
    |images| >= 2 && InInt(images[1].cols) && InInt(images[1].rows) && InInt(|images|)
  }

  /** The vectors hold as many entries as `writeHeader` prints with `.at()`. */
  predicate Printable(h: WriterHeader) {
    |h.transformMatrix| == 9 && |h.dimSize| == 3 && |h.offset| == 3
    && |h.centerOfRotation| == 3 && |h.elementSpacing| == 3
  }

  /** The value `writeHeader` prints after `key = `; a vector is printed
      entry by entry with single spaces between. */
  function FieldText(h: WriterHeader, k: Key): string {
    match k
    case ObjectType => h.objectType
    case NDims => FmtInt(h.nDims)
    case BinaryData => BoolText(h.binaryData)
    case BinaryDataByteOrderMSB => BoolText(h.byteOrderMSB)
    case CompressedData => BoolText(h.compressed)
    case TransformMatrix => SpaceJoin(h.transformMatrix)
    case DimSize => SpaceJoin(h.dimSize)
    case Offset => SpaceJoin(h.offset)
    case CenterOfRotation => SpaceJoin(h.centerOfRotation)
    case AnatomicalOrientation => h.anatomicalOrientation
    case ElementSpacing => SpaceJoin(h.elementSpacing)
    case ElementType => h.elementType
    case UltrasoundImageOrientation => h.imageOrientation
    case UltrasoundImageType => h.imageType
    case ElementDataFile => h.elementDataFile
  }

  /** `writeHeader`: fourteen lines, with no ElementDataFile line; line j
      holds key j of `HeaderKeys` and its value. */
  function HeaderLines(h: WriterHeader): (ls: seq<string>)
    requires Printable(h)
    ensures |ls| == |HeaderKeys|
  {
    seq(|HeaderKeys|, j requires 0 <= j < |HeaderKeys| => Line(KeyName(HeaderKeys[j]), FieldText(h, HeaderKeys[j])))
  }

  /** The `isNaN` flag of the write loop, raised by any entry `x != x`. */
  function NaNFlag(es: seq<Double>): bool {
    if |es| == 0 then false else IsNaN(es[0]) || NaNFlag(es[1..])
  }

  lemma {:induction false} NaNFlagIff(es: seq<Double>)
    ensures NaNFlag(es) <==> exists i :: 0 <= i < |es| && IsNaN(es[i])
  {
    if |es| > 0 {
      NaNFlagIff(es[1..]);
      if NaNFlag(es[1..]) {
        var i :| 0 <= i < |es[1..]| && IsNaN(es[1..][i]);
        assert IsNaN(es[i + 1]);
      }
      if exists i :: 0 <= i < |es| && IsNaN(es[i]) {
        var i :| 0 <= i < |es| && IsNaN(es[i]);
        if i > 0 {
          assert IsNaN(es[1..][i - 1]);
        }
      }
    }
  }

  /** Every matrix entry followed by one space, row by row. */
  function EntriesText(es: seq<Double>, fmt: Double -> string): string {
    if |es| == 0 then [] else fmt(es[0]) + " " + EntriesText(es[1..], fmt)
  }

  function SeqKey(i: nat, field: string): string {
    "Seq_Frame" + Pad4(i) + field
  }

  /** The transform status: INVALID exactly when some entry is NaN. */
  function StatusText(m: Matrix4): (s: string)
    ensures s == "INVALID" <==> HasNaN(m)
    ensures s == "OK" <==> !HasNaN(m)
  {
    NaNFlagIff(m);
    if NaNFlag(m) then "INVALID" else "OK"
  }

  lemma StatusLineEnds(key: string, m: Matrix4)
    ensures EndsWith(Line(key, StatusText(m)), "INVALID") <==> HasNaN(m)
  {
    var l := Line(key, StatusText(m));
    if HasNaN(m) {
      assert l[|l| - 7..] == "INVALID";
    } else {
      assert l[|l| - 1] == 'K';
    }
  }

  /** A line keyed by a per-record field starts with the record's prefix. */
  lemma SeqKeyLineStarts(i: nat, field: string, v: string)
    requires |field| > 0 && field[0] == '_'
    ensures StartsWith(Line(SeqKey(i, field), v), "Seq_Frame" + Pad4(i) + "_")
  {
    var p := "Seq_Frame" + Pad4(i);
    assert Line(SeqKey(i, field), v) == (p + "_") + (field[1..] + " = " + v);
  }

  lemma LineEndsWithValue(key: string, v: string)
    ensures EndsWith(Line(key, v), v)
  {
    assert Line(key, v) == (key + " = ") + v;
  }

  /** The four lines `writeTransformations` writes for record i. */
  function RecordLines(i: nat, m: Matrix4, t: Double, fmt: Double -> string): (ls: seq<string>)
    ensures |ls| == 4
  {
    [ Line(SeqKey(i, "_ProbeToTrackerTransform"), EntriesText(m, fmt)),
      Line(SeqKey(i, "_ProbeToTrackerTransformStatus"), StatusText(m)),
      Line(SeqKey(i, "_Timestamp"), fmt(t)),
      Line(SeqKey(i, "_ImageStatus"), "OK") ]
  }

  /** Every line of record i is keyed `Seq_Frame<i, four digits>_...`. */
  lemma RecordLinesKeyed(i: nat, m: Matrix4, t: Double, fmt: Double -> string)
    ensures forall k :: 0 <= k < 4 ==> StartsWith(RecordLines(i, m, t, fmt)[k], "Seq_Frame" + Pad4(i) + "_")
  {
    SeqKeyLineStarts(i, "_ProbeToTrackerTransform", EntriesText(m, fmt));
    SeqKeyLineStarts(i, "_ProbeToTrackerTransformStatus", StatusText(m));
    SeqKeyLineStarts(i, "_Timestamp", fmt(t));
    SeqKeyLineStarts(i, "_ImageStatus", "OK");
  }

  /** The transform status line says INVALID exactly when the pose holds a
      NaN, and the image status line always says OK. */
  lemma RecordLinesStatus(i: nat, m: Matrix4, t: Double, fmt: Double -> string)
    ensures EndsWith(RecordLines(i, m, t, fmt)[1], "INVALID") <==> HasNaN(m)
    ensures EndsWith(RecordLines(i, m, t, fmt)[3], "OK")
  {
    StatusLineEnds(SeqKey(i, "_ProbeToTrackerTransformStatus"), m);
    LineEndsWithValue(SeqKey(i, "_ImageStatus"), "OK");
  }

  /** The record lines, record by record in order. */
  function TransformLines(ts: seq<Matrix4>, stamps: seq<Double>, fmt: Double -> string): (ls: seq<string>)
    requires |ts| == |stamps|
    ensures |ls| == 4 * |ts|
  {
    var blocks := seq(|ts|, j requires 0 <= j < |ts| => RecordLines(j, ts[j], stamps[j], fmt));
    FlattenLength(blocks, 4);
    Flatten(blocks)
  }

  /** Line `4 * i + k` is line k of record i. */
  lemma TransformLinesAt(ts: seq<Matrix4>, stamps: seq<Double>, fmt: Double -> string, i: nat, k: nat)
    requires |ts| == |stamps| && i < |ts| && k < 4
    ensures TransformLines(ts, stamps, fmt)[4 * i + k] == RecordLines(i, ts[i], stamps[i], fmt)[k]
  {
    var blocks := seq(|ts|, j requires 0 <= j < |ts| => RecordLines(j, ts[j], stamps[j], fmt));
    FlattenAt(blocks, 4, i, k);
  }

  /** Where image `k`'s bytes start in the written data: the total size of
      the images before it. */
  function Offset(images: seq<Image>, k: nat): nat
    requires k <= |images|
  {
    if k == 0 then 0 else |images[0].data| + Offset(images[1..], k - 1)
  }

  /** `bs` holds each image's bytes at its offset, and nothing else. */
  predicate Blocks(images: seq<Image>, bs: seq<byte>) {
    |bs| == Offset(images, |images|)
    && forall k :: 0 <= k < |images| ==>
         Offset(images, k) + |images[k].data| <= |bs|
         && bs[Offset(images, k)..Offset(images, k) + |images[k].data|] == images[k].data
  }

  /** `writeImages`: every image's `total() * elemSize()` bytes, in record
      order, with nothing between them, so a reader finds image `k` at its
      offset. */
  function ImageBytes(images: seq<Image>): (bs: seq<byte>)
    ensures Blocks(images, bs)
  {
    if |images| == 0 then []
    else
      var rest := ImageBytes(images[1..]);
      BlocksCons(images, rest);
      images[0].data + rest
  }

  /** The first image's bytes in front of the others' shift each later
      block by its size. */
  lemma BlocksCons(images: seq<Image>, rest: seq<byte>)
    requires |images| > 0 && Blocks(images[1..], rest)
    ensures Blocks(images, images[0].data + rest)
  {
    var d := images[0].data;
    var bs := d + rest;
    var tail := images[1..];
    forall k | 0 <= k < |images|
      ensures Offset(images, k) + |images[k].data| <= |bs|
      ensures bs[Offset(images, k)..Offset(images, k) + |images[k].data|] == images[k].data
    {
      if k == 0 {
        assert bs[..|d|] == d;
      } else {
        var o := Offset(tail, k - 1);
        assert images[k] == tail[k - 1];
        assert Offset(images, k) == |d| + o;
        assert bs[|d| + o..|d| + o + |images[k].data|] == rest[o..o + |images[k].data|];
      }
    }
  }

  /** Every line of the text part: header, records, the ElementDataFile line. */
  function TextLines(r: Recorder, fmt: Double -> string): (ls: seq<string>)
    requires Aligned(r) && |r.images| >= 2
    ensures |ls| == 14 + 4 * |r.images| + 1
    ensures ls[|ls| - 1] + "\n" == Marker
  {
    MarkerIsLine();
    HeaderLines(HeaderFor(r.images)) + TransformLines(r.transforms, r.timestamps, fmt)
      + [Line(KeyName(ElementDataFile), FieldText(HeaderFor(r.images), ElementDataFile))]
  }

  /** What `writeHeader`, `writeTransformations` and `writeImages` put in
      the file, in order. */
  function FileText(r: Recorder, fmt: Double -> string): (text: string)
    requires Aligned(r) && |r.images| >= 2
    ensures exists p :: text == p + Marker + BytesToChars(ImageBytes(r.images))
  {
    var ls := TextLines(r, fmt);
    var p := JoinTerminated(ls[..|ls| - 1], '\n');
    assert ls == ls[..|ls| - 1] + [ls[|ls| - 1]];
    JoinTerminatedAppend(ls[..|ls| - 1], [ls[|ls| - 1]], '\n');
    assert JoinTerminated(ls, '\n') == p + Marker;
    JoinTerminated(ls, '\n') + BytesToChars(ImageBytes(r.images))
  }

  // ---------------------------------------------------------------------
  // stopRecord
  // ---------------------------------------------------------------------

  /** The state after `stopRecord`, its return value and the text written. */
  datatype Stopped = Stopped(rec: Recorder, ok: bool, written: string)

  /** What `std::vector::at` throws for the missing image at index 1. */
  const RangeError := "vector::_M_range_check"

  /** `stopRecord`: pending halves are dropped first; a closed file gives
      `false`; with fewer than two images the header's `at(1)` throws; in
      every other case the file is written, closed, and `true` returned. */
  function StopRecord(r: Recorder, fmt: Double -> string): (res: Result<Stopped, string>)
    requires Aligned(r)
    ensures res.Failure? <==> r.fileOpen && |r.images| < 2
    ensures res.Success? ==> res.value.ok == r.fileOpen
    ensures res.Success? ==> !res.value.rec.fileOpen && !res.value.rec.recording
    ensures res.Success? ==> res.value.rec.pending == Empty()
    ensures res.Success? ==> res.value.rec.images == r.images && res.value.rec.transforms == r.transforms
    ensures res.Success? && !res.value.ok ==> res.value.written == []
    ensures res.Success? && res.value.ok ==> res.value.written == FileText(r, fmt)
  {
    var r1 := r.(recording := false, pending := Empty());
    if !r1.fileOpen then Success(Stopped(r1, false, []))
    else if |r1.images| < 2 then Failure(RangeError)
    else Success(Stopped(r1.(fileOpen := false), true, FileText(r1, fmt)))
  }

  /** The `int` the caller receives from the `bool`. */
  function ReturnCode(ok: bool): int {
    if ok then 1 else 0
  }

  /** The caller's −1, −2 and −3 cases never arise, and a second stop finds
      the file closed. */
  lemma StopRecordCodes(r: Recorder, fmt: Double -> string)
    requires Aligned(r) && StopRecord(r, fmt).Success?
    ensures ReturnCode(StopRecord(r, fmt).value.ok) in {0, 1}
    ensures var s := StopRecord(r, fmt).value.rec;
      Aligned(s) && StopRecord(s, fmt) == Success(Stopped(s, false, []))
  {
  }
}

=== FILE: ordered_map.dfy ===
/** `std::map<int, V>` as the sequence of its entries in ascending key
    order, which is the order a range-for over the map visits them. */
module OrderedMap {
  import opened Wrappers

  type Entries<V> = seq<(int, V)>

  /** Keys strictly increase along the entries. */
  predicate Sorted<V>(m: Entries<V>) {
    forall i, j :: 0 <= i < j < |m| ==> m[i].0 < m[j].0
  }

  predicate HasKey<V>(m: Entries<V>, k: int) {
    exists i :: 0 <= i < |m| && m[i].0 == k
  }

  /** `m.find(k)`: the value stored under `k`, if any. */
  function Find<V>(m: Entries<V>, k: int): (r: Option<V>)
    ensures r.Some? <==> HasKey(m, k)
    ensures r.Some? ==> exists i :: 0 <= i < |m| && m[i] == (k, r.value)
    decreases |m|
  {
    if |m| == 0 then None
    else if m[0].0 == k then Some(m[0].1)
    else
      var r := Find(m[1..], k);
      assert forall i :: 0 <= i < |m[1..]| ==> m[1..][i] == m[i + 1];
      assert HasKey(m, k) ==> HasKey(m[1..], k) by {
        if HasKey(m, k) {
          var i :| 0 <= i < |m| && m[i].0 == k;
          assert m[1..][i - 1].0 == k;
        }
      }
      r
  }

  /** In sorted entries the value found is the one at the key's position. */
  lemma FindAt<V>(m: Entries<V>, i: nat)
    requires Sorted(m) && i < |m|
    ensures Find(m, m[i].0) == Some(m[i].1)
  {
    var k := m[i].0;
    assert HasKey(m, k);
    var v := Find(m, k).value;
    var j :| 0 <= j < |m| && m[j] == (k, v);
    KeyPosition(m, i, j);
  }

  /** In sorted entries a key sits at one position only. */
  lemma KeyPosition<V>(m: Entries<V>, i: nat, j: nat)
    requires Sorted(m) && i < |m| && j < |m| && m[i].0 == m[j].0
    ensures i == j
  {
  }

  /** `m[k] = v`: replaces the value under `k`, or adds the entry at its place. */
  function Insert<V>(m: Entries<V>, k: int, v: V): Entries<V>
    decreases |m|
  {
    if |m| == 0 then [(k, v)]
    else if k < m[0].0 then [(k, v)] + m
    else if k == m[0].0 then [(k, v)] + m[1..]
    else [m[0]] + Insert(m[1..], k, v)
  }

  /** Every key is above `b`. */
  predicate Above<V>(m: Entries<V>, b: int) {
    forall i :: 0 <= i < |m| ==> b < m[i].0
  }

  /** Assignment keeps the entries sorted, and keeps a lower bound that `k`
      respects. */
  lemma {:induction false} InsertSorted<V>(m: Entries<V>, k: int, v: V, b: int)
    requires Sorted(m)
    ensures Sorted(Insert(m, k, v))
    ensures Above(m, b) && b < k ==> Above(Insert(m, k, v), b)
    decreases |m|
  {
    var r := Insert(m, k, v);
    if |m| > 0 && k > m[0].0 {
      var t := Insert(m[1..], k, v);
      InsertSorted(m[1..], k, v, m[0].0);
      InsertSorted(m[1..], k, v, b);
      assert forall i :: 0 < i < |r| ==> r[i] == t[i - 1];
    }
  }

  /** After `m[k] = v` the key `k` finds `v`, and every other key finds what
      it found before. */
  lemma {:induction false} InsertFind<V>(m: Entries<V>, k: int, v: V, k': int)
    ensures Find(Insert(m, k, v), k') == if k' == k then Some(v) else Find(m, k')
    decreases |m|
  {
    var r := Insert(m, k, v);
    if |m| == 0 {
    } else if k < m[0].0 {
      assert r[1..] == m;
    } else if k == m[0].0 {
      assert r[1..] == m[1..];
    } else {
      assert r[1..] == Insert(m[1..], k, v);
      InsertFind(m[1..], k, v, k');
    }
  }

  /** Every entry after `m[k] = v` is the new one or an old one. */
  lemma {:induction false} InsertEntries<V>(m: Entries<V>, k: int, v: V)
    ensures forall i :: 0 <= i < |Insert(m, k, v)| ==> Insert(m, k, v)[i] == (k, v) || Insert(m, k, v)[i] in m
    decreases |m|
  {
    if |m| > 0 && k > m[0].0 {
      InsertEntries(m[1..], k, v);
      var t := Insert(m[1..], k, v);
      assert forall i :: 0 < i < |Insert(m, k, v)| ==> Insert(m, k, v)[i] == t[i - 1];
      assert forall e :: e in m[1..] ==> e in m;
    }
  }
}

=== FILE: pose.dfy ===
/** Rigid-body poses (`Eigen::Isometry3d`) as their sixteen matrix entries.
    The rotation arithmetic is not modelled; what matters to the rest of the
    model is whether an entry is a number or NaN, and that entries are kept
    and written in row-major order. */
module Pose {

  /** An IEEE double: a finite value, an infinity, or NaN. */
  datatype Double = Num(value: real) | PosInf | NegInf | NaN

  /** `x != x` holds exactly for NaN. */
  predicate IsNaN(d: Double) {
    d.NaN?
  }

  /** The 4x4 homogeneous matrix of a pose, row-major: entry (row, col) is
      at `4 * row + col`. */
  type Matrix4 = m: seq<Double> | |m| == 16 witness IdentityEntries()

  function IdentityEntries(): (m: seq<Double>)
    ensures |m| == 16
  {
    seq(16, i => if i % 5 == 0 then Num(1.0) else Num(0.0))
  }

  /** `Eigen::Isometry3d::Identity()`. */
  const Identity: Matrix4 := IdentityEntries()

  function Entry(m: Matrix4, row: nat, col: nat): Double
    requires row < 4 && col < 4
  {
    m[4 * row + col]
  }

  /** Some entry of the matrix is NaN (the writer's `isNaN` flag). */
  predicate HasNaN(m: Matrix4) {
    exists i :: 0 <= i < 16 && IsNaN(m[i])
  }

  lemma IdentityHasNoNaN()
    ensures !HasNaN(Identity)
    ensures forall r, c :: 0 <= r < 4 && 0 <= c < 4 ==>
      Entry(Identity, r, c) == if r == c then Num(1.0) else Num(0.0)
  {
  }
}

=== FILE: seqs.dfy ===
/** Sequence facts used across the model, and Qt's `mid` on byte arrays
    and lists. Each lemma is stated once, generically, so that proofs about
    the program's own data need not re-derive them. */
module Seqs {

  function Min(a: int, b: int): int { if a < b then a else b }
  function Max(a: int, b: int): int { if a < b then b else a }

  /** `QByteArray::mid(pos, len)` / `QList::mid` in Qt 6: a negative `len`
      means "to the end", and the range is clipped to the array. */
  function Mid<T>(s: seq<T>, pos: int, len: int): (r: seq<T>)
    ensures 0 <= pos && 0 <= len ==>
      r == s[Min(pos, |s|)..Min(pos + len, |s|)]
    ensures pos < 0 && 0 <= len ==>
      r == s[..Max(0, Min(pos + len, |s|))]
    ensures len < 0 && 0 <= pos <= |s| ==> r == s[pos..]
  {
    var n := |s|;
    if pos > n then []
    else if pos < 0 then
      if len < 0 || len + pos >= n then s
      else if len + pos <= 0 then []
      else s[..len + pos]
    else if len < 0 || len > n - pos then s[pos..]
    else s[pos..pos + len]
  }

  lemma MidInside<T>(s: seq<T>, pos: nat, len: nat)
    requires pos + len <= |s|
    ensures Mid(s, pos, len) == s[pos..pos + len]
  {
  }

  function Flatten<T>(segs: seq<seq<T>>): seq<T> {
    if |segs| == 0 then [] else segs[0] + Flatten(segs[1..])
  }

  lemma FlattenHead<T>(x: seq<T>, t: seq<seq<T>>)
    ensures Flatten([x] + t) == x + Flatten(t)
  {
    assert ([x] + t)[1..] == t;
  }

  lemma FlattenCons<T>(x: seq<T>, t: seq<seq<T>>, rest: seq<T>)
    ensures Flatten([x] + t) + rest == x + (Flatten(t) + rest)
  {
    assert ([x] + t)[1..] == t;
  }

  /** In a flattening of blocks of one width `w`, entry `w * i + k` is
      entry k of block i. */
  lemma {:induction false} FlattenAt<T>(bs: seq<seq<T>>, w: nat, i: nat, k: nat)
    requires forall j :: 0 <= j < |bs| ==> |bs[j]| == w
    requires i < |bs| && k < w
    ensures |Flatten(bs)| == w * |bs| && w * i + k < |Flatten(bs)|
    ensures Flatten(bs)[w * i + k] == bs[i][k]
    decreases |bs|
  {
    FlattenLength(bs, w);
    MulBound(w, i, |bs|, k);
    var tail := Flatten(bs[1..]);
    assert Flatten(bs) == bs[0] + tail;
    if i == 0 {
      assert w * i + k == k;
    } else {
      var x := w * (i - 1) + k;
      FlattenAt(bs[1..], w, i - 1, k);
      assert bs[1..][i - 1] == bs[i];
      assert w * i + k == |bs[0]| + x by {
        assert w * i == w * (i - 1) + w;
      }
      assert (bs[0] + tail)[|bs[0]| + x] == tail[x];
    }
  }

  lemma {:induction false} MulBound(w: nat, i: nat, n: nat, k: nat)
    requires i < n && k < w
    ensures w * i + k < w * n
    decreases n
  {
    assert w * n == w * (n - 1) + w;
    if i < n - 1 {
      MulBound(w, i, n - 1, k);
    }
  }

  lemma {:induction false} FlattenLength<T>(bs: seq<seq<T>>, w: nat)
    requires forall j :: 0 <= j < |bs| ==> |bs[j]| == w
    ensures |Flatten(bs)| == w * |bs|
    decreases |bs|
  {
    if |bs| > 0 {
      FlattenLength(bs[1..], w);
    }
  }

  /** Some element satisfies `p`. */
  predicate Any<T>(s: seq<T>, p: T -> bool) {
    exists i :: 0 <= i < |s| && p(s[i])
  }

  lemma AnyCons<T>(s: seq<T>, p: T -> bool)
    requires |s| > 0
    ensures Any(s, p) <==> p(s[0]) || Any(s[1..], p)
  {
    if Any(s, p) && !p(s[0]) {
      var i :| 0 <= i < |s| && p(s[i]);
      assert s[1..][i - 1] == s[i];
    }
    if Any(s[1..], p) {
      var i :| 0 <= i < |s[1..]| && p(s[1..][i]);
      assert s[i + 1] == s[1..][i];
    }
  }

  lemma ConsAssoc<T>(x: T, t: seq<T>, u: seq<T>)
    ensures [x] + (t + u) == ([x] + t) + u
  {
  }

  lemma SnocAssoc<T>(d: seq<T>, x: T, t: seq<T>)
    ensures (d + [x]) + t == d + ([x] + t)
  {
  }

  lemma AppendAssoc<T>(a: seq<T>, b: seq<T>, c: seq<T>)
    ensures (a + b) + c == a + (b + c)
  {
  }

  lemma SliceAppend<T>(a: seq<T>, b: seq<T>, s: nat, e: nat)
    requires s <= e <= |a|
    ensures (a + b)[s..e] == a[s..e] && (a + b)[e..] == a[e..] + b
  {
  }

  /** A slice lying wholly in the second part of a concatenation. */
  lemma SliceAppendRight<T>(a: seq<T>, b: seq<T>, s: nat, e: nat)
    requires |a| <= s <= e <= |a| + |b|
    ensures (a + b)[s..e] == b[s - |a|..e - |a|]
  {
    forall m | 0 <= m < e - s
      ensures (a + b)[s..e][m] == b[s - |a|..e - |a|][m]
    {
      assert (a + b)[s..e][m] == (a + b)[s + m];
    }
  }

  lemma PrefixAppend<T>(a: seq<T>, b: seq<T>)
    ensures (a + b)[..|a|] == a && (a + b)[|a|..] == b
  {
  }

  lemma AppendAt<T>(a: seq<T>, b: seq<T>, i: nat)
    requires i < |a| + |b|
    ensures (a + b)[i] == if i < |a| then a[i] else b[i - |a|]
  {
  }

  /** The middle part of a three-part concatenation. */
  lemma SliceMiddle<T>(a: seq<T>, b: seq<T>, c: seq<T>)
    ensures (a + b + c)[|a|..|a| + |b|] == b
  {
    assert a + b + c == a + (b + c);
  }

  lemma SplitAt<T>(x: seq<T>, s: nat, e: nat)
    requires s <= e <= |x|
    ensures x[s..] == x[s..e] + x[e..]
  {
  }

  lemma SliceOfSlice<T>(s: seq<T>, i: nat, j: nat, k: nat, l: nat)
    requires i <= j <= |s| && k <= l <= j - i
    ensures s[i..j][k..l] == s[i + k..i + l]
  {
    forall m | 0 <= m < l - k
      ensures s[i..j][k..l][m] == s[i + k..i + l][m]
    {
      assert s[i..j][k..l][m] == s[i..j][k + m];
      assert s[i..j][k + m] == s[i + k + m];
    }
  }
}

=== FILE: soft_sync.dfy ===
/** Soft synchronisation: two streams arrive independently (an image or an
    A-mode signal on one side, a rigid-body pose on the other) and are
    paired latest-wins. The sequence-file writer keeps two optional slots;
    the two visualisers keep the last value of each stream plus a ready
    flag. Both are modelled here once, generically, and shown to pair
    exactly the same arrivals. */
module SoftSync {
  import opened Wrappers

  /** What one arrival does: the next state and the pair it completes, if any. */
  datatype Step<S, A, B> = Step(next: S, paired: Option<(A, B)>)

  /** An arrival on either stream. */
  datatype Event<A, B> = FromA(x: A) | FromB(y: B)

  // ---------------------------------------------------------------------
  // Two optional slots (`latestImage` / `latestTransform` of the writer)
  // ---------------------------------------------------------------------

  datatype Slots<A, B> = Slots(a: Option<A>, b: Option<B>)

  function Empty<A, B>(): Slots<A, B> {
    Slots(None, None)
  }

  /** An A arrives: if a B is pending the pair is formed and both slots are
      cleared, otherwise the A replaces whatever A was pending. */
  function OfferA<A, B>(s: Slots<A, B>, x: A): (r: Step<Slots<A, B>, A, B>)
    ensures r.next.a.None? || r.next.b.None?
    ensures r.paired.Some? <==> s.b.Some?
    ensures r.paired.Some? ==> r.paired.value == (x, s.b.value) && r.next == Empty()
  {
    if s.b.Some? then Step(Empty(), Some((x, s.b.value)))
    else Step(Slots(Some(x), s.b), None)
  }

  /** A B arrives: symmetric to `OfferA`. */
  function OfferB<A, B>(s: Slots<A, B>, y: B): (r: Step<Slots<A, B>, A, B>)
    ensures r.next.a.None? || r.next.b.None?
    ensures r.paired.Some? <==> s.a.Some?
    ensures r.paired.Some? ==> r.paired.value == (s.a.value, y) && r.next == Empty()
  {
    if s.a.Some? then Step(Empty(), Some((s.a.value, y)))
    else Step(Slots(s.a, Some(y)), None)
  }

  function Offer<A, B>(s: Slots<A, B>, e: Event<A, B>): Step<Slots<A, B>, A, B> {
    match e
    case FromA(x) => OfferA(s, x)
    case FromB(y) => OfferB(s, y)
  }

  /** The pairs formed, in order, when the events arrive one after another. */
  function Run<A, B>(s: Slots<A, B>, evs: seq<Event<A, B>>): seq<(A, B)>
    decreases |evs|
  {
    if |evs| == 0 then []
    else
      var st := Offer(s, evs[0]);
      (if st.paired.Some? then [st.paired.value] else []) + Run(st.next, evs[1..])
  }

  /** The slot state that holds just the event `e`. */
  function Pending<A, B>(e: Event<A, B>): Slots<A, B> {
    match e
    case FromA(x) => Slots(Some(x), None)
    case FromB(y) => Slots(None, Some(y))
  }

  // ---------------------------------------------------------------------
  // Reference: greedy pairing of adjacent arrivals
  // ---------------------------------------------------------------------

  predicate Opposite<A, B>(e: Event<A, B>, f: Event<A, B>) {
    e.FromA? != f.FromA?
  }

  function PairOf<A, B>(e: Event<A, B>, f: Event<A, B>): (A, B)
    requires Opposite(e, f)
  {
    if e.FromA? then (e.x, f.y) else (f.x, e.y)
  }

  /** Scanning the arrivals left to right, two consecutive arrivals from
      different streams form a pair and are both used up; an arrival
      followed by one from the same stream is dropped. */
  function Greedy<A, B>(evs: seq<Event<A, B>>): seq<(A, B)>
    decreases |evs|
  {
    if |evs| < 2 then []
    else if Opposite(evs[0], evs[1]) then [PairOf(evs[0], evs[1])] + Greedy(evs[2..])
    else Greedy(evs[1..])
  }

  /** Starting from empty slots, the slot machine forms exactly the greedy
      adjacent pairs: the latest value of each stream wins and older
      unpaired ones are lost. */
  lemma {:induction false} RunIsGreedy<A, B>(evs: seq<Event<A, B>>)
    ensures Run(Empty(), evs) == Greedy(evs)
    decreases |evs|, 1
  {
    if |evs| > 0 {
      assert Offer(Empty(), evs[0]) == Step(Pending(evs[0]), None);
      RunPendingIsGreedy(evs[0], evs[1..]);
      assert [evs[0]] + evs[1..] == evs;
    }
  }

  lemma {:induction false} RunPendingIsGreedy<A, B>(e: Event<A, B>, evs: seq<Event<A, B>>)
    ensures Run(Pending(e), evs) == Greedy([e] + evs)
    decreases |evs|, 0
  {
    var all := [e] + evs;
    if |evs| > 0 {
      var f := evs[0];
      assert all[0] == e && all[1] == f;
      if Opposite(e, f) {
        assert Offer(Pending(e), f) == Step(Empty(), Some(PairOf(e, f)));
        RunIsGreedy(evs[1..]);
        assert all[2..] == evs[1..];
      } else {
        assert Offer(Pending(e), f) == Step(Pending(f), None);
        RunPendingIsGreedy(f, evs[1..]);
        assert all[1..] == [f] + evs[1..];
      }
    }
  }

  /** Greedy pairing never forms more pairs than half the arrivals. */
  lemma {:induction false} GreedyBound<A, B>(evs: seq<Event<A, B>>)
    ensures 2 * |Greedy(evs)| <= |evs|
    decreases |evs|
  {
    if |evs| >= 2 {
      if Opposite(evs[0], evs[1]) {
        GreedyBound(evs[2..]);
      } else {
        GreedyBound(evs[1..]);
      }
    }
  }

  /** Arrivals that alternate between the streams are all paired. */
  lemma {:induction false} AlternatingAllPaired<A, B>(xs: seq<A>, ys: seq<B>)
    requires |xs| == |ys|
    ensures Greedy(Interleave(xs, ys)) == Zip(xs, ys)
    decreases |xs|
  {
    if |xs| > 0 {
      var evs := Interleave(xs, ys);
      assert evs[2..] == Interleave(xs[1..], ys[1..]);
      AlternatingAllPaired(xs[1..], ys[1..]);
    }
  }

  function Interleave<A, B>(xs: seq<A>, ys: seq<B>): (evs: seq<Event<A, B>>)
    requires |xs| == |ys|
    ensures |evs| == 2 * |xs|
  {
    if |xs| == 0 then [] else [FromA(xs[0]), FromB(ys[0])] + Interleave(xs[1..], ys[1..])
  }

  function Zip<A, B>(xs: seq<A>, ys: seq<B>): seq<(A, B)>
    requires |xs| == |ys|
  {
    if |xs| == 0 then [] else [(xs[0], ys[0])] + Zip(xs[1..], ys[1..])
  }

  // ---------------------------------------------------------------------
  // Values with ready flags (the two visualisers)
  // ---------------------------------------------------------------------

  /** The last value of each stream and whether it is still waiting for its
      partner (`amodesignalReady`/`imageReady`, `rigidbodyReady`). */
  datatype Flags<A, B> = Flags(a: A, b: B, aReady: bool, bReady: bool)

  /** Visualisation clears both flags before anything else; the values stay. */
  function Fire<A, B>(f: Flags<A, B>): (r: Flags<A, B>)
    ensures !r.aReady && !r.bReady && r.a == f.a && r.b == f.b
  {
    f.(aReady := false, bReady := false)
  }

  /** An A arrives: it overwrites the stored A and sets its flag; if the B
      flag is already set the pair is visualised. */
  function FlagOfferA<A, B>(f: Flags<A, B>, x: A): (r: Step<Flags<A, B>, A, B>)
    ensures r.next.a == x && r.next.b == f.b
    ensures r.paired.Some? <==> f.bReady
    ensures r.paired.Some? ==> r.paired.value == (x, f.b)
  {
    var g := f.(a := x, aReady := true);
    if g.bReady then Step(Fire(g), Some((g.a, g.b))) else Step(g, None)
  }

  /** A B arrives: symmetric to `FlagOfferA`. */
  function FlagOfferB<A, B>(f: Flags<A, B>, y: B): (r: Step<Flags<A, B>, A, B>)
    ensures r.next.b == y && r.next.a == f.a
    ensures r.paired.Some? <==> f.aReady
    ensures r.paired.Some? ==> r.paired.value == (f.a, y)
  {
    var g := f.(b := y, bReady := true);
    if g.aReady then Step(Fire(g), Some((g.a, g.b))) else Step(g, None)
  }

  function FlagOffer<A, B>(f: Flags<A, B>, e: Event<A, B>): Step<Flags<A, B>, A, B> {
    match e
    case FromA(x) => FlagOfferA(f, x)
    case FromB(y) => FlagOfferB(f, y)
  }

  function FlagRun<A, B>(f: Flags<A, B>, evs: seq<Event<A, B>>): seq<(A, B)>
    decreases |evs|
  {
    if |evs| == 0 then []
    else
      var st := FlagOffer(f, evs[0]);
      (if st.paired.Some? then [st.paired.value] else []) + FlagRun(st.next, evs[1..])
  }

  /** The slots a flag state stands for: a value counts only while its flag is set. */
  function Abs<A, B>(f: Flags<A, B>): Slots<A, B> {
    Slots(if f.aReady then Some(f.a) else None, if f.bReady then Some(f.b) else None)
  }

  /** Each flag transition does what the slot transition does on the
      abstracted state, and forms the same pair. */
  lemma FlagsRefineSlots<A, B>(f: Flags<A, B>, e: Event<A, B>)
    ensures Abs(FlagOffer(f, e).next) == Offer(Abs(f), e).next
    ensures FlagOffer(f, e).paired == Offer(Abs(f), e).paired
  {
  }

  /** Hence the flag machine pairs the same arrivals as the slot machine,
      and from cleared flags it forms exactly the greedy adjacent pairs. */
  lemma {:induction false} FlagRunRefines<A, B>(f: Flags<A, B>, evs: seq<Event<A, B>>)
    ensures FlagRun(f, evs) == Run(Abs(f), evs)
    decreases |evs|
  {
    if |evs| > 0 {
      FlagsRefineSlots(f, evs[0]);
      FlagRunRefines(FlagOffer(f, evs[0]).next, evs[1..]);
    }
  }

  lemma FlagRunIsGreedy<A, B>(a: A, b: B, evs: seq<Event<A, B>>)
    ensures FlagRun(Flags(a, b, false, false), evs) == Greedy(evs)
  {
    FlagRunRefines(Flags(a, b, false, false), evs);
    assert Abs(Flags(a, b, false, false)) == Empty();
    RunIsGreedy(evs);
  }
}

=== FILE: string_order.dfy ===
/** `std::string`'s `operator<`: lexicographic comparison of the character
    codes, a proper prefix ordered first. `std::set<std::string>` keeps its
    elements in this order, so the sorted lists of names below use it. */
module StringOrder {

  predicate Less(a: string, b: string)
    decreases |a|
  {
    |b| > 0 && (|a| == 0 || a[0] < b[0] || (a[0] == b[0] && Less(a[1..], b[1..])))
  }

  lemma {:induction false} LessIrreflexive(a: string)
    ensures !Less(a, a)
    decreases |a|
  {
    if |a| > 0 {
      LessIrreflexive(a[1..]);
    }
  }

  lemma {:induction false} LessTransitive(a: string, b: string, c: string)
    requires Less(a, b) && Less(b, c)
    ensures Less(a, c)
    decreases |a|
  {
    if |a| > 0 && a[0] == b[0] && b[0] == c[0] {
      LessTransitive(a[1..], b[1..], c[1..]);
    }
  }

  /** Two different strings are ordered one way or the other. */
  lemma {:induction false} LessTotal(a: string, b: string)
    requires a != b
    ensures Less(a, b) || Less(b, a)
    decreases |a|
  {
    if |a| > 0 && |b| > 0 && a[0] == b[0] {
      assert a == [a[0]] + a[1..] && b == [b[0]] + b[1..];
      LessTotal(a[1..], b[1..]);
    }
  }

  /** Strictly increasing: sorted and without repeats. */
  predicate Increasing(s: seq<string>) {
    forall i, j :: 0 <= i < j < |s| ==> Less(s[i], s[j])
  }

  /** `std::set::insert` on the set's sorted contents: the string goes to its
      place, and nothing happens when it is already there. */
  function InsertSorted(s: seq<string>, x: string): (r: seq<string>)
    requires Increasing(s)
    ensures Increasing(r)
    ensures forall y :: y in r <==> y in s || y == x
    decreases |s|
  {
    if |s| == 0 then [x]
    else if x == s[0] then s
    else if Less(x, s[0]) then
      LessAfterHead(s, x);
      [x] + s
    else
      LessTotal(x, s[0]);
      var t := InsertSorted(s[1..], x);
      assert forall i :: 0 <= i < |t| ==> Less(s[0], t[i]) by {
        forall i | 0 <= i < |t|
          ensures Less(s[0], t[i])
        {
          if t[i] != x {
            assert t[i] in t;
            var k :| 0 <= k < |s[1..]| && s[1..][k] == t[i];
            assert s[k + 1] == t[i];
          }
        }
      }
      [s[0]] + t
  }

  lemma LessAfterHead(s: seq<string>, x: string)
    requires Increasing(s) && |s| > 0 && Less(x, s[0])
    ensures forall i :: 0 <= i < |s| ==> Less(x, s[i])
  {
    forall i | 0 < i < |s|
      ensures Less(x, s[i])
    {
      LessTransitive(x, s[0], s[i]);
    }
  }

  /** Two increasing lists with the same elements are the same list. */
  lemma {:induction false} IncreasingUnique(s: seq<string>, t: seq<string>)
    requires Increasing(s) && Increasing(t)
    requires forall y :: y in s <==> y in t
    ensures s == t
    decreases |s|
  {
    if |s| == 0 || |t| == 0 {
      HeadIn(s);
      HeadIn(t);
    } else {
      HeadsEqual(s, t);
      forall y
        ensures y in s[1..] <==> y in t[1..]
      {
        ElementsAfterHead(s, y);
        ElementsAfterHead(t, y);
      }
      IncreasingUnique(s[1..], t[1..]);
      assert s == [s[0]] + s[1..] && t == [t[0]] + t[1..];
    }
  }

  /** The order is asymmetric. */
  lemma {:induction false} LessAsymmetric(a: string, b: string)
    requires Less(a, b)
    ensures !Less(b, a)
    decreases |a|
  {
    if |a| > 0 && a[0] == b[0] {
      LessAsymmetric(a[1..], b[1..]);
    }
  }

  lemma LessNotBoth(a: string, b: string)
    ensures !(Less(a, b) && Less(b, a))
  {
    if Less(a, b) {
      LessAsymmetric(a, b);
    }
  }

  lemma HeadIn(s: seq<string>)
    ensures |s| > 0 ==> s[0] in s
  {
  }

  /** Every later element of an increasing list is above its head. */
  lemma AboveHead(s: seq<string>, k: nat)
    requires Increasing(s) && k < |s|
    ensures k == 0 || Less(s[0], s[k])
  {
  }

  /** Both lists start with their least element. */
  lemma HeadsEqual(s: seq<string>, t: seq<string>)
    requires Increasing(s) && Increasing(t) && |s| > 0 && |t| > 0
    requires forall y :: y in s <==> y in t
    ensures s[0] == t[0]
  {
    assert s[0] in t && t[0] in s;
    var j :| 0 <= j < |t| && t[j] == s[0];
    var k :| 0 <= k < |s| && s[k] == t[0];
    AboveHead(t, j);
    AboveHead(s, k);
    LessNotBoth(s[0], t[0]);
  }

  lemma ElementsAfterHead(s: seq<string>, y: string)
    requires Increasing(s) && |s| > 0
    ensures y in s[1..] <==> y in s && y != s[0]
  {
    if y in s[1..] {
      var k :| 0 <= k < |s[1..]| && s[1..][k] == y;
      assert Less(s[0], s[k + 1]);
      if y == s[0] {
        LessIrreflexive(y);
      }
    }
    if y in s && y != s[0] {
      var k :| 0 <= k < |s| && s[k] == y;
      assert s[1..][k - 1] == y;
    }
  }
}

=== FILE: text.dfy ===
/** Character-level text handling shared by the header reader, the header
    writer and the probe configuration table: C-locale whitespace, trimming,
    `std::getline` splitting, decimal formatting as `operator<<` prints an
    integer, and the number parsing of `std::stoi`, `std::stod` and
    `std::istream_iterator`. */
module Text {
  import opened Wrappers

  /** The characters `std::isspace` accepts in the C locale (" \t\n\r\f\v"). */
  predicate IsSpace(c: char) {
    c == ' ' || c == '\t' || c == '\n' || c == '\r' || c as int == 12 || c as int == 11
  }

  predicate IsDigit(c: char) {
    '0' <= c <= '9'
  }

  predicate AllSpace(s: string) {
    forall i :: 0 <= i < |s| ==> IsSpace(s[i])
  }

  predicate AllDigits(s: string) {
    forall i :: 0 <= i < |s| ==> IsDigit(s[i])
  }

  predicate StartsWith(s: string, p: string) {
    |p| <= |s| && s[..|p|] == p
  }

  predicate EndsWith(s: string, p: string) {
    |p| <= |s| && s[|s| - |p|..] == p
  }

  /** `s.erase(s.find_last_not_of(ws) + 1)`: drops trailing whitespace only. */
  function TrimRight(s: string): (r: string)
    ensures |r| <= |s| && r == s[..|r|]
    ensures AllSpace(s[|r|..])
    ensures |r| == 0 || !IsSpace(r[|r| - 1])
    decreases |s|
  {
    if |s| > 0 && IsSpace(s[|s| - 1]) then TrimRight(s[..|s| - 1]) else s
  }

  /** `s.erase(0, s.find_first_not_of(ws))`: drops leading whitespace only. */
  function TrimLeft(s: string): (r: string)
    ensures |r| <= |s| && r == s[|s| - |r|..]
    ensures AllSpace(s[..|s| - |r|])
    ensures |r| == 0 || !IsSpace(r[0])
    decreases |s|
  {
    if |s| > 0 && IsSpace(s[0]) then
      var r := TrimLeft(s[1..]);
      TrimLeftStep(s, r);
      r
    else s
  }

  /** One more leading space keeps the trimmed text a suffix after spaces. */
  lemma TrimLeftStep(s: string, r: string)
    requires |s| > 0 && IsSpace(s[0]) && |r| <= |s| - 1
    requires r == s[1..][|s| - 1 - |r|..] && AllSpace(s[1..][..|s| - 1 - |r|])
    ensures r == s[|s| - |r|..] && AllSpace(s[..|s| - |r|])
  {
    var k := |s| - |r|;
    assert s[1..][k - 1..] == s[k..];
    assert forall i :: 1 <= i < k ==> s[..k][i] == s[1..][..k - 1][i - 1];
  }

  /** Position of the first occurrence of `c` in `s` (`std::string::find`). */
  function IndexOf(s: string, c: char): (r: Option<nat>)
    ensures r.None? ==> c !in s
    ensures r.Some? ==> r.value < |s| && s[r.value] == c && c !in s[..r.value]
  {
    if |s| == 0 then None
    else if s[0] == c then Some(0)
    else match IndexOf(s[1..], c)
      case None => None
      case Some(i) => Some(i + 1)
  }

  /** Any occurrence with no earlier one is the one `IndexOf` finds. */
  lemma IndexOfFirst(s: string, c: char)
    ensures forall p :: 0 <= p < |s| && s[p] == c && c !in s[..p] ==> IndexOf(s, c) == Some(p)
  {
  }

  /** `pat` occurs in `s` starting at position q. */
  predicate OccursAt(s: string, pat: string, q: nat) {
    q + |pat| <= |s| && s[q..q + |pat|] == pat
  }

  /** `s.find(pat, from)`: the first occurrence at or after `from`. */
  function FindFrom(s: string, pat: string, from: nat): (r: Option<nat>)
    requires from <= |s|
    ensures r.Some? ==> from <= r.value && OccursAt(s, pat, r.value)
    ensures r.Some? ==> forall q :: from <= q < r.value ==> !OccursAt(s, pat, q)
    ensures r.None? ==> forall q :: from <= q ==> !OccursAt(s, pat, q)
    decreases |s| - from
  {
    if OccursAt(s, pat, from) then Some(from)
    else if from == |s| then None
    else FindFrom(s, pat, from + 1)
  }

  /** `s.find(pat)`. */
  function Find(s: string, pat: string): (r: Option<nat>)
    ensures r.Some? ==> OccursAt(s, pat, r.value) && forall q: nat :: q < r.value ==> !OccursAt(s, pat, q)
    ensures r.None? ==> forall q: nat :: !OccursAt(s, pat, q)
  {
    FindFrom(s, pat, 0)
  }

  /** A pattern whose first character `s` lacks does not occur in `s`. */
  lemma FirstCharAbsent(s: string, pat: string)
    requires |pat| > 0 && pat[0] !in s
    ensures Find(s, pat).None?
  {
    forall q: nat
      ensures !OccursAt(s, pat, q)
    {
      if q + |pat| <= |s| {
        assert s[q..q + |pat|][0] == s[q];
      }
    }
  }

  /** An occurrence with none before it is what `Find` returns. */
  lemma FindFirst(s: string, pat: string, k: nat)
    requires OccursAt(s, pat, k) && forall q: nat :: q < k ==> !OccursAt(s, pat, q)
    ensures Find(s, pat) == Some(k)
  {
  }

  /** The pieces successive `std::getline(stream, piece, d)` calls return:
      a final delimiter does not open an empty last piece, and empty text
      gives no piece at all. */
  function Split(s: string, d: char): (r: seq<string>)
    ensures forall i :: 0 <= i < |r| ==> d !in r[i]
    decreases |s|
  {
    if |s| == 0 then []
    else match IndexOf(s, d)
      case None => [s]
      case Some(i) => [s[..i]] + Split(s[i + 1..], d)
  }

  /** Every piece followed by the delimiter, as `<< piece << std::endl` writes lines. */
  function JoinTerminated(pieces: seq<string>, d: char): string {
    if |pieces| == 0 then [] else pieces[0] + [d] + JoinTerminated(pieces[1..], d)
  }

  function Lines(s: string): seq<string> {
    Split(s, '\n')
  }

  lemma JoinTerminatedAppend(a: seq<string>, b: seq<string>, d: char)
    ensures JoinTerminated(a + b, d) == JoinTerminated(a, d) + JoinTerminated(b, d)
  {
    if |a| > 0 {
      assert (a + b)[0] == a[0];
      assert (a + b)[1..] == a[1..] + b;
      JoinTerminatedAppend(a[1..], b, d);
      calc {
        JoinTerminated(a + b, d);
        a[0] + [d] + JoinTerminated(a[1..] + b, d);
        a[0] + [d] + (JoinTerminated(a[1..], d) + JoinTerminated(b, d));
        (a[0] + [d] + JoinTerminated(a[1..], d)) + JoinTerminated(b, d);
      }
    } else {
      assert a + b == b;
    }
  }

  /** Splitting what was joined gives back the pieces. */
  lemma {:induction false} SplitJoinTerminated(pieces: seq<string>, d: char)
    requires forall i :: 0 <= i < |pieces| ==> d !in pieces[i]
    ensures Split(JoinTerminated(pieces, d), d) == pieces
  {
    if |pieces| > 0 {
      var s := JoinTerminated(pieces, d);
      var p := pieces[0];
      assert s == p + [d] + JoinTerminated(pieces[1..], d);
      IndexOfAfter(p, [d] + JoinTerminated(pieces[1..], d), d);
      assert p + ([d] + JoinTerminated(pieces[1..], d)) == s;
      assert s[..|p|] == p;
      assert s[|p| + 1..] == JoinTerminated(pieces[1..], d);
      assert Split(s, d) == [p] + Split(JoinTerminated(pieces[1..], d), d);
      SplitJoinTerminated(pieces[1..], d);
      assert pieces == [p] + pieces[1..];
    }
  }

  /** A character absent from `p` is first found where the text after `p` starts with it. */
  lemma IndexOfAfter(p: string, rest: string, c: char)
    requires c !in p && |rest| > 0 && rest[0] == c
    ensures IndexOf(p + rest, c) == Some(|p|)
  {
    if |p| > 0 {
      assert (p + rest)[1..] == p[1..] + rest;
      IndexOfAfter(p[1..], rest, c);
    }
  }

  // ---------------------------------------------------------------------
  // Integer formatting (`operator<<` on int and size_t, `std::setw`)
  // ---------------------------------------------------------------------

  function DigitChar(d: nat): (c: char)
    requires d < 10
    ensures IsDigit(c)
  {
    ('0' as int + d) as char
  }

  function DigitValue(c: char): nat
    requires IsDigit(c)
  {
    c as int - '0' as int
  }

  /** Decimal digits of `n`, most significant first, no leading zero. */
  function FmtNat(n: nat): (r: string)
    ensures |r| >= 1 && AllDigits(r)
  {
    if n < 10 then [DigitChar(n)] else FmtNat(n / 10) + [DigitChar(n % 10)]
  }

  function FmtInt(x: int): (r: string)
    ensures |r| >= 1 && !IsSpace(r[0])
  {
    if x < 0 then "-" + FmtNat(-x) else FmtNat(x)
  }

  /** A printed int is a minus sign and digits only. */
  lemma FmtIntDigits(x: int)
    ensures forall i :: 0 <= i < |FmtInt(x)| ==> IsDigit(FmtInt(x)[i]) || FmtInt(x)[i] == '-'
  {
  }

  /** `std::setfill('0') << std::setw(4) << n`: at least four digits, zero padded. */
  function Pad4(n: nat): (r: string)
    ensures |r| >= 4 && AllDigits(r)
  {
    var s := FmtNat(n);
    if |s| < 4 then seq(4 - |s|, _ => '0') + s else s
  }

  /** Values joined by single spaces, as the header writer prints a vector. */
  function SpaceJoin(xs: seq<int>): (r: string)
    ensures '=' !in r && '\n' !in r
    ensures |xs| > 0 ==> |r| > 0 && !IsSpace(r[0])
  {
    if |xs| == 0 then []
    else if |xs| == 1 then FmtInt(xs[0])
    else FmtInt(xs[0]) + " " + SpaceJoin(xs[1..])
  }

  // ---------------------------------------------------------------------
  // Number parsing
  // ---------------------------------------------------------------------

  /** Length of the run of digits `s` starts with. */
  function DigitRun(s: string): (n: nat)
    ensures n <= |s| && AllDigits(s[..n])
    ensures n < |s| ==> !IsDigit(s[n])
  {
    if |s| > 0 && IsDigit(s[0]) then 1 + DigitRun(s[1..]) else 0
  }

  /** The value of a digit string read most significant digit first. */
  function DigitsValue(s: string): nat
    requires AllDigits(s)
  {
    if |s| == 0 then 0 else DigitsValue(s[..|s| - 1]) * 10 + DigitValue(s[|s| - 1])
  }


  /** One extraction `stream >> i` for an int once whitespace is skipped:
      an optional sign and at least one digit; the text after the digits
      is left for the next extraction. The `int` range is checked by the
      callers that extract into an `int`. */
  function ScanInt(s: string): (r: Option<(int, string)>)
    ensures r.Some? ==> |r.value.1| < |s|
  {
    var neg := |s| > 0 && s[0] == '-';
    var start := if |s| > 0 && (s[0] == '-' || s[0] == '+') then 1 else 0;
    match ScanUnsignedInt(s[start..])
    case None => None
    case Some((v, rest)) => Some((if neg then -(v as int) else v as int, rest))
  }

  /** The unsigned part of an int: at least one digit. */
  function ScanUnsignedInt(t: string): (r: Option<(nat, string)>)
    ensures r.Some? ==> |r.value.1| < |t|
  {
    var n := DigitRun(t);
    if n == 0 then None else Some((DigitsValue(t[..n]), t[n..]))
  }

  /** One extraction `stream >> x` for a double once whitespace is skipped:
      optional sign, digits, an optional '.' and more digits, at least one
      digit in all. Exponents, `inf` and `nan` are not modelled. */
  function ScanDecimal(s: string): (r: Option<(real, string)>)
    ensures r.Some? ==> |r.value.1| < |s|
  {
    var neg := |s| > 0 && s[0] == '-';
    var start := if |s| > 0 && (s[0] == '-' || s[0] == '+') then 1 else 0;
    match ScanUnsignedDecimal(s[start..])
    case None => None
    case Some((v, rest)) => Some((if neg then -v else v, rest))
  }

  /** The unsigned part of a double: digits, then optionally '.' and digits. */
  function ScanUnsignedDecimal(t: string): (r: Option<(real, string)>)
    ensures r.Some? ==> |r.value.1| < |t|
  {
    var n := DigitRun(t);
    var whole := DigitsValue(t[..n]);
    if n < |t| && t[n] == '.' then
      var u := t[n + 1..];
      var m := DigitRun(u);
      if n + m == 0 then None
      else Some((whole as real + FracValue(u[..m]), u[m..]))
    else if n == 0 then None
    else Some((whole as real, t[n..]))
  }

  /** The value of the digits after a decimal point, `0.d₁d₂…`, read from
      the last digit inwards: `(d₁ + 0.d₂…) / 10`. */
  function FracValue(ds: string): (v: real)
    requires AllDigits(ds)
    ensures 0.0 <= v <= 1.0
    decreases |ds|
  {
    if |ds| == 0 then 0.0 else (DigitValue(ds[0]) as real + FracValue(ds[1..])) / 10.0
  }

  /** `std::vector<int>(std::istream_iterator<int>(iss), {})`: the longest run
      of ints that extract one after another. An extraction whose digits fall
      outside `int` sets the stream's failbit, which ends the run without
      that value. */
  function ReadInts(s: string): seq<int>
    decreases |s|
  {
    var t := TrimLeft(s);
    match ScanInt(t)
    case None => []
    case Some((v, rest)) => if InInt(v) then [v] + ReadInts(rest) else []
  }

  /** Every int read fits an `int`. */
  lemma {:induction false} ReadIntsInInt(s: string)
    ensures AllInInt(ReadInts(s))
    decreases |s|
  {
    match ScanInt(TrimLeft(s))
    case None =>
    case Some((v, rest)) =>
      if InInt(v) {
        ReadIntsInInt(rest);
        AllInIntCons(v, ReadInts(rest));
      }
  }

  lemma AllInIntTail(xs: seq<int>)
    requires |xs| > 0 && AllInInt(xs)
    ensures AllInInt(xs[1..])
  {
    assert forall k :: 0 <= k < |xs| - 1 ==> xs[1..][k] == xs[k + 1];
  }

  lemma AllInIntCons(v: int, t: seq<int>)
    requires InInt(v) && AllInInt(t)
    ensures AllInInt([v] + t)
  {
    assert forall k :: 1 <= k < |t| + 1 ==> ([v] + t)[k] == t[k - 1];
  }

  /** The same with `std::istream_iterator<double>`. */
  function ReadDecimals(s: string): seq<real>
    decreases |s|
  {
    var t := TrimLeft(s);
    match ScanDecimal(t)
    case None => []
    case Some((v, rest)) => [v] + ReadDecimals(rest)
  }

  /** The range of a 32-bit C++ `int`. */
  predicate InInt(x: int) {
    -0x8000_0000 <= x <= 0x7fff_ffff
  }

  /** Every entry fits an `int`. */
  predicate AllInInt(xs: seq<int>) {
    forall k :: 0 <= k < |xs| ==> InInt(xs[k])
  }

  /** `std::stoi`: `None` where it throws, with `std::invalid_argument`
      when no digits start the text and with `std::out_of_range` when the
      digits read fall outside `int`. */
  function Stoi(s: string): (r: Option<int>)
    ensures r.Some? ==> InInt(r.value)
    ensures r.Some? <==> ScanInt(TrimLeft(s)).Some? && InInt(ScanInt(TrimLeft(s)).value.0)
  {
    match ScanInt(TrimLeft(s))
    case None => None
    case Some((v, _)) => if InInt(v) then Some(v) else None
  }

  /** `std::stod`: `None` where it throws `std::invalid_argument`. */
  function Stod(s: string): Option<real> {
    match ScanDecimal(TrimLeft(s))
    case None => None
    case Some((v, _)) => Some(v)
  }

  // ---------------------------------------------------------------------
  // Formatting and parsing are inverse
  // ---------------------------------------------------------------------

  lemma {:induction false} DigitsValueFmtNat(n: nat)
    ensures DigitsValue(FmtNat(n)) == n
  {
    if n >= 10 {
      var s := FmtNat(n);
      assert s[..|s| - 1] == FmtNat(n / 10);
      DigitsValueFmtNat(n / 10);
    }
  }

  /** The digit run of `t = d + rest` is `d`, when `rest` does not go on
      with a digit. */
  lemma {:induction false} DigitRunPrefix(t: string, d: string, rest: string)
    requires t == d + rest && AllDigits(d)
    requires |rest| == 0 || !IsDigit(rest[0])
    ensures DigitRun(t) == |d|
    decreases |d|
  {
    if |d| > 0 {
      DigitRunPrefix(t[1..], d[1..], rest);
    }
  }

  /** A digit run before a non-digit is the unsigned part of an int. */
  lemma ScanIntDigits(t: string, d: string, rest: string)
    requires t == d + rest && AllDigits(d) && |d| > 0
    requires |rest| == 0 || !IsDigit(rest[0])
    ensures ScanUnsignedInt(t) == Some((DigitsValue(d), rest))
  {
    DigitRunPrefix(t, d, rest);
    assert t[..|d|] == d && t[|d|..] == rest;
  }

  /** Without a sign, an int is its unsigned part. */
  lemma ScanIntPlain(t: string, v: nat, rest: string)
    requires |t| > 0 && IsDigit(t[0])
    requires ScanUnsignedInt(t) == Some((v, rest))
    ensures ScanInt(t) == Some((v, rest))
  {
  }

  /** A minus before a number negates it. */
  lemma ScanIntMinus(s: string, v: nat, rest: string)
    requires |s| > 1 && s[0] == '-' && IsDigit(s[1])
    requires ScanUnsignedInt(s[1..]) == Some((v, rest))
    ensures ScanInt(s) == Some((-(v as int), rest))
  {
  }

  /** An int printed and followed by a non-digit is read back exactly. */
  lemma ScanIntFmt(s: string, x: int, rest: string)
    requires s == FmtInt(x) + rest
    requires |rest| == 0 || !IsDigit(rest[0])
    ensures ScanInt(s) == Some((x, rest))
  {
    if x < 0 {
      NegativeText(x, s, rest);
      ScanNatFmt(s[1..], -x, rest);
      ScanIntMinus(s, -x, rest);
    } else {
      ScanNatFmt(s, x, rest);
      ScanIntPlain(s, x, rest);
    }
  }

  /** Printed digits before a non-digit are the unsigned part of their value. */
  lemma ScanNatFmt(t: string, n: nat, rest: string)
    requires t == FmtNat(n) + rest
    requires |rest| == 0 || !IsDigit(rest[0])
    ensures |t| > 0 && IsDigit(t[0]) && ScanUnsignedInt(t) == Some((n, rest))
  {
    ScanIntDigits(t, FmtNat(n), rest);
    DigitsValueFmtNat(n);
  }

  /** The same printed int read as a double gives the same value. */
  lemma ScanDecimalFmt(x: int, rest: string)
    requires |rest| == 0 || (!IsDigit(rest[0]) && rest[0] != '.')
    ensures ScanDecimal(FmtInt(x) + rest) == Some((x as real, rest))
  {
    if x < 0 {
      ScanDecimalFmtNegative(x, FmtInt(x) + rest, rest);
    } else {
      ScanDecimalFmtNatural(x, FmtInt(x) + rest, rest);
    }
  }

  lemma ScanDecimalFmtNegative(x: int, s: string, rest: string)
    requires x < 0 && s == FmtInt(x) + rest
    requires |rest| == 0 || (!IsDigit(rest[0]) && rest[0] != '.')
    ensures ScanDecimal(s) == Some((x as real, rest))
  {
    NegativeText(x, s, rest);
    ScanUnsignedDecimalFmt(s[1..], -x, rest);
    ScanDecimalMinus(s, -x as real, rest);
  }

  /** A negative number prints as a minus, then its magnitude. */
  lemma NegativeText(x: int, s: string, rest: string)
    requires x < 0 && s == FmtInt(x) + rest
    ensures |s| > 1 && s[0] == '-' && IsDigit(s[1]) && s[1..] == FmtNat(-x) + rest
  {
    assert s == "-" + (FmtNat(-x) + rest);
  }

  lemma ScanDecimalFmtNatural(x: int, s: string, rest: string)
    requires x >= 0 && s == FmtInt(x) + rest
    requires |rest| == 0 || (!IsDigit(rest[0]) && rest[0] != '.')
    ensures ScanDecimal(s) == Some((x as real, rest))
  {
    ScanUnsignedDecimalFmt(s, x, rest);
    ScanDecimalPlain(s, x as real, rest);
  }

  /** Without a sign, a number is its unsigned part. */
  lemma ScanDecimalPlain(t: string, v: real, rest: string)
    requires |t| > 0 && IsDigit(t[0])
    requires ScanUnsignedDecimal(t) == Some((v, rest))
    ensures ScanDecimal(t) == Some((v, rest))
  {
  }

  /** A minus before a number negates it. */
  lemma ScanDecimalMinus(s: string, v: real, rest: string)
    requires |s| > 1 && s[0] == '-' && IsDigit(s[1])
    requires ScanUnsignedDecimal(s[1..]) == Some((v, rest))
    ensures ScanDecimal(s) == Some((-v, rest))
  {
  }

  /** A printed natural before a non-digit that is not a point. */
  lemma ScanUnsignedDecimalFmt(t: string, n: nat, rest: string)
    requires t == FmtNat(n) + rest
    requires |rest| == 0 || (!IsDigit(rest[0]) && rest[0] != '.')
    ensures ScanUnsignedDecimal(t) == Some((n as real, rest))
  {
    var d := FmtNat(n);
    DigitRunPrefix(t, d, rest);
    assert t[..|d|] == d && t[|d|..] == rest;
    DigitsValueFmtNat(n);
  }

  /** One unfolding of `ReadInts`. */
  lemma ReadIntsStep(s: string, v: int, rest: string)
    requires ScanInt(TrimLeft(s)) == Some((v, rest)) && InInt(v)
    ensures ReadInts(s) == [v] + ReadInts(rest)
  {
  }

  lemma ReadDecimalsStep(s: string, v: real, rest: string)
    requires ScanDecimal(TrimLeft(s)) == Some((v, rest))
    ensures ReadDecimals(s) == [v] + ReadDecimals(rest)
  {
  }

  lemma ReadIntsEmpty()
    ensures ReadInts([]) == []
  {
    assert ScanInt([]) == None;
  }

  lemma ReadDecimalsEmpty()
    ensures ReadDecimals([]) == []
  {
    assert ScanDecimal([]) == None;
  }

  lemma TrimLeftNoSpace(s: string)
    requires |s| == 0 || !IsSpace(s[0])
    ensures TrimLeft(s) == s
  {
  }

  /** One trailing space is dropped. */
  lemma TrimRightSpace(s: string)
    requires |s| == 0 || !IsSpace(s[|s| - 1])
    ensures TrimRight(s + " ") == s
  {
    assert (s + " ")[..|s|] == s;
  }

  /** One leading space is skipped. */
  lemma TrimLeftSpace(s: string)
    requires |s| == 0 || !IsSpace(s[0])
    ensures TrimLeft(" " + s) == s
  {
    assert (" " + s)[1..] == s;
    TrimLeftNoSpace(s);
  }

  /** A printed int, then text that opens with a space or is empty: the int
      is extracted and the rest is read on. */
  lemma ReadIntsFmt(s: string, x: int, rest: string)
    requires s == FmtInt(x) + rest && (|rest| == 0 || rest[0] == ' ') && InInt(x)
    ensures ReadInts(s) == [x] + ReadInts(rest)
  {
    assert s[0] == FmtInt(x)[0];
    TrimLeftNoSpace(s);
    ScanIntFmt(s, x, rest);
    ReadIntsStep(s, x, rest);
  }

  lemma ReadDecimalsFmt(s: string, x: int, rest: string)
    requires s == FmtInt(x) + rest && (|rest| == 0 || rest[0] == ' ')
    ensures ReadDecimals(s) == [x as real] + ReadDecimals(rest)
  {
    assert s[0] == FmtInt(x)[0];
    TrimLeftNoSpace(s);
    ScanDecimalFmt(x, rest);
    ReadDecimalsStep(s, x as real, rest);
  }

  /** The text after the first printed value of a vector of several. */
  lemma SpaceJoinCons(xs: seq<int>)
    requires |xs| > 1
    ensures SpaceJoin(xs) == FmtInt(xs[0]) + (" " + SpaceJoin(xs[1..]))
  {
    Assoc3(FmtInt(xs[0]), " ", SpaceJoin(xs[1..]));
  }

  lemma Assoc3(a: string, b: string, c: string)
    ensures a + b + c == a + (b + c)
  {
  }

  /** `istream_iterator<int>` over a printed vector yields the vector. */
  lemma {:induction false} ReadIntsSpaceJoin(xs: seq<int>)
    requires AllInInt(xs)
    ensures ReadInts(SpaceJoin(xs)) == xs
  {
    if |xs| > 1 {
      assert InInt(xs[0]);
      AllInIntTail(xs);
      ReadIntsJoinStep(xs);
      ReadIntsSpaceJoin(xs[1..]);
      ConsBack(xs, ReadInts(SpaceJoin(xs[1..])));
    } else {
      ReadIntsShort(xs);
    }
  }

  lemma ReadIntsShort(xs: seq<int>)
    requires |xs| <= 1 && AllInInt(xs)
    ensures ReadInts(SpaceJoin(xs)) == xs
  {
    if |xs| == 0 {
      ReadIntsEmpty();
    } else {
      ReadIntsSingle(xs);
    }
  }

  /** A sequence is its head before its tail. */
  lemma ConsBack<T>(xs: seq<T>, ys: seq<T>)
    requires |xs| > 0 && ys == xs[1..]
    ensures [xs[0]] + ys == xs
  {
  }

  /** The first printed int of a longer vector is read, then the rest. */
  lemma ReadIntsJoinStep(xs: seq<int>)
    requires |xs| > 1 && InInt(xs[0])
    ensures ReadInts(SpaceJoin(xs)) == [xs[0]] + ReadInts(SpaceJoin(xs[1..]))
  {
    var rest := SpaceJoin(xs[1..]);
    SpaceJoinCons(xs);
    ReadIntsFmt(SpaceJoin(xs), xs[0], " " + rest);
    ReadIntsSpaced(rest);
  }

  lemma ReadIntsSingle(xs: seq<int>)
    requires |xs| == 1 && InInt(xs[0])
    ensures ReadInts(SpaceJoin(xs)) == xs
  {
    var x := xs[0];
    assert xs == [x];
    ReadIntsOne(x);
  }

  /** A single printed int reads back as itself. */
  lemma ReadIntsOne(x: int)
    requires InInt(x)
    ensures ReadInts(FmtInt(x)) == [x]
  {
    var s := FmtInt(x);
    assert s == FmtInt(x) + [];
    ReadIntsFmt(s, x, []);
    ReadIntsEmpty();
  }

  lemma ReadDecimalsSingle(xs: seq<int>)
    requires |xs| == 1
    ensures ReadDecimals(SpaceJoin(xs)) == AsReals(xs)
  {
    var s := SpaceJoin(xs);
    assert s == FmtInt(xs[0]) + [];
    ReadDecimalsFmt(s, xs[0], []);
    ReadDecimalsEmpty();
    assert ReadDecimals(s) == [xs[0] as real] + [];
  }

  /** A space before the text is skipped. */
  lemma ReadIntsSpaced(s: string)
    requires |s| == 0 || !IsSpace(s[0])
    ensures ReadInts(" " + s) == ReadInts(s)
  {
    ReadIntsSkip(" " + s);
    TrimLeftSpace(s);
  }

  lemma ReadIntsSkip(s: string)
    ensures ReadInts(s) == ReadInts(TrimLeft(s))
  {
    var t := TrimLeft(s);
    TrimLeftNoSpace(t);
    var o := ScanInt(t);
    assert ReadInts(s) == ReadIntsOf(o);
    assert ReadInts(t) == ReadIntsOf(o);
  }

  /** What `ReadInts` gives after a scan with result `o`. */
  function ReadIntsOf(o: Option<(int, string)>): seq<int> {
    match o
    case None => []
    case Some((v, rest)) => if InInt(v) then [v] + ReadInts(rest) else []
  }

  lemma ReadDecimalsSkip(s: string)
    ensures ReadDecimals(s) == ReadDecimals(TrimLeft(s))
  {
    var t := TrimLeft(s);
    TrimLeftNoSpace(t);
  }

  /** `istream_iterator<double>` over a printed int vector yields the same values. */
  lemma {:induction false} ReadDecimalsSpaceJoin(xs: seq<int>)
    ensures ReadDecimals(SpaceJoin(xs)) == AsReals(xs)
  {
    if |xs| == 0 {
      ReadDecimalsEmpty();
    } else if |xs| == 1 {
      ReadDecimalsSingle(xs);
    } else {
      ReadDecimalsJoinStep(xs);
      ReadDecimalsSpaceJoin(xs[1..]);
      assert AsReals(xs) == [xs[0] as real] + AsReals(xs[1..]);
    }
  }

  lemma ReadDecimalsJoinStep(xs: seq<int>)
    requires |xs| > 1
    ensures ReadDecimals(SpaceJoin(xs)) == [xs[0] as real] + ReadDecimals(SpaceJoin(xs[1..]))
  {
    var rest := SpaceJoin(xs[1..]);
    SpaceJoinCons(xs);
    ReadDecimalsFmt(SpaceJoin(xs), xs[0], " " + rest);
    ReadDecimalsSpaced(rest);
  }

  lemma ReadDecimalsSpaced(s: string)
    requires |s| == 0 || !IsSpace(s[0])
    ensures ReadDecimals(" " + s) == ReadDecimals(s)
  {
    ReadDecimalsSkip(" " + s);
    TrimLeftSpace(s);
  }

  /** Integers seen as doubles. */
  function AsReals(xs: seq<int>): (r: seq<real>)
    ensures |r| == |xs| && forall i :: 0 <= i < |xs| ==> r[i] == xs[i] as real
  {
    if |xs| == 0 then [] else [xs[0] as real] + AsReals(xs[1..])
  }

  /** `std::stoi` reads back what `operator<<` printed for an `int`. */
  lemma StoiFmtInt(x: int)
    requires InInt(x)
    ensures Stoi(FmtInt(x)) == Some(x)
  {
    var s := FmtInt(x);
    TrimLeftNoSpace(s);
    assert s == FmtInt(x) + [];
    ScanIntFmt(s, x, []);
  }

  // ---------------------------------------------------------------------
  // Decimals written with a point, and separated (not terminated) pieces
  // ---------------------------------------------------------------------

  /** A decimal as a table cell holds it: an optional minus, the whole
      digits, a point and the fraction digits. */
  datatype Fixed = Fixed(neg: bool, whole: nat, frac: string)

  function FixedText(f: Fixed): (r: string)
    requires AllDigits(f.frac)
    ensures |r| > 0 && !IsSpace(r[0])
    ensures forall i :: 0 <= i < |r| ==> IsDigit(r[i]) || r[i] == '-' || r[i] == '.'
  {
    (if f.neg then "-" else "") + FmtNat(f.whole) + "." + f.frac
  }

  function FixedValue(f: Fixed): real
    requires AllDigits(f.frac)
  {
    var m := f.whole as real + FracValue(f.frac);
    if f.neg then -m else m
  }

  /** `std::stod` reads a written decimal back to its value. */
  lemma StodFixed(f: Fixed)
    requires AllDigits(f.frac)
    ensures Stod(FixedText(f)) == Some(FixedValue(f))
  {
    var s := FixedText(f);
    var t := TrimLeft(s);
    TrimLeftNoSpace(s);
    ScanFixed(f, t);
  }

  /** One extraction of a written decimal. */
  lemma ScanFixed(f: Fixed, s: string)
    requires AllDigits(f.frac) && s == FixedText(f)
    ensures ScanDecimal(s) == Some((FixedValue(f), []))
  {
    if f.neg {
      ScanFixedNegative(f, s);
    } else {
      ScanUnsignedFixed(s, f.whole, f.frac);
      ScanDecimalPlain(s, f.whole as real + FracValue(f.frac), []);
    }
  }

  lemma ScanFixedNegative(f: Fixed, s: string)
    requires AllDigits(f.frac) && f.neg && s == FixedText(f)
    ensures ScanDecimal(s) == Some((FixedValue(f), []))
  {
    var t := FmtNat(f.whole) + "." + f.frac;
    assert s == "-" + t;
    assert s[1..] == t && t[0] == FmtNat(f.whole)[0];
    ScanUnsignedFixed(t, f.whole, f.frac);
    ScanDecimalMinus(s, f.whole as real + FracValue(f.frac), []);
  }

  lemma ScanUnsignedFixed(t: string, whole: nat, frac: string)
    requires AllDigits(frac) && t == FmtNat(whole) + "." + frac
    ensures ScanUnsignedDecimal(t) == Some((whole as real + FracValue(frac), []))
  {
    var d := FmtNat(whole);
    FixedDigits(t, d, frac);
    DigitsValueFmtNat(whole);
    AllDigitsRun(t[|d| + 1..]);
  }

  /** The whole digits of a written decimal run up to its point. */
  lemma FixedDigits(t: string, d: string, frac: string)
    requires AllDigits(d) && t == d + "." + frac
    ensures DigitRun(t) == |d| && |d| < |t| && t[|d|] == '.'
    ensures t[..|d|] == d && t[|d| + 1..] == frac
  {
    DigitRunPrefix(t, d, "." + frac);
  }

  /** A string of digits is one run. */
  lemma AllDigitsRun(u: string)
    requires AllDigits(u)
    ensures DigitRun(u) == |u| && u[..|u|] == u && u[|u|..] == []
  {
    DigitRunPrefix(u, u, []);
  }

  /** The pieces with the delimiter between them (and not after the last). */
  function Join(pieces: seq<string>, d: char): string {
    if |pieces| == 0 then []
    else if |pieces| == 1 then pieces[0]
    else pieces[0] + [d] + Join(pieces[1..], d)
  }

  /** Splitting a joined row gives back its cells, provided the last cell
      is not empty (`getline` does not return an empty final piece). */
  lemma {:induction false} SplitJoin(pieces: seq<string>, d: char)
    requires |pieces| > 0 && |pieces[|pieces| - 1]| > 0
    requires forall i :: 0 <= i < |pieces| ==> d !in pieces[i]
    ensures Split(Join(pieces, d), d) == pieces
  {
    var p := pieces[0];
    if |pieces| == 1 {
      assert IndexOf(p, d).None?;
    } else {
      var rest := [d] + Join(pieces[1..], d);
      assert Join(pieces, d) == p + rest;
      IndexOfAfter(p, rest, d);
      assert (p + rest)[..|p|] == p;
      assert (p + rest)[|p| + 1..] == Join(pieces[1..], d);
      SplitJoin(pieces[1..], d);
      assert pieces == [p] + pieces[1..];
    }
  }
}

=== FILE: transform_registry.dfy ===
/** `QualisysTransformationManager`: the poses of one motion-capture
    sample, keyed by rigid-body name. Adding a name twice and looking up a
    missing name both throw `std::runtime_error`. */
module TransformRegistry {
  import opened Wrappers
  import opened Pose

  datatype Registry = Registry(entries: map<string, Matrix4>)

  const DuplicateId := "ID already exists"
  const MissingId := "Transformation ID not found"

  /** A registry with no entries. */
  function EmptyRegistry(): (r: Registry)
    ensures |r.entries| == 0
  {
    Registry(map[])
  }

  /** `addTransformation`. */
  function Add(r: Registry, id: string, t: Matrix4): (res: Result<Registry, string>)
    ensures res.Failure? <==> id in r.entries
    ensures res.Failure? ==> res.error == DuplicateId
    ensures res.Success? ==> res.value.entries.Keys == r.entries.Keys + {id}
  {
    if id in r.entries then Failure(DuplicateId)
    else Success(Registry(r.entries[id := t]))
  }

  /** `getTransformationById`. */
  function Get(r: Registry, id: string): (res: Result<Matrix4, string>)
    ensures res.Success? <==> id in r.entries
    ensures res.Failure? ==> res.error == MissingId
  {
    if id in r.entries then Success(r.entries[id]) else Failure(MissingId)
  }

  /** `clearTransformations`. */
  function Clear(r: Registry): (res: Registry)
    ensures forall id :: Get(res, id).Failure?
  {
    EmptyRegistry()
  }

  /** Adding a fresh name and then looking it up gives the pose added. */
  lemma AddThenGet(r: Registry, id: string, t: Matrix4)
    requires id !in r.entries
    ensures Add(r, id, t).Success?
    ensures Get(Add(r, id, t).value, id) == Success(t)
  {
  }

  /** Adding a fresh name leaves every other lookup as it was. */
  lemma AddKeepsOthers(r: Registry, id: string, t: Matrix4, other: string)
    requires id !in r.entries && other != id
    ensures Get(Add(r, id, t).value, other) == Get(r, other)
  {
  }

  /** Adding a name that is already there fails and the registry keeps its
      old pose under that name. */
  lemma AddDuplicateKeeps(r: Registry, id: string, t: Matrix4)
    requires id in r.entries
    ensures Add(r, id, t).Failure?
    ensures Get(r, id) == Success(r.entries[id])
  {
  }

  /** A registry built by adding poses one by one, in order. */
  function AddAll(r: Registry, items: seq<(string, Matrix4)>): Result<Registry, string>
    decreases |items|
  {
    if |items| == 0 then Success(r)
    else
      var next :- Add(r, items[0].0, items[0].1);
      AddAll(next, items[1..])
  }

  /** Building succeeds exactly when the names are fresh and distinct, and
      then every added name maps to its pose. */
  lemma {:induction false} AddAllSucceeds(r: Registry, items: seq<(string, Matrix4)>)
    requires forall i :: 0 <= i < |items| ==> items[i].0 !in r.entries
    requires forall i, j :: 0 <= i < j < |items| ==> items[i].0 != items[j].0
    ensures AddAll(r, items).Success?
    ensures forall i :: 0 <= i < |items| ==> Get(AddAll(r, items).value, items[i].0) == Success(items[i].1)
    ensures forall id :: id in r.entries ==> Get(AddAll(r, items).value, id) == Get(r, id)
    decreases |items|
  {
    if |items| > 0 {
      var next := Add(r, items[0].0, items[0].1).value;
      var rest := items[1..];
      assert forall i :: 0 <= i < |rest| ==> rest[i] == items[i + 1];
      AddAllSucceeds(next, rest);
      var final := AddAll(next, rest).value;
      assert AddAll(r, items) == AddAll(next, rest);
      forall i | 0 <= i < |items|
        ensures Get(final, items[i].0) == Success(items[i].1)
      {
        if i > 0 {
          assert items[i] == rest[i - 1];
        }
      }
    }
  }

  /** The names and poses in one pass over the map (`getAllIds` and
      `getAllTransformations` walk the same unordered map, so they list the
      entries in the same unspecified order). */
  method Listing(r: Registry) returns (ids: seq<string>, ts: seq<Matrix4>)
    ensures forall i, j :: 0 <= i < j < |ids| ==> ids[i] != ids[j]
    ensures forall i :: 0 <= i < |ids| ==> ids[i] in r.entries
    ensures forall id :: id in r.entries ==> id in ids
    ensures |ids| == |r.entries| == |ts|
    ensures forall i :: 0 <= i < |ids| ==> ts[i] == r.entries[ids[i]]
  {
    ids := [];
    ts := [];
    var left := r.entries.Keys;
    while left != {}
      invariant left <= r.entries.Keys
      invariant forall i :: 0 <= i < |ids| ==> ids[i] in r.entries && ids[i] !in left
      invariant forall id :: id in r.entries ==> id in ids || id in left
      invariant forall i, j :: 0 <= i < j < |ids| ==> ids[i] != ids[j]
      invariant |ids| + |left| == |r.entries|
      invariant |ts| == |ids| && forall i :: 0 <= i < |ids| ==> ts[i] == r.entries[ids[i]]
      decreases |left|
    {
      var id :| id in left;
      ids := ids + [id];
      ts := ts + [r.entries[id]];
      left := left - {id};
    }
  }

  /** `getAllIds`: every stored name exactly once. */
  method GetAllIds(r: Registry) returns (ids: seq<string>)
    ensures forall i, j :: 0 <= i < j < |ids| ==> ids[i] != ids[j]
    ensures forall id :: id in r.entries <==> id in ids
    ensures |ids| == |r.entries|
  {
    var ts;
    ids, ts := Listing(r);
  }

  /** `getAllTransformations`: one pose per stored name. */
  method GetAllTransformations(r: Registry) returns (ts: seq<Matrix4>)
    ensures |ts| == |r.entries|
    ensures forall i :: 0 <= i < |ts| ==> ts[i] in r.entries.Values
    ensures forall id :: id in r.entries ==> r.entries[id] in ts
  {
    var ids;
    ids, ts := Listing(r);
    forall id | id in r.entries
      ensures r.entries[id] in ts
    {
      var i :| 0 <= i < |ids| && ids[i] == id;
      assert ts[i] == r.entries[id];
    }
  }
}

=== FILE: volume3d.dfy ===
/** `Volume3DController`: the index arithmetic behind the point-cloud view
    of a volume read from a MetaImage file. Voxels are bytes; a voxel is
    shown when its intensity passes a threshold, and its linear index is
    split into (x, y, z) coordinates. The OpenMP loops of the source append
    in an unspecified order; the model appends in index order, and the
    contracts state what holds for every order (which indices, how many
    times, which values). */
module Volume3D {
  import opened Bytes
  import opened CInt
  import opened Wrappers
  import MhaReader

  // ---------------------------------------------------------------------
  // Threshold selection
  // ---------------------------------------------------------------------

  /** The indices from `i` on whose voxel passes `keep`, in increasing order. */
  function Select(volume: seq<byte>, keep: byte -> bool, i: nat): (r: seq<int>)
    requires i <= |volume|
    ensures forall j :: j in r <==> i <= j < |volume| && keep(volume[j])
    ensures forall a, b :: 0 <= a < b < |r| ==> r[a] < r[b]
    decreases |volume| - i
  {
    if i == |volume| then []
    else
      var rest := Select(volume, keep, i + 1);
      AllAbove(rest, volume, keep, i);
      (if keep(volume[i]) then [i] else []) + rest
  }

  lemma AllAbove(rest: seq<int>, volume: seq<byte>, keep: byte -> bool, i: nat)
    requires forall j :: j in rest <==> i + 1 <= j < |volume| && keep(volume[j])
    ensures forall b :: 0 <= b < |rest| ==> rest[b] > i
  {
    forall b | 0 <= b < |rest|
      ensures rest[b] > i
    {
      assert rest[b] in rest;
    }
  }

  /** In an increasing sequence every element occurs exactly once. */
  lemma {:induction false} IncreasingOnce(s: seq<int>)
    requires forall a, b :: 0 <= a < b < |s| ==> s[a] < s[b]
    ensures forall j :: multiset(s)[j] == if j in s then 1 else 0
    decreases |s|
  {
    if |s| > 0 {
      IncreasingOnce(s[1..]);
      assert s == [s[0]] + s[1..];
      assert s[0] !in s[1..];
    }
  }

  /** `Select` from 0 lists each passing index exactly once. */
  lemma SelectOnce(volume: seq<byte>, keep: byte -> bool, pick: int -> bool)
    requires forall j :: pick(j) <==> 0 <= j < |volume| && keep(volume[j])
    ensures ExactlyOnce(Select(volume, keep, 0), pick)
  {
    IncreasingOnce(Select(volume, keep, 0));
  }

  /** `s` holds each index that `pick` accepts exactly once, and nothing
      else: the order-free description of the parallel `push_back` loops. */
  ghost predicate ExactlyOnce(s: seq<int>, pick: int -> bool) {
    forall j :: multiset(s)[j] == if pick(j) then 1 else 0
  }

  /** `findIndicesWithThreshold(volume, int, result)`: appends, once each,
      the indices of the voxels strictly brighter than `threshold`. */
  function FindIndicesAbove(volume: seq<byte>, threshold: int, result: seq<int>): (r: seq<int>)
    ensures |r| >= |result| && r[..|result|] == result
    ensures ExactlyOnce(r[|result|..], j => 0 <= j < |volume| && volume[j] > threshold)
  {
    var added := Select(volume, v => v > threshold, 0);
    SelectOnce(volume, v => v > threshold, j => 0 <= j < |volume| && volume[j] > threshold);
    assert (result + added)[|result|..] == added;
    result + added
  }

  /** `findIndicesWithThreshold(volume, vector, result)` as written: more
      than two thresholds leave `result` alone; otherwise both comparisons
      use `threshold[0]`, so only voxels equal to it are selected. An empty
      threshold list is read out of bounds as soon as there is a voxel. */
  function FindIndicesInRangeAsWritten(volume: seq<byte>, threshold: seq<int>, result: seq<int>): (r: seq<int>)
    requires |threshold| > 0 || |volume| == 0
    ensures |threshold| > 2 ==> r == result
    ensures |r| >= |result| && r[..|result|] == result
    ensures |threshold| <= 2 && |volume| > 0 ==>
      ExactlyOnce(r[|result|..], j => 0 <= j < |volume| && volume[j] == threshold[0])
  {
    if |threshold| > 2 || |volume| == 0 then result
    else
      var t := threshold[0];
      var added := Select(volume, v => t <= v && v <= t, 0);
      SelectOnce(volume, v => t <= v && v <= t, j => 0 <= j < |volume| && volume[j] == threshold[0]);
      assert (result + added)[|result|..] == added;
      result + added
  }

  /** The range overload as evidently intended: the voxels between the first
      and the last threshold, both included. */
  function FindIndicesInRange(volume: seq<byte>, threshold: seq<int>, result: seq<int>): (r: seq<int>)
    requires |threshold| > 0 || |volume| == 0
    ensures |threshold| > 2 ==> r == result
    ensures |r| >= |result| && r[..|result|] == result
    ensures |threshold| <= 2 && |volume| > 0 ==>
      ExactlyOnce(r[|result|..], j => 0 <= j < |volume| && threshold[0] <= volume[j] <= threshold[|threshold| - 1])
  {
    if |threshold| > 2 || |volume| == 0 then result
    else
      var lo, hi := threshold[0], threshold[|threshold| - 1];
      var added := Select(volume, v => lo <= v && v <= hi, 0);
      SelectOnce(volume, v => lo <= v && v <= hi,
        j => 0 <= j < |volume| && threshold[0] <= volume[j] <= threshold[|threshold| - 1]);
      assert (result + added)[|result|..] == added;
      result + added
  }

  /** The two agree exactly when the range is a single value. */
  lemma RangeAgreesOnSingleValue(volume: seq<byte>, threshold: seq<int>, result: seq<int>)
    requires 0 < |threshold| <= 2 && threshold[0] == threshold[|threshold| - 1]
    ensures FindIndicesInRangeAsWritten(volume, threshold, result) == FindIndicesInRange(volume, threshold, result)
  {
    if |volume| > 0 {
      var t := threshold[0];
      var keep1: byte -> bool := v => t <= v && v <= t;
      var keep2: byte -> bool := v => threshold[0] <= v && v <= threshold[|threshold| - 1];
      assert keep1 == keep2;
    }
  }

  /** A voxel of 15 between the thresholds 10 and 20 is missed as written
      and selected as intended. */
  lemma RangeMissesInterior()
    ensures FindIndicesInRangeAsWritten([15], [10, 20], []) == []
    ensures FindIndicesInRange([15], [10, 20], []) == [0]
  {
    var r := FindIndicesInRange([15], [10, 20], []);
    assert r[0..] == r;
    assert multiset(r)[0] == 1;
    assert forall b :: 0 <= b < |r| ==> r[b] in multiset(r) && r[b] == 0;
    assert multiset(r) == multiset{0};
  }

  /** `getValuesWithIndices`: appends the voxel at every given index, in the
      order the indices are visited. */
  method GetValuesWithIndices(volume: seq<byte>, indices: seq<int>, result: seq<byte>) returns (r: seq<byte>)
    requires forall k :: 0 <= k < |indices| ==> 0 <= indices[k] < |volume|
    ensures |r| == |result| + |indices| && r[..|result|] == result
    ensures forall k :: 0 <= k < |indices| ==> r[|result| + k] == volume[indices[k]]
    ensures multiset(r) == multiset(result) + multiset(ValuesAt(volume, indices))
  {
    r := result;
    for k := 0 to |indices|
      invariant |r| == |result| + k && r[..|result|] == result
      invariant forall j :: 0 <= j < k ==> r[|result| + j] == volume[indices[j]]
      invariant r == result + ValuesAt(volume, indices[..k])
    {
      assert indices[..k + 1] == indices[..k] + [indices[k]];
      ValuesAtSnoc(volume, indices[..k], indices[k]);
      r := r + [volume[indices[k]]];
    }
    assert indices[..|indices|] == indices;
  }

  /** The voxels at the given indices, in order. */
  function ValuesAt(volume: seq<byte>, indices: seq<int>): seq<byte>
    requires forall k :: 0 <= k < |indices| ==> 0 <= indices[k] < |volume|
  {
    seq(|indices|, k requires 0 <= k < |indices| => volume[indices[k]])
  }

  lemma ValuesAtSnoc(volume: seq<byte>, indices: seq<int>, i: int)
    requires forall k :: 0 <= k < |indices| ==> 0 <= indices[k] < |volume|
    requires 0 <= i < |volume|
    ensures ValuesAt(volume, indices + [i]) == ValuesAt(volume, indices) + [volume[i]]
  {
  }

  // ---------------------------------------------------------------------
  // `ind2sub`
  // ---------------------------------------------------------------------

  /** A voxel's coordinates. */
  datatype Coord = Coord(x: int, y: int, z: int)

  /** One index split by the C++ expressions of `ind2sub`. */
  function Sub(i: int, d0: int, d1: int): Coord
    requires d0 != 0 && d1 != 0
  {
    Coord(Rem(i, d0), Rem(Quot(i, d0), d1), Quot(i, d0 * d1))
  }

  /** The splits of the given indices, in order. */
  function Subs(indices: seq<int>, d0: int, d1: int): seq<Coord>
    requires d0 != 0 && d1 != 0
  {
    seq(|indices|, k requires 0 <= k < |indices| => Sub(indices[k], d0, d1))
  }

  /** The column-major linear index of a coordinate: the inverse of `Sub`. */
  function LinearIndex(c: Coord, d0: int, d1: int): int {
    c.x + d0 * (c.y + d1 * c.z)
  }

  /** For a non-negative index and positive extents, the split lies in the
      grid and recombines to the index; an index inside a `d0 × d1 × d2`
      volume gets a `z` below `d2`. */
  lemma SubInverse(i: int, d0: int, d1: int, d2: int)
    requires i >= 0 && d0 > 0 && d1 > 0
    ensures var c := Sub(i, d0, d1);
      0 <= c.x < d0 && 0 <= c.y < d1 && 0 <= c.z
      && LinearIndex(c, d0, d1) == i
      && (i < d0 * d1 * d2 ==> c.z < d2)
  {
    var q := i / d0;
    DivMod(i, d0);
    NonNegative(i, d0);
    NonNegative(q, d1);
    PositiveProduct(d0, d1);
    NonNegative(i, d0 * d1);
    var x, y, w := i % d0, q % d1, q / d1;
    DivMod(q, d1);
    SplitTwice(i, d0, d1, q, x, w, y);
    assert Sub(i, d0, d1) == Coord(x, y, w);
    if i < d0 * d1 * d2 {
      ZBelow(i, d0 * d1, d2, w);
      assert d0 * d1 * d2 == (d0 * d1) * d2;
    }
  }

  /** Dividing by `d0` and then by `d1` is dividing by `d0 · d1`, and the
      three digits recombine to the index. */
  lemma SplitTwice(i: int, d0: int, d1: int, q: int, x: int, w: int, y: int)
    requires i >= 0 && d0 > 0 && d1 > 0
    requires i == q * d0 + x && 0 <= x < d0
    requires q == w * d1 + y && 0 <= y < d1 && q >= 0
    ensures i / (d0 * d1) == w && i == x + d0 * (y + d1 * w)
  {
    var p := d0 * d1;
    PositiveProduct(d0, d1);
    assert i == w * p + (x + d0 * y) by {
      Distribute(w * d1, y, d0);
      assert (w * d1) * d0 == w * p;
    }
    MulMonotone(y, d1 - 1, d0);
    assert d0 * (d1 - 1) == p - d0;
    DivUnique(i, p, w, x + d0 * y);
    Distribute(y, d1 * w, d0);
  }

  /** A quotient by `p` of an index below `p · d2` is below `d2`. */
  lemma ZBelow(i: int, p: int, d2: int, w: int)
    requires p > 0 && 0 <= i < p * d2 && w == i / p
    ensures w < d2
  {
    DivMod(i, p);
    if w >= d2 {
      MulMonotone(d2, w, p);
    }
  }

  lemma PositiveProduct(a: int, b: int)
    requires a > 0 && b > 0
    ensures a * b > 0
  {
    MulAtLeast(a, b);
  }

  lemma Distribute(a: int, b: int, c: int)
    ensures (a + b) * c == a * c + b * c && c * (a + b) == c * a + c * b
  {
  }

  /** Every index has a split: `ind2sub` reads `dimsize[0]` and `dimsize[1]`
      and divides by them, once there is an index to split. */
  predicate SplitDefined(indices: seq<int>, dims: seq<int>) {
    |indices| == 0 || (|dims| >= 2 && dims[0] != 0 && dims[1] != 0)
  }

  /** `ind2sub`: appends one coordinate per index. Each coordinate of a
      non-negative index under positive extents lies in the grid and maps
      back to its index. */
  method Ind2Sub(indices: seq<int>, dims: seq<int>, result: seq<Coord>) returns (r: seq<Coord>)
    requires SplitDefined(indices, dims)
    ensures |r| == |result| + |indices| && r[..|result|] == result
    ensures |indices| > 0 ==> multiset(r[|result|..]) == multiset(Subs(indices, dims[0], dims[1]))
    ensures |indices| > 0 && dims[0] > 0 && dims[1] > 0 ==>
      forall k :: 0 <= k < |indices| && indices[k] >= 0 ==>
        var c := r[|result| + k];
        0 <= c.x < dims[0] && 0 <= c.y < dims[1] && 0 <= c.z
        && LinearIndex(c, dims[0], dims[1]) == indices[k]
  {
    r := result;
    for k := 0 to |indices|
      invariant |r| == |result| + k && r[..|result|] == result
      invariant forall j :: 0 <= j < k ==> r[|result| + j] == Sub(indices[j], dims[0], dims[1])
    {
      r := r + [Sub(indices[k], dims[0], dims[1])];
    }
    if |indices| > 0 {
      assert r[|result|..] == Subs(indices, dims[0], dims[1]);
    }
    if |indices| > 0 && dims[0] > 0 && dims[1] > 0 {
      forall k | 0 <= k < |indices| && indices[k] >= 0
        ensures var c := r[|result| + k];
          0 <= c.x < dims[0] && 0 <= c.y < dims[1] && 0 <= c.z
          && LinearIndex(c, dims[0], dims[1]) == indices[k]
      {
        SubInverse(indices[k], dims[0], dims[1], 0);
      }
    }
  }

  // ---------------------------------------------------------------------
  // Intensity range and the initial threshold
  // ---------------------------------------------------------------------

  /** `std::minmax_element` over the volume: the least and the greatest
      intensity. An empty volume would dereference the end iterator. */
  function MinMax(volume: seq<byte>): (r: (int, int))
    requires |volume| > 0
    ensures r.0 in volume && r.1 in volume
    ensures forall j :: 0 <= j < |volume| ==> r.0 <= volume[j] <= r.1
    decreases |volume|
  {
    if |volume| == 1 then (volume[0], volume[0])
    else
      var rest := MinMax(volume[1..]);
      assert forall j :: 1 <= j < |volume| ==> volume[j] == volume[1..][j - 1];
      (if volume[0] < rest.0 then volume[0] else rest.0,
       if volume[0] > rest.1 then volume[0] else rest.1)
  }

  /** `initData`'s threshold: halfway from the least to the greatest
      intensity, rounded down. */
  function InitThreshold(lo: int, hi: int): (t: int)
    requires lo <= hi
    ensures lo <= t <= hi
    ensures t < hi <==> lo < hi
  {
    NonNegative(hi - lo, 2);
    lo + Quot(hi - lo, 2)
  }

  /** The first view shows some voxel exactly when the volume is not of one
      intensity: the brightest voxel passes the initial threshold unless
      every voxel has the same value. */
  lemma InitialViewNonEmpty(volume: seq<byte>)
    requires |volume| > 0
    ensures var (lo, hi) := MinMax(volume);
      |FindIndicesAbove(volume, InitThreshold(lo, hi), [])| > 0 <==> lo < hi
  {
    var (lo, hi) := MinMax(volume);
    var t := InitThreshold(lo, hi);
    if lo < hi {
      var j :| 0 <= j < |volume| && volume[j] == hi;
      SomeAbove(volume, t, j);
    } else {
      NoneAbove(volume, t);
    }
  }

  /** A voxel above the threshold is selected, so the selection is not empty. */
  lemma SomeAbove(volume: seq<byte>, t: int, j: nat)
    requires j < |volume| && volume[j] > t
    ensures |FindIndicesAbove(volume, t, [])| > 0
  {
    var r := FindIndicesAbove(volume, t, []);
    assert r[0..] == r;
    assert multiset(r[0..])[j] == 1;
  }

  /** With no voxel above the threshold nothing is selected. */
  lemma NoneAbove(volume: seq<byte>, t: int)
    requires forall j :: 0 <= j < |volume| ==> volume[j] <= t
    ensures FindIndicesAbove(volume, t, []) == []
  {
    var r := FindIndicesAbove(volume, t, []);
    assert r[0..] == r;
    assert multiset(r) == multiset{};
  }

  /** The threshold chain of `initData` and `updateVolume`. For any order in
      which the parallel loops append, the intensities and the coordinates
      are those of the selected voxels, counted with multiplicity; in the
      sequential order modelled here they also line up position by
      position, and every coordinate lies in the grid and maps back to its
      voxel. The extents are read only once some voxel passes. */
  method Threshold(volume: seq<byte>, dims: seq<int>, threshold: int)
    returns (indices: seq<int>, values: seq<byte>, coords: seq<Coord>)
    requires (exists j :: 0 <= j < |volume| && volume[j] > threshold) ==>
      |dims| >= 2 && dims[0] != 0 && dims[1] != 0
    ensures |values| == |indices| == |coords|
    ensures ExactlyOnce(indices, j => 0 <= j < |volume| && volume[j] > threshold)
    ensures forall k :: 0 <= k < |indices| ==> 0 <= indices[k] < |volume| && volume[indices[k]] > threshold
    ensures SplitDefined(indices, dims)
    ensures forall k :: 0 <= k < |values| ==> values[k] > threshold
    ensures multiset(values) == multiset(ValuesAt(volume, indices))
    ensures |indices| > 0 ==> multiset(coords) == multiset(Subs(indices, dims[0], dims[1]))
    ensures |indices| > 0 && dims[0] > 0 && dims[1] > 0 ==>
      forall k :: 0 <= k < |coords| ==>
        0 <= coords[k].x < dims[0] && 0 <= coords[k].y < dims[1]
        && LinearIndex(coords[k], dims[0], dims[1]) == indices[k]
  {
    indices := FindIndicesAbove(volume, threshold, []);
    assert indices[0..] == indices;
    AboveIndices(volume, threshold);
    assert |indices| > 0 ==> volume[indices[0]] > threshold;
    values, coords := ValuesAndCoords(volume, dims, threshold, indices);
  }

  /** The second half of the chain, for indices already known to pass. */
  method ValuesAndCoords(volume: seq<byte>, dims: seq<int>, threshold: int, indices: seq<int>)
    returns (values: seq<byte>, coords: seq<Coord>)
    requires forall k :: 0 <= k < |indices| ==> 0 <= indices[k] < |volume| && volume[indices[k]] > threshold
    requires SplitDefined(indices, dims)
    ensures |values| == |indices| == |coords|
    ensures forall k :: 0 <= k < |values| ==> values[k] > threshold
    ensures multiset(values) == multiset(ValuesAt(volume, indices))
    ensures |indices| > 0 ==> multiset(coords) == multiset(Subs(indices, dims[0], dims[1]))
    ensures |indices| > 0 && dims[0] > 0 && dims[1] > 0 ==>
      forall k :: 0 <= k < |coords| ==>
        0 <= coords[k].x < dims[0] && 0 <= coords[k].y < dims[1]
        && LinearIndex(coords[k], dims[0], dims[1]) == indices[k]
  {
    values := GetValuesWithIndices(volume, indices, []);
    forall k | 0 <= k < |values|
      ensures values[k] > threshold
    {
      assert values[0 + k] == volume[indices[k]];
    }
    assert |indices| > 0 ==> 0 <= indices[0] < |volume|;
    coords := Ind2Sub(indices, dims, []);
    assert coords[0..] == coords;
    if |indices| > 0 && dims[0] > 0 && dims[1] > 0 {
      forall k | 0 <= k < |coords|
        ensures 0 <= coords[k].x < dims[0] && 0 <= coords[k].y < dims[1]
        ensures LinearIndex(coords[k], dims[0], dims[1]) == indices[k]
      {
        assert coords[0 + k] == coords[k] && indices[k] >= 0;
      }
    }
  }

  /** Each selected index addresses a voxel above the threshold. */
  lemma AboveIndices(volume: seq<byte>, threshold: int)
    ensures var r := FindIndicesAbove(volume, threshold, []);
      (|r| > 0 ==> |volume| > 0)
      && forall k :: 0 <= k < |r| ==> 0 <= r[k] < |volume| && volume[r[k]] > threshold
  {
    var r := FindIndicesAbove(volume, threshold, []);
    assert r[0..] == r;
    forall k | 0 <= k < |r|
      ensures 0 <= r[k] < |volume| && volume[r[k]] > threshold
    {
      assert r[k] in multiset(r);
      assert multiset(r)[r[k]] > 0;
    }
  }

  /** A compressed file leaves the reader's volume empty, so a controller
      built on it has no intensity range: `MinMax` does not apply. */
  lemma CompressedVolumeEmpty(h: MhaReader.Header, file: string)
    ensures var res := MhaReader.ReadVolumeImage(MhaReader.Reader(h, []), file);
      res.Success? && res.value.header.compressed ==> res.value.volume == []
  {
  }
}

=== FILE: volume_amode.dfy ===
/** `VolumeAmodeController`: how many rotated copies of each A-mode signal
    are drawn, where each copy goes in the display matrix, and the soft
    synchronisation of A-mode frames with the probe-holder pose. A rotation
    matrix is stood for by its angle in degrees; the sine/cosine entries and
    the scatter-plot calls are not modelled. */
module VolumeAmode {
  import opened Wrappers
  import opened Pose
  import opened Bytes
  import opened SoftSync
  import opened TransformRegistry
  import CInt

  /** The rigid body whose pose places the A-mode probes. */
  const HolderId := "TB-M"

  /** `n_signaldisplay`, `rotation_signaldisplay` (as angles), and the last
      A-mode frame and holder pose with their ready flags. */
  datatype Controller = Controller(n: int, angles: seq<int>, flags: Flags<seq<i16>, Matrix4>)

  /** The display modes the controller knows. */
  predicate KnownMode(mode: int) {
    0 <= mode <= 2
  }

  /** `setSignalDisplayMode`: the rotation list is emptied, then mode 0
      draws one copy, mode 1 two copies half a turn apart, mode 2 four
      copies a quarter turn apart. Any other mode keeps the old count and
      leaves no rotation at all. */
  function SetSignalDisplayMode(c: Controller, mode: int): (r: Controller)
    ensures r.flags == c.flags
    ensures KnownMode(mode) ==> r.n == (if mode == 0 then 1 else if mode == 1 then 2 else 4)
    ensures KnownMode(mode) ==> |r.angles| == r.n
    ensures !KnownMode(mode) ==> r.n == c.n && r.angles == []
  {
    var r := c.(angles := []);
    if mode == 0 then r.(n := 1, angles := [0])
    else if mode == 1 then r.(n := 2, angles := [0, 180])
    else if mode == 2 then r.(n := 4, angles := [0, 90, 180, 270])
    else r
  }

  /** In a known mode the `n` copies are spread evenly round the full turn,
      starting from the unrotated signal: copy `k` is turned by `k * 360 / n`
      degrees. */
  lemma KnownModeEvenlySpaced(c: Controller, mode: int)
    requires KnownMode(mode)
    ensures var r := SetSignalDisplayMode(c, mode);
      r.n > 0 && 360 % r.n == 0 &&
      forall k :: 0 <= k < |r.angles| ==> r.angles[k] == k * (360 / r.n)
  {
  }

  /** The copies are pairwise distinct rotations within one turn. */
  lemma KnownModeDistinct(c: Controller, mode: int)
    requires KnownMode(mode)
    ensures var r := SetSignalDisplayMode(c, mode);
      forall i, j :: 0 <= i < j < |r.angles| ==> 0 <= r.angles[i] < r.angles[j] < 360
  {
  }

  /** Choosing a mode twice is the same as choosing it once. */
  lemma SetModeIdempotent(c: Controller, mode: int)
    ensures SetSignalDisplayMode(SetSignalDisplayMode(c, mode), mode) == SetSignalDisplayMode(c, mode)
  {
  }

  /** The mode chosen last decides the display, whatever was chosen before. */
  lemma SetModeLastWins(c: Controller, m1: int, m2: int)
    requires KnownMode(m2)
    ensures SetSignalDisplayMode(SetSignalDisplayMode(c, m1), m2) == SetSignalDisplayMode(c, m2)
  {
  }

  /** An unknown mode leaves the count of copies at one or more while no
      rotation is left to draw them: the display matrix is then `n` blocks
      wide but no block is filled. */
  lemma UnknownModeLeavesNoRotation(c: Controller, mode: int)
    requires !KnownMode(mode) && c.n >= 1
    ensures var r := SetSignalDisplayMode(c, mode);
      r.n >= 1 && |r.angles| == 0 && |r.angles| < r.n
  {
  }

  /** The constructor: `n_signaldisplay` starts at 1, the flags start clear,
      the holder pose starts as the identity and the frame as empty; then
      mode 0 is selected. */
  function Init(): (c: Controller)
    ensures c.n == 1 && c.angles == [0]
    ensures !c.flags.aReady && !c.flags.bReady && c.flags.b == Identity
  {
    SetSignalDisplayMode(Controller(1, [], Flags([], Identity, false, false)), 0)
  }

  /** The `uint16_t` to `int16_t` copy made of each received frame. */
  function ToSigned(words: seq<u16>): (r: seq<i16>)
    ensures |r| == |words|
    ensures forall i :: 0 <= i < |r| ==> (r[i] - words[i]) % 0x1_0000 == 0
  {
    seq(|words|, i requires 0 <= i < |words| => ToInt16(words[i]))
  }

  /** The signed copy loses nothing: adding 65536 back to the negative
      samples gives the received words again. */
  lemma ToSignedKeepsBits(words: seq<u16>)
    ensures forall i :: 0 <= i < |words| ==>
      words[i] == (var s: int := ToSigned(words)[i]; if s < 0 then s + 0x1_0000 else s)
  {
  }

  /** `onAmodeSignalReceived`: the frame is stored and flagged, and it is
      shown at once exactly when a holder pose is waiting. */
  function OnAmodeSignal(c: Controller, words: seq<u16>): (r: Step<Controller, seq<i16>, Matrix4>)
    ensures r.next.n == c.n && r.next.angles == c.angles
    ensures r.next.flags.a == ToSigned(words) && r.next.flags.b == c.flags.b
    ensures r.paired.Some? <==> c.flags.bReady
    ensures r.paired.Some? ==> r.paired.value == (ToSigned(words), c.flags.b) && !r.next.flags.aReady && !r.next.flags.bReady
    ensures r.paired.None? ==> r.next.flags.aReady && !r.next.flags.bReady
  {
    var s := FlagOfferA(c.flags, ToSigned(words));
    Step(c.(flags := s.next), s.paired)
  }

  /** `onRigidBodyReceived`: the holder pose is looked up, which throws when
      the sample has no "TB-M" body; otherwise it is stored and flagged, and
      shown at once exactly when a frame is waiting. */
  function OnRigidBody(c: Controller, reg: Registry): (res: Result<Step<Controller, seq<i16>, Matrix4>, string>)
    ensures res.Failure? <==> HolderId !in reg.entries
    ensures res.Failure? ==> res.error == MissingId
    ensures res.Success? ==> var r := res.value;
      r.next.n == c.n && r.next.angles == c.angles &&
      r.next.flags.b == reg.entries[HolderId] && r.next.flags.a == c.flags.a &&
      (r.paired.Some? <==> c.flags.aReady) &&
      (r.paired.Some? ==> r.paired.value == (c.flags.a, reg.entries[HolderId]))
  {
    var t :- Get(reg, HolderId);
    var s := FlagOfferB(c.flags, t);
    Success(Step(c.(flags := s.next), s.paired))
  }

  /** `visualize3DSignal` as far as the flags go: both are cleared first. */
  function Visualize(c: Controller): (r: Controller)
    ensures !r.flags.aReady && !r.flags.bReady
    ensures r.flags.a == c.flags.a && r.flags.b == c.flags.b && r.n == c.n && r.angles == c.angles
  {
    c.(flags := Fire(c.flags))
  }

  /** A frame or a motion-capture sample. */
  type Arrival = Event<seq<u16>, Registry>

  function Arrive(c: Controller, e: Arrival): Result<Step<Controller, seq<i16>, Matrix4>, string> {
    match e
    case FromA(words) => Success(OnAmodeSignal(c, words))
    case FromB(reg) => OnRigidBody(c, reg)
  }

  /** Arrivals in order: the final controller and the frame/pose pairs
      shown, or the exception of the first sample without the holder. */
  function Feed(c: Controller, evs: seq<Arrival>): Result<(Controller, seq<(seq<i16>, Matrix4)>), string>
    decreases |evs|
  {
    if |evs| == 0 then Success((c, []))
    else
      var st :- Arrive(c, evs[0]);
      var rest :- Feed(st.next, evs[1..]);
      Success((rest.0, (if st.paired.Some? then [st.paired.value] else []) + rest.1))
  }

  /** Every sample in the run carries the holder. */
  predicate AllHaveHolder(evs: seq<Arrival>) {
    forall i :: 0 <= i < |evs| && evs[i].FromB? ==> HolderId in evs[i].y.entries
  }

  /** What reaches the flag machine: the signed frame or the holder pose. */
  function Lift(evs: seq<Arrival>): (r: seq<Event<seq<i16>, Matrix4>>)
    requires AllHaveHolder(evs)
    ensures |r| == |evs|
    ensures forall i :: 0 <= i < |evs| ==> r[i] == Lifted(evs[i])
    decreases |evs|
  {
    if |evs| == 0 then [] else [Lifted(evs[0])] + Lift(evs[1..])
  }

  function Lifted(e: Arrival): Event<seq<i16>, Matrix4>
    requires e.FromB? ==> HolderId in e.y.entries
  {
    match e
    case FromA(words) => FromA(ToSigned(words))
    case FromB(reg) => FromB(reg.entries[HolderId])
  }

  /** A run fails exactly when some sample lacks the holder. */
  lemma {:induction false} FeedFails(c: Controller, evs: seq<Arrival>)
    ensures Feed(c, evs).Failure? <==> !AllHaveHolder(evs)
    decreases |evs|
  {
    if |evs| > 0 {
      FeedFails(if Arrive(c, evs[0]).Success? then Arrive(c, evs[0]).value.next else c, evs[1..]);
      assert forall i :: 0 < i < |evs| ==> evs[1..][i - 1] == evs[i];
      if !AllHaveHolder(evs) && Arrive(c, evs[0]).Success? {
        var i :| 0 <= i < |evs| && evs[i].FromB? && HolderId !in evs[i].y.entries;
        assert i > 0;
        assert evs[1..][i - 1] == evs[i];
      }
    }
  }

  /** When no sample lacks the holder the controller shows what its flag
      machine pairs, and arrivals never change the display mode. */
  lemma {:induction false} FeedIsFlagRun(c: Controller, evs: seq<Arrival>)
    requires AllHaveHolder(evs)
    ensures Feed(c, evs).Success?
    ensures Feed(c, evs).value.1 == FlagRun(c.flags, Lift(evs))
    ensures Feed(c, evs).value.0.n == c.n && Feed(c, evs).value.0.angles == c.angles
    decreases |evs|
  {
    if |evs| > 0 {
      var st := Arrive(c, evs[0]).value;
      assert FlagOffer(c.flags, Lifted(evs[0])) == Step(st.next.flags, st.paired);
      assert AllHaveHolder(evs[1..]) by {
        assert forall i :: 0 <= i < |evs[1..]| ==> evs[1..][i] == evs[i + 1];
      }
      FeedIsFlagRun(st.next, evs[1..]);
      assert Lift(evs)[1..] == Lift(evs[1..]);
    }
  }

  /** From a fresh controller the frames and poses shown are exactly the
      greedy pairs of adjacent arrivals from the two streams. */
  lemma FeedFromInitIsGreedy(evs: seq<Arrival>)
    requires AllHaveHolder(evs)
    ensures Feed(Init(), evs).Success?
    ensures Feed(Init(), evs).value.1 == Greedy(Lift(evs))
  {
    var c := Init();
    FeedIsFlagRun(c, evs);
    assert c.flags == Flags([], Identity, false, false);
    FlagRunIsGreedy([], Identity, Lift(evs));
  }

  // ---------------------------------------------------------------------
  // Display matrix layout
  // ---------------------------------------------------------------------

  /** The column where sample `s` of copy `j` lands when each copy is
      `width` samples wide. */
  function Column(j: nat, s: nat, width: nat): nat {
    j * width + s
  }

  /** What one display column shows: sample `s` of the signal turned by
      `angle`, or nothing when no rotation filled that block. */
  datatype Cell = Drawn(angle: int, sample: nat) | Unwritten

  /** The display matrix of one probe: `n * width` columns, and copy `j`
      written into the block of columns starting at `j * width`. The rotation
      list may be shorter than `n` (after an unknown mode) but never longer. */
  method Display(angles: seq<int>, n: nat, width: nat) returns (cols: seq<Cell>)
    requires |angles| <= n
    ensures |cols| == n * width
    ensures forall j, s :: 0 <= j < |angles| && 0 <= s < width ==>
      Column(j, s, width) < |cols| && cols[Column(j, s, width)] == Drawn(angles[j], s)
    ensures forall col :: 0 <= col < |angles| * width ==> cols[col].Drawn?
    ensures forall col :: |angles| * width <= col < |cols| ==> cols[col] == Unwritten
  {
    cols := [];
    var j := 0;
    while j < |angles|
      invariant 0 <= j <= |angles|
      invariant |cols| == j * width
      invariant forall j', s :: 0 <= j' < j && 0 <= s < width ==>
        Column(j', s, width) < |cols| && cols[Column(j', s, width)] == Drawn(angles[j'], s)
      invariant forall col :: 0 <= col < |cols| ==> cols[col].Drawn?
    {
      var block := seq(width, s requires 0 <= s < width => Drawn(angles[j], s));
      BlockAppend(cols, block, j, width, angles[j]);
      cols := cols + block;
      j := j + 1;
    }
    CInt.MulMonotone(|angles|, n, width);
    var gap := n * width - |cols|;
    cols := cols + seq(gap, _ => Unwritten);
  }

  /** Appending copy `j` keeps the earlier blocks and puts sample `s` of the
      new copy at `Column(j, s, width)`. */
  lemma BlockAppend(cols: seq<Cell>, block: seq<Cell>, j: nat, width: nat, angle: int)
    requires |cols| == j * width && |block| == width
    requires forall s :: 0 <= s < width ==> block[s] == Drawn(angle, s)
    ensures |cols + block| == (j + 1) * width
    ensures forall j', s :: 0 <= j' < j && 0 <= s < width ==>
      Column(j', s, width) < |cols| && (cols + block)[Column(j', s, width)] == cols[Column(j', s, width)]
    ensures forall s :: 0 <= s < width ==>
      Column(j, s, width) < |cols + block| && (cols + block)[Column(j, s, width)] == Drawn(angle, s)
  {
    assert (j + 1) * width == j * width + width;
    forall j', s | 0 <= j' < j && 0 <= s < width
      ensures Column(j', s, width) < |cols|
    {
      CInt.MulMonotone(j' + 1, j, width);
      assert (j' + 1) * width == j' * width + width;
    }
  }

  /** Blocks do not overlap: a column belongs to one copy and one sample. */
  lemma ColumnUnique(j: nat, s: nat, j': nat, s': nat, width: nat)
    requires s < width && s' < width
    requires Column(j, s, width) == Column(j', s', width)
    ensures j == j' && s == s'
  {
    CInt.DivUnique(Column(j, s, width), width, j, s);
    CInt.DivUnique(Column(j, s, width), width, j', s');
  }

  /** Blocks leave no gap: column `col` is sample `col % width` of copy
      `col / width`. */
  lemma ColumnOf(col: nat, width: nat)
    requires width > 0
    ensures Column(col / width, col % width, width) == col
  {
    CInt.DivMod(col, width);
  }
}

=== FILE: wrappers.dfy ===
/** Failure-compatible wrappers shared by every module of the model.
    `Option` stands for a value that may be absent (std::optional, a search
    that finds nothing); `Result` stands for a computation that may throw. */
module Wrappers {

  datatype Option<+T> = None | Some(value: T) {

    predicate IsFailure() {
      None?
    }

    function PropagateFailure<U>(): Option<U>
      requires None?
    {
      None
    }

    function Extract(): T
      requires Some?
    {
      value
    }

    /** The contained value, or `default` when absent. */
    function GetOr(default: T): T {
      match this
      case Some(v) => v
      case None => default
    }
  }

  datatype Result<+R, +E> = Success(value: R) | Failure(error: E) {

    predicate IsFailure() {
      Failure?
    }

    function PropagateFailure<U>(): Result<U, E>
      requires Failure?
    {
      Failure(this.error)
    }

    function Extract(): R
      requires Success?
    {
      value
    }
  }
}
